=== FILE: README.md ===
# Terrain noise core: a Dafny model

This project models the noise-generation core of a Unity terrain generator, written in C#. The model has these layers:

- **`SpatialHash`**: a seeded, stateless coordinate hash. Mixing is done with rotations and xor on two 64-bit seeds. It is read out as booleans, (positive) ints, (positive) longs and doubles in `[0, 1]`.
- **`KFMath`**: helpers.
  - `ModRight`, a "positive modulus".
  - `Asymptote`, a soft ceiling.
  - `GetLongSeed`, `GetULongSeed` and `GetIntSeed`. Each turns a seed string into a number by parsing it, and falls back to the string's hash.
- **`Vec2D` / `Vec3D`**: gradient vectors drawn from the hash, with one component per hash channel in `[-1, 1]`, and their dot products.
- **`HeightNoiseMap`**: fractal 2D gradient noise over one tile.
  - The octave width is halved while it stays above `cutoff`.
  - Each octave adds a faded lattice cell at every sample.
  - The sum is finally remapped by `scale` and `offset`.
- **`NoiseMap2D`**: the same idea over a square region. Each octave uses its own hash channel, `startz + 2k`.
- **`HeightNoiseMap3D`**: the 3D version.
  - Trilinear sampling uses `GetValue`.
- **`AdvancedNoise`**: domain-warped height.
  - It fills a 3-layer scratch pad with the 3x3 tiles around `(x, z)`: layers 1 and 2 at full scaling, layer 0 at default scaling.
  - It then reads layer 0 at indices displaced by the warp values of layers 1 and 2, each times a quarter tile. For warps in `[-1, 1]` that is at most a quarter tile; no bound on the warps themselves is proved.

How the C# is rendered in Dafny:

- `int` is `Int32`. Unchecked `+` and `*` go through `Wrap32`.
- Integer `/` and `%` truncate toward zero: `TruncDiv`, `TruncRem`.
- `ulong` is `bv64`.
- `float` and `double` are `real`.
- The `(int)` cast of a `float` truncates toward zero: `RealToInt`.
- The generator classes are Dafny classes.
  - Their `Process` methods allocate the array the C# allocates and fill it with the same loops.
  - Each is proved against a specification function of the inputs: `Height`, `Value`, `Sample` and `ScratchValue`.
  - Each such function is a sum of octaves. The lemmas are stated about these sums.

## Model

| member | source | states |
|---|---|---|
| `CSharpInt.Wrap32` | Scripts/Util/HeightMapNoise.cs:80-81 | The unchecked result is the unique `int` congruent to the exact value modulo 2^32; values already in range are unchanged. |
| `CSharpInt.TruncDiv` | Scripts/Util/HeightMapNoise.cs:105-106 | Integer division truncates: it agrees with floor division on non-negative operands, and the sign of the quotient follows the signs of the operands. |
| `CSharpInt.TruncRem` | Scripts/Util/KFMath.cs:21 | `a == TruncDiv(a, b) * b + r`, `|r| < |b|`, and a non-zero remainder has the sign of `a`. |
| `CSharpInt.RealToInt` | Scripts/Util/AdvancedNoise.cs:70-71 | The float-to-int cast truncates toward zero: the result lies within 1 of its argument, on the side of zero. |
| `CSharpInt.Wrap32Add` | Scripts/Util/Noise/NoiseMap2D.cs:67 | Adding to an already wrapped value gives the same result as wrapping the exact sum once. |
| `Bits.Low31` | Scripts/Util/SpatialHash.cs:181-183 | Masking with `0x7fffffff` keeps the value modulo 2^31, in `[0, 2^31)`. |
| `Bits.Low63` | Scripts/Util/SpatialHash.cs:264-266 | Masking with `0x7fffffffffffffff` keeps the value modulo 2^63, in `[0, 2^63)`. |
| `Bits.Low32Signed` | Scripts/Util/SpatialHash.cs:153-155 | The truncating cast to `int` is congruent modulo 2^32, and it equals the 31-bit mask exactly when non-negative (otherwise the mask minus 2^31). |
| `Bits.Signed64` | Scripts/Util/SpatialHash.cs:254-261 | The cast to `long` is congruent modulo 2^64 and agrees with the 63-bit mask as `Low32Signed` does with the 31-bit one. |
| `Bits.UnitFraction` | Scripts/Util/SpatialHash.cs:126-141 | Dividing a `ulong` by `ulong.MaxValue` lies in `[0, 1]`; 0 maps to 0 and the maximum maps to 1. |
| `SpatialHashing.FromSeed` | Scripts/Util/SpatialHash.cs:28-31 | A hash built from a seed keeps that seed and derives the second seed from it. |
| `SpatialHashing.Eq` | Scripts/Util/SpatialHash.cs:40-41 | `==` holds exactly when both seeds agree. |
| `SpatialHashing.NotEq` | Scripts/Util/SpatialHash.cs:44-45 | `!=` is the exact negation of `==`. |
| `SpatialHashing.Equals` | Scripts/Util/SpatialHash.cs:64-66 | `Equals` agrees with `==`. |
| `SpatialHashing.GetHashCode` | Scripts/Util/SpatialHash.cs:59-61 | The hash code is the low 32 bits of the first seed. |
| `SpatialHashing.EqualsAgreesWithHashCode` | Scripts/Util/SpatialHash.cs:59-66 | Equal hashes have equal hash codes, as the .NET contract requires. |
| `SpatialHashing.SameSeedCompareEqual` | Scripts/Util/SpatialHash.cs:34-45 | Two hashes built from the same seed compare equal, and not unequal. |
| `SpatialHashing.MaskSign` | Scripts/Util/SpatialHash.cs:219-221 | Clearing the sign bit of a coordinate gives a non-negative value congruent to it modulo 2^31. |
| `SpatialHashing.RotateLeft` | Scripts/Util/SpatialHash.cs:286-288 | A rotation by a multiple of 64 leaves the word unchanged. |
| `SpatialHashing.RotateRight` | Scripts/Util/SpatialHash.cs:298-300 | A rotation by a multiple of 64 leaves the word unchanged. |
| `SpatialHashing.PutDistance` | Scripts/Util/SpatialHash.cs:219-221 | A rotation distance `(c & 0x7fffffff) % m + base` lies in `[base, base + m)`. |
| `SpatialHashing.AltDistance` | Scripts/Util/SpatialHash.cs:215-218 | A rotation distance `c % m + base` uses C#'s signed remainder: it lies in `(base - m, base + m)`, and at or above `base` for non-negative `c`. |
| `SpatialHashing.PutDistancesInRange` | Scripts/Util/SpatialHash.cs:219-221 | Each masked distance is in its range and never a multiple of 64, so these rotations always move bits. |
| `SpatialHashing.AltDistanceReachesZero` | Scripts/Util/SpatialHash.cs:215-216 | For `x = -13` the signed distance `x % 29 + 13` is 0, so that rotation is the identity. |
| `SpatialHashing.UlongFor3` | Scripts/Util/SpatialHash.cs:208-223 | When `x % 29 == -13`, the xor of a word with its own zero-distance rotation is 0, so the second-seed half drops out and only the first-seed half is left. |
| `SpatialHashing.UlongFor4` | Scripts/Util/SpatialHash.cs:234-251 | The same collapse for the four-coordinate hash. |
| `SpatialHashing.PintForIsMaskedIntFor` | Scripts/Util/SpatialHash.cs:153-183 | The positive int is `IntFor` itself when non-negative, and `IntFor + 2^31` otherwise. |
| `SpatialHashing.PlngForIsMaskedLongFor` | Scripts/Util/SpatialHash.cs:254-266 | The positive long is `LongFor` itself when non-negative, and `LongFor + 2^63` otherwise. |
| `KFMath.ModRight` | Scripts/Util/KFMath.cs:20-22 | The result is in `[0, |b|)`; on a negative `a` it is the remainder of `a + 2^31`, not of `a`. |
| `KFMath.FloorMod` | Scripts/Util/KFMath.cs:10-16 | The modulus that the documentation describes: `0 <= r < b` and `a == floor(a / b) * b + r`. |
| `KFMath.ModRightOnNatural` | Scripts/Util/KFMath.cs:20-22 | On non-negative `a`, `ModRight` is the floor modulus. |
| `KFMath.ModRightIsNotFloorMod` | Scripts/Util/KFMath.cs:10-22 | `ModRight(-1, 3) == 1`, while the documented "remainder from the next lower number" is 2. |
| `KFMath.Asymptote` | Scripts/Util/KFMath.cs:39-47 | Up to `start` the value passes through unchanged; above it the result stays strictly between `start` and `start + rate`, and below `n`. |
| `KFMath.AsymptoteMonotone` | Scripts/Util/KFMath.cs:65-73 | With a positive rate the curve is strictly increasing everywhere, including across `start`. |
| `KFMath.Trim` | Scripts/Util/KFMath.cs:82 | The result is a contiguous slice of the input with only white space on either side of it. It neither starts nor ends with white space, and an all-white-space input trims to the empty string. |
| `KFMath.TrimBothEnds` | Scripts/Util/KFMath.cs:82 | Removing leading and then trailing white space leaves that slice, with white space before and after it. |
| `KFMath.TrimIdempotent` | Scripts/Util/KFMath.cs:82 | Trimming twice is the same as trimming once. |
| `KFMath.TrimRemovesPadding` | Scripts/Util/KFMath.cs:82 | Trimming white-space padding off a trimmed core gives the core back. |
| `KFMath.ParseInteger` | Scripts/Util/KFMath.cs:84-87 | It is a format error exactly when the text is not an optionally signed digit string. A numeral parses to its value (`NumeralValue`: its digits, negated after a `-`) exactly when that value is in the type's range, and is an overflow error exactly when it is not. |
| `KFMath.LeadingZeroValue` | Scripts/Util/KFMath.cs:84-87 | A leading zero digit does not change a digit string's value. |
| `KFMath.ParseLeadingZero` | Scripts/Util/KFMath.cs:84-87 | After any sign, a leading `0` changes nothing: the text parses to the same value, overflow or format error as without it. |
| `KFMath.ParsePlusSign` | Scripts/Util/KFMath.cs:84-87 | A leading `+` changes nothing. |
| `KFMath.ParseNegativeZero` | Scripts/Util/KFMath.cs:84-87 | A `-` in front of an all-zero numeral changes nothing, and such a numeral parses to 0 in every range holding 0. |
| `KFMath.ParseDecimal` | Scripts/Util/KFMath.cs:84-87 | Parsing the decimal rendering of any in-range value gives that value back. |
| `KFMath.ParseDecimalOverflow` | Scripts/Util/KFMath.cs:84-87 | Parsing the decimal rendering of an out-of-range value is an overflow error. |
| `KFMath.BitOrZero` | Scripts/Util/KFMath.cs:91 | `|` with 0 is the identity on `k`-bit values. |
| `KFMath.BitOrOnes` | Scripts/Util/KFMath.cs:91 | `|` with all ones gives all ones. |
| `KFMath.LongFallbackHalves` | Scripts/Util/KFMath.cs:88-92 | The fallback long is the non-negative hash copied into both halves; a negative hash sign-extends into the high half, so the fallback equals the hash. |
| `KFMath.ULongFallbackHalves` | Scripts/Util/KFMath.cs:109-113 | Both 32-bit halves of the unsigned fallback carry the hash's bit pattern. |
| `KFMath.GetLongSeed` | Scripts/Util/KFMath.cs:81-94 | A seed is always in the `long` range. A trimmed numeral in range is the seed itself. The parse overflow escapes exactly when the trimmed text is a numeral out of range. |
| `KFMath.GetULongSeed` | Scripts/Util/KFMath.cs:102-115 | The same for `ulong`. A seed is in `[0, 2^64)`, and a trimmed numeral in that range is the seed. The overflow escapes exactly for out-of-range numerals, negative ones included. |
| `KFMath.GetIntSeed` | Scripts/Util/KFMath.cs:123-135 | The same for `int`. |
| `KFMath.SeedOfPaddedNumeral` | Scripts/Util/KFMath.cs:81-135 | A numeral padded with white space yields its own value, whenever the value is in range. |
| `KFMath.SeedOfNonNumeral` | Scripts/Util/KFMath.cs:88-92 | Text that is not a numeral yields the fallback built from the trimmed text's hash. |
| `KFMath.OverflowEscapesFallback` | Scripts/Util/KFMath.cs:81-135 | An out-of-range numeral reaches no fallback, because only a format error is caught; `"-1"` escapes from `GetULongSeed`. |
| `KFMath.TrimmedDecimalOverflow` | Scripts/Util/KFMath.cs:82-87 | The decimal rendering of an out-of-range value has nothing to trim, and parsing it overflows. |
| `Vectors.Component` | Scripts/Util/Noise/Vec2D.cs:25-28 | `d * 2 - 1` maps `[0, 1]` onto `[-1, 1]`, endpoint to endpoint. |
| `Vectors.UnitIsDoubleFor` | Scripts/Util/SpatialHash.cs:126-141 | The unit draw behind each vector component is the hash's `DoubleFor`. |
| `Vectors.Vec2DFromHash` | Scripts/Util/Noise/Vec2D.cs:25-28 | The vector lies in the unit square; x is drawn from channel `pz` and y from channel `pz + 1` (wrapping). |
| `Vectors.Vec2DFromHash4` | Scripts/Util/Noise/Vec2D.cs:30-33 | The four-coordinate form, with the same channels. |
| `Vectors.Vec2DChannelsOverlap` | Scripts/Util/Noise/Vec2D.cs:25-28 | The y of the vector on channel `pz` is the x of the vector on channel `pz + 1`. |
| `Vectors.Vec3DFromHash` | Scripts/Util/Noise/Vec3D.cs:29-33 | The vector lies in the unit cube; its components use channels `t`, `t + 1` and `t + 2`. |
| `Vectors.Vec3DChannelsOverlap` | Scripts/Util/Noise/Vec3D.cs:29-33 | Consecutive `t` values share two of their three channels, shifted by one. |
| `Vectors.Dot2` | Scripts/Util/Noise/Vec2D.cs:35-37 | The dot product of two unit-square vectors is in `[-2, 2]`. |
| `Vectors.Dot2Commutes` | Scripts/Util/Noise/Vec2D.cs:35-37 | The dot product is symmetric. |
| `Vectors.Dot2Scales` | Scripts/Util/Noise/Vec2D.cs:35-37 | The dot product is linear in its first argument. |
| `Vectors.Dot3` | Scripts/Util/Noise/Vec3D.cs:36-38 | The dot product of two unit-cube vectors is in `[-3, 3]`. |
| `Vectors.StaticDotIsInstanceDot` | Scripts/Util/Noise/Vec3D.cs:36-43 | The static `Dot` and the instance `Dot` agree. |
| `Vectors.Dot3Commutes` | Scripts/Util/Noise/Vec3D.cs:36-43 | The 3D dot product is symmetric. |
| `NoiseMath.FadeEndpoints` | Scripts/Util/HeightMapNoise.cs:150-152 | The fade curve fixes 0 and 1. |
| `NoiseMath.FadeSymmetric` | Scripts/Util/Noise/NoiseMap2D.cs:157-167 | `Fade(t) + Fade(1 - t) == 1`: the quintic is point-symmetric about `(1/2, 1/2)`. |
| `NoiseMath.FadeInUnit` | Scripts/Util/HeightMapNoise.cs:150-152 | Fade maps `[0, 1]` into `[0, 1]`. |
| `NoiseMath.FullFade` | Scripts/Util/HeightMapNoise.cs:155-157 | A fade scaled to width `ci` maps `[0, ci]` into `[0, ci]` and fixes 0. |
| `NoiseMath.CalcLoc2` | Scripts/Util/HeightMapNoise.cs:139-147 | Outside the unit distance of its node the contribution is 0; inside, it is the node's dot product weighted once by `1 - |d|^2`, where `d` is the offset divided by the octave width. |
| `NoiseMath.CalcLoc2Bounded` | Scripts/Util/HeightMapNoise.cs:139-147 | A node's contribution is never larger in magnitude than its plain dot product. |
| `NoiseMath.CalcLoc3` | Scripts/Util/Noise/HeightNoiseMap3D.cs:140-149 | The same cut-off and weighting in 3D. |
| `NoiseMath.CalcLoc3Bounded` | Scripts/Util/Noise/HeightNoiseMap3D.cs:140-149 | The same magnitude bound in 3D. |
| `NoiseMath.CornerSum2AtLattice` | Scripts/Util/HeightMapNoise.cs:115-136 | At a lattice point the four corner contributions cancel to 0. |
| `NoiseMath.CornerSum3AtLattice` | Scripts/Util/Noise/HeightNoiseMap3D.cs:103-137 | At a lattice point the eight corner contributions cancel to 0. |
| `NoiseMath.CellValue2AtLattice` | Scripts/Util/HeightMapNoise.cs:115-136 | Samples on multiples of the octave width are 0. |
| `NoiseMath.CellValue2Periodic` | Scripts/Util/HeightMapNoise.cs:115-136 | With the same nodes, a cell's value depends on the sample only through its offset within the cell. |
| `NoiseMath.CellValue3AtLattice` | Scripts/Util/Noise/HeightNoiseMap3D.cs:103-137 | 3D samples on lattice multiples are 0. |
| `NoiseMath.LatticeCoversClosed` | Scripts/Util/HeightMapNoise.cs:100-110 | For every sample `0..size`, the cell's far node index is inside the `Max(size / ci + 2, 3)` nodes allocated. |
| `NoiseMath.LatticeCoversOpen` | Scripts/Util/Noise/NoiseMap2D.cs:80-91 | For every sample `0..size-1`, the far node index is inside the `size / ci + 2` nodes allocated. |
| `NoiseMath.HalveOctave` | Scripts/Util/HeightMapNoise.cs:86-90 | While `currentInterval > cutoff` the width is positive and the divisor lies in `[1, interval]`, below `2^31`. Halving the width and doubling the divisor keeps `divisor * width <= interval`. |
| `NoiseMath.NextOctave` | Scripts/Util/Noise/NoiseMap2D.cs:63-68 | One more turn of the octave loop preserves its bounds. |
| `NoiseMath.OctaveCountBound` | Scripts/Util/HeightMapNoise.cs:86-90 | The number of octaves is below `2^k <= interval < 2^31`, so the loop ends and the divisor cast never overflows. |
| `HeightMap.OctavesStep` | Scripts/Util/HeightMapNoise.cs:86-90 | The octave sum is 0 once the width reaches `cutoff`; otherwise it is this octave's cell plus the sum for the halved width and doubled divisor. |
| `HeightMap.OctavesAtOrigin` | Scripts/Util/HeightMapNoise.cs:108-111 | Every octave is 0 at sample `(0, 0)`, so the sum is too. |
| `HeightMap.OctaveCellSeam` | Scripts/Util/HeightMapNoise.cs:99-136 | When the width divides `sizex`, the last column of tile `t` and the first column of tile `t + 1` compute the same octave cell. |
| `HeightMap.OctavesSeam` | Scripts/Util/HeightMapNoise.cs:79-112 | The same holds for the whole octave sum, when every width used divides `sizex`. |
| `HeightMap.HeightNoiseMap.constructor` | Scripts/Util/HeightMapNoise.cs:36-42 | Stores the sizes, interval and cutoff with layer 0 and default scaling `(sqrt 3 / 2, 0.5)`. |
| `HeightMap.HeightNoiseMap.WithDefaultCutoff` | Scripts/Util/HeightMapNoise.cs:44-50 | The same with cutoff 2. |
| `HeightMap.HeightNoiseMap.ResetDefaultScaling` | Scripts/Util/HeightMapNoise.cs:53-56 | Restores `(sqrt 3 / 2, 0.5)` and changes nothing else. |
| `HeightMap.HeightNoiseMap.SetFullScaling` | Scripts/Util/HeightMapNoise.cs:59-62 | Sets `(sqrt 3, 0)` and changes nothing else. |
| `HeightMap.HeightNoiseMap.SetCustomScaling` | Scripts/Util/HeightMapNoise.cs:65-68 | Sets the given pair and changes nothing else. |
| `HeightMap.HeightNoiseMap.Process` | Scripts/Util/HeightMapNoise.cs:79-96 | Returns a fresh `(sizex + 1) x (sizez + 1)` field. Every cell is the full octave sum at tile offset `(x * sizex, z * sizez)`, remapped by the current scale and offset. The loop stops at `cutoff`, leaving `divisor` a power of two, and the scaling is unchanged. |
| `HeightMap.HeightNoiseMap.ProcessOne` | Scripts/Util/HeightMapNoise.cs:99-112 | Adds exactly this octave's cell value to every cell of the field and changes nothing else. |
| `HeightMap.HeightNoiseMap.ProcessPointIsOctaveCell` | Scripts/Util/HeightMapNoise.cs:115-136 | Reading four hashed nodes around a sample out of the node array equals the octave-cell specification. |
| `HeightMap.HeightNoiseMap.OriginIsOffset` | Scripts/Util/HeightMapNoise.cs:91-94 | The raw height at sample `(0, 0)` is 0, so the output there is `offset`. |
| `HeightMap.HeightNoiseMap.NoOctavesGiveOffset` | Scripts/Util/HeightMapNoise.cs:86-94 | With `interval <= cutoff` no octave runs and every cell is `offset`. |
| `HeightMap.HeightNoiseMap.TilesMeetAlongX` | Scripts/Util/HeightMapNoise.cs:79-112 | The last column of tile `x` equals the first column of tile `x + 1`, when every octave width divides `sizex`. |
| `HeightMap.LayerChannelsDistinct` | Scripts/Util/HeightMapNoise.cs:82 | Layer numbers less than `2^31` apart map to different channels `layer * 2` (unchecked), so their nodes come from different hash words. |
| `HeightMap.HeightNoiseMap.LayerZeroIsHeight` | Scripts/Util/HeightMapNoise.cs:82-106 | With the layer argument used as a channel, layer 0 still gives the height `Process` computes, since the generator's own layer is 0. |
| `Noise2D.OctaveChannelStep` | Scripts/Util/Noise/NoiseMap2D.cs:67 | `startz += 2` moves to the next octave's channel, wrapping included. |
| `Noise2D.OctaveChannelsDisjoint` | Scripts/Util/Noise/NoiseMap2D.cs:59-70 | The two hash channels read by one octave meet neither channel of any later octave. |
| `Noise2D.RegionLatticesAdjacent` | Scripts/Util/Noise/NoiseMap2D.cs:80-87 | The node lattices of neighbouring regions are laid end to end: the first node of region `r + 1` comes one step after the last node of region `r`. |
| `Noise2D.RegionSeamShifted` | Scripts/Util/Noise/NoiseMap2D.cs:80-87 | As written, sample `p` of region `r + 1` takes its node from two hash coordinates past the node that region `r`'s lattice, continued, gives the same map position (`size + p`). The wrapped coordinates differ too. |
| `Noise2D.ContinuedCell` | Scripts/Util/Noise/NoiseMap2D.cs:110-112 | When `ci` divides `size`, sample `size + p` lies in cell `size / ci + p / ci`. |
| `Noise2D.SeamlessRegionsAlign` | Scripts/Util/Noise/NoiseMap2D.cs:80-87 | With regions `size / ci` nodes apart, sample `p` of region `r + 1` reads the same node as sample `size + p` of region `r`, continued. |
| `Noise2D.NoiseMap2D.constructor` | Scripts/Util/Noise/NoiseMap2D.cs:23-33 | Stores every argument. |
| `Noise2D.NoiseMap2D.WithDefaultCutoff` | Scripts/Util/Noise/NoiseMap2D.cs:36-46 | Stores every argument, with cutoff 2. |
| `Noise2D.NoiseMap2D.OctavesStep` | Scripts/Util/Noise/NoiseMap2D.cs:63-68 | The octave sum is 0 at the cutoff; otherwise it is this octave's scaled cell on its own channel, plus the rest. |
| `Noise2D.NoiseMap2D.NoOctavesGiveZero` | Scripts/Util/Noise/NoiseMap2D.cs:59-70 | With `interval <= cutoff` every value is 0. |
| `Noise2D.NoiseMap2D.OctavesAtOrigin` | Scripts/Util/Noise/NoiseMap2D.cs:88-91 | The sum is 0 at `(0, 0)`. |
| `Noise2D.NoiseMap2D.Process` | Scripts/Util/Noise/NoiseMap2D.cs:59-70 | Returns a fresh `size x size` field whose every cell is the octave sum for `startz`, and stops at the cutoff. |
| `Noise2D.NoiseMap2D.ProcessOne` | Scripts/Util/Noise/NoiseMap2D.cs:79-92 | Adds this octave's scaled cell to every cell and changes nothing else. |
| `Noise2D.NoiseMap2D.ProcessPointIsOctaveCell` | Scripts/Util/Noise/NoiseMap2D.cs:106-128 | Reading the node array equals the octave-cell specification. |
| `Noise3D.CellNodes` | Scripts/Util/Noise/HeightNoiseMap3D.cs:103-137 | A cell reads exactly eight nodes. |
| `Noise3D.HalveWidth` | Scripts/Util/Noise/HeightNoiseMap3D.cs:72-76 | Halving a width above the cutoff keeps it positive and within `interval`, and makes it strictly smaller. |
| `Noise3D.OctavesStep` | Scripts/Util/Noise/HeightNoiseMap3D.cs:72-76 | The 3D octave sum is 0 at the cutoff; otherwise it is this octave's cell plus the rest. |
| `Noise3D.OctavesAtOrigin` | Scripts/Util/Noise/HeightNoiseMap3D.cs:84-100 | The 3D sum is 0 at `(0, 0, 0)`. |
| `Noise3D.Lerp` | Scripts/Util/Noise/HeightNoiseMap3D.cs:176-184 | Blending gives `a` at weight 0 and `b` at weight 1. |
| `Noise3D.LerpBetween` | Scripts/Util/Noise/HeightNoiseMap3D.cs:176-184 | A blend with its weight in `[0, 1]` stays between its ends. |
| `Noise3D.TrilinearAtCorner` | Scripts/Util/Noise/HeightNoiseMap3D.cs:176-184 | With zero weights, trilinear blending gives the base corner. |
| `Noise3D.TrilinearBetween` | Scripts/Util/Noise/HeightNoiseMap3D.cs:176-184 | With weights in `[0, 1]`, the result stays within the range of the eight corners. |
| `Noise3D.FadedWeight` | Scripts/Util/Noise/HeightNoiseMap3D.cs:162-164 | The weight the interpolation needs, `Fade(r / s)`, lies in `[0, 1]`. |
| `Noise3D.WeightsAtMultiple` | Scripts/Util/Noise/HeightNoiseMap3D.cs:172-174 | On grid multiples both the as-written weight and the faded weight are 0. |
| `Noise3D.AsWrittenWeightAtHalfStep` | Scripts/Util/Noise/HeightNoiseMap3D.cs:172-174 | With `scalex = 4` and `x = 2`, the as-written weight `FullFade(2, 4)` is 2.0, outside `[0, 1]`; the faded weight is 0.5. |
| `Noise3D.HeightNoiseMap3D.constructor` | Scripts/Util/Noise/HeightNoiseMap3D.cs:32-37 | Stores size, interval and cutoff with layer 0 and coordinate scales `(4, 16, 4)`. |
| `Noise3D.HeightNoiseMap3D.WithCoordScale` | Scripts/Util/Noise/HeightNoiseMap3D.cs:39-45 | Stores the given scales, with cutoff 2. |
| `Noise3D.HeightNoiseMap3D.SetCoordScale` | Scripts/Util/Noise/HeightNoiseMap3D.cs:48-52 | Sets the three scales and changes nothing else. |
| `Noise3D.HeightNoiseMap3D.Process` | Scripts/Util/Noise/HeightNoiseMap3D.cs:64-82 | Returns nothing. It leaves a fresh `(size + 1)^3` array in `field` that holds the octave sum in every cell, including after the closing pass that copies each cell onto itself. The scales are unchanged. |
| `Noise3D.HeightNoiseMap3D.ProcessLayer` | Scripts/Util/Noise/HeightNoiseMap3D.cs:84-100 | Adds this octave's cell to every cell and changes nothing else. |
| `Noise3D.HeightNoiseMap3D.ProcessPointIsOctaveCell` | Scripts/Util/Noise/HeightNoiseMap3D.cs:103-137 | Reading the node array equals the octave-cell specification. |
| `Noise3D.HeightNoiseMap3D.OriginIsZero` | Scripts/Util/Noise/HeightNoiseMap3D.cs:64-100 | Sample `(0, 0, 0)` of every cube is 0. |
| `Noise3D.HeightNoiseMap3D.NoOctavesGiveZero` | Scripts/Util/Noise/HeightNoiseMap3D.cs:72-76 | With `interval <= cutoff` every sample is 0. |
| `Noise3D.HeightNoiseMap3D.CornerSamples` | Scripts/Util/Noise/HeightNoiseMap3D.cs:176-179 | The eight corners read start at `field[px, py, pz]`. |
| `Noise3D.HeightNoiseMap3D.GetValueAtGridPoint` | Scripts/Util/Noise/HeightNoiseMap3D.cs:167-185 | At a coordinate on the scale grid, both the as-written and the faded interpolation return the stored sample. |
| `Noise3D.HeightNoiseMap3D.GetValueOvershoots` | Scripts/Util/Noise/HeightNoiseMap3D.cs:172-184 | Between samples 0 and 1 along x, with `scalex = 4`, the as-written `GetValue(2, 0, 0)` is 2.0, outside both samples; the faded form gives 0.5. |
| `Noise3D.HeightNoiseMap3D.GetValueSmoothBetween` | Scripts/Util/Noise/HeightNoiseMap3D.cs:167-185 | With fade weights, the interpolated value stays within the range of the eight surrounding samples. |
| `Advanced.BlockPlacement` | Scripts/Util/AdvancedNoise.cs:54 | Cell `(i2, tile t)` lands at scratch index `i2 + size * t + size`, inside `[0, 3 * size)`; tile and in-tile position can be recovered from that index. |
| `Advanced.BlocksCover` | Scripts/Util/AdvancedNoise.cs:48-55 | Every scratch index in `[0, 3 * size)` is written by exactly one tile in `-1..1` and position, so the 3x3 copies cover the pad. |
| `Advanced.WarpedIndex` | Scripts/Util/AdvancedNoise.cs:66-71 | The read index is `i + size` plus the truncated warp times `size / 4`; zero warp, or a size below 4, reads the centre tile unmoved. |
| `Advanced.TruncScaled` | Scripts/Util/AdvancedNoise.cs:70-71 | A warp in `[-1, 1]` times `q` truncates to an integer in `[-q, q]`. |
| `Advanced.WarpBounded` | Scripts/Util/AdvancedNoise.cs:66-71 | A warp in `[-1, 1]` moves the read by at most a quarter tile. |
| `Advanced.AdvancedNoise.constructor` | Scripts/Util/AdvancedNoise.cs:24-31 | Stores every argument and builds a fresh generator of the same sizes with default scaling. |
| `Advanced.AdvancedNoise.WithDefaultCutoff` | Scripts/Util/AdvancedNoise.cs:34-41 | The same with cutoff 2. |
| `Advanced.AdvancedNoise.Process` | Scripts/Util/AdvancedNoise.cs:45-74 | See the note below the table. |
| `Advanced.AdvancedNoise.FillWarpLayers` | Scripts/Util/AdvancedNoise.cs:47-56 | Fills layers 1 and 2 over the whole 3x3 neighbourhood with full-scaled tiles, and leaves layer 0 alone. |
| `Advanced.AdvancedNoise.FillBaseLayer` | Scripts/Util/AdvancedNoise.cs:57-65 | Fills layer 0 with default-scaled tiles, leaves layers 1 and 2 intact, and ends at default scaling. |
| `Advanced.AdvancedNoise.CopyTile` | Scripts/Util/AdvancedNoise.cs:52-55 | Copies one tile into its block of one layer and changes no other cell. |
| `Advanced.AdvancedNoise.WarpedRead` | Scripts/Util/AdvancedNoise.cs:66-73 | Fills a fresh field with layer 0 at the warped indices, or fails at the first index out of range. |
| `Advanced.AdvancedNoise.WarpLayersAgree` | Scripts/Util/AdvancedNoise.cs:50-51 | Layers 1 and 2 hold the same values. `HeightNoiseMap.Process` doubles its `layer` argument into the parameter and never reads it (HeightMapNoise.cs:82), so both warps are equal. |
| `Advanced.AdvancedNoise.LayeredWarpsSeparate` | Scripts/Util/AdvancedNoise.cs:47-61 | With the layer argument used, the base layer's tiles are unchanged, and layers 0, 1 and 2 read three different channels, so the two warps are separate noises. |
| `Advanced.AdvancedNoise.CentreIsOwnTile` | Scripts/Util/AdvancedNoise.cs:58-64 | The centre block of layer 0 is this tile's own default-scaled height. |
| `Advanced.AdvancedNoise.UnwarpedCell` | Scripts/Util/AdvancedNoise.cs:66-72 | With zero warp the output cell is the plain height of tile `(x, z)`, remapped with the default scaling `(sqrt 3 / 2, 0.5)`. |
| `Advanced.AdvancedNoise.BoundedWarpsInRange` | Scripts/Util/AdvancedNoise.cs:66-72 | Warps in `[-1, 1]` keep every read inside the scratch pad, so the read cannot fail. |

Contract of `Advanced.AdvancedNoise.Process`:

- It allocates a fresh `3 x 3sizex x 3sizez` scratch pad.
- Every pad cell holds its tile's remapped height. Layers 1 and 2 use full scaling; layer 0 uses default scaling.
- The generator is left at default scaling.
- The result is `Some` exactly when every warped read is in range. In that case it is a fresh `(sizex + 1) x (sizez + 1)` field holding layer 0 at the warped indices.

## Left out

- Floating point: `float` and `double` are modelled as exact reals. Rounding, and the `float` literals for `sqrt 3`, are not modelled.
- `SpatialHash`: left out of the model are:
  - the clock-seeded constructor, because it reads the system clock;
  - `GetXorshift`, because it uses the clock and an unseeded generator;
  - `FloatFor`, because it differs from `DoubleFor` only by rounding.
- `SpatialHashing.RotateLeft` and `SpatialHashing.RotateRight` are modelled exactly, with the shift count masked to six bits. Only the zero-distance case is proved. The general rotation identities and the `GenSecondSeed` round trip are beyond the solver's resource bound on 64-bit vectors with a symbolic shift.
- The `Vec2D` and `Vec3D` constructors that draw from `System.Random` are left out, because they use an unseeded generator.
- `Mathf.Max` is modelled by an integer `Max`. The Unity library is not part of this model.
- `string.GetHashCode` is a function parameter of the seed functions, because .NET gives it no fixed value.
- `HeightMap.HeightNoiseMap.Process`: the float `divisor` is modelled as the integer power of two it always holds. That makes the `(int)divisor` cast exact.
- `Advanced.AdvancedNoise.Process` models an out-of-range warped read, which throws `IndexOutOfRangeException` in C#, as a `None` result.
  - The cast of a warp to `int` is modelled by truncation toward zero. C# leaves the cast unspecified for values outside the `int` range. For warps in `[-1, 1]`, `TruncScaled` keeps the cast within a quarter tile. No lemma bounds the warps themselves, which are full-scaled octave sums. Larger warps are covered only by the `None` result.
- `Advanced.AdvancedNoise.Process` assumes, via the class invariant, `1 <= sizex` and `3 * sizex < 2^31` (and the same for `sizez`).
  - For sizes of 0 or less, C# allocates a pad of negative extent or writes nothing, and `sizex * 3` would wrap for larger sizes. Those configurations are not modelled.
  - The warped index sums are computed exactly, not wrapped. For warps in `[-1, 1]` they stay within `[0, 3 * size)` (`WarpBounded`, `BoundedWarpsInRange`). For larger warps, C#'s wrap-around is not modelled.
- `HeightMap.HeightNoiseMap.Process` requires the class invariant `Valid()`. It excludes:
  - `sizex` or `sizez` below -1, where C# throws `OverflowException` allocating `new float[sizex + 1, sizez + 1]`;
  - sizes from `0x7fff_fffe` up, where `sizex / currentInterval + 2` (with width 1) overflows into a negative array extent;
  - a negative `cutoff` with `interval > cutoff`. There the width halves down to 0, which is still above the cutoff, and `sizex / currentInterval` throws `DivideByZeroException` (HeightMapNoise.cs:100).
- `Noise2D.NoiseMap2D.Process` requires `Valid()`. It excludes:
  - a negative `size`, where `new double[size, size]` throws `OverflowException`;
  - sizes above `0x7fff_fffd`, where `size / currentInterval + 2` overflows;
  - a negative `cutoff` with `interval > cutoff`, where `size / currentInterval` divides by 0 (NoiseMap2D.cs:80).
- `Noise3D.HeightNoiseMap3D.Process` requires `Valid()`. It excludes:
  - `size` below -1 (`OverflowException` on the allocation);
  - sizes from `0x7fff_fffe` up, where the node count `size / currentInterval + 2` overflows at width 1;
  - a negative `cutoff` with `interval > cutoff`, where `size / currentInterval` divides by 0 (HeightNoiseMap3D.cs:85).
- `KFMath.ModRight` requires `b != 0`; with `b == 0`, `%` throws `DivideByZeroException` at KFMath.cs:21.
- `KFMath.ParseInteger` models `long.Parse`, `ulong.Parse` and `int.Parse` in their default style as an ASCII decimal parser with one optional `+` or `-` sign. Two behaviours of .NET parsing are not modelled:
  - The sign strings come from the current culture's `NumberFormatInfo`; the model fixes them to `+` and `-`.
  - Trailing `'\0'` characters are ignored by .NET, so `"12\0"` parses to 12. In the model it is a format error, and the seed functions take the hash fallback.
- `KFMath.Asymptote` requires `AsymptoteDefined`. It excludes two inputs with `n > start`:
  - `rate == 0`: IEEE arithmetic makes `o` infinite, `1 - 1/(o + 1)` equal to 1, and the result `start`.
  - A negative `rate` with `(n - start) / rate == -1`: `1/0` is infinite, and the result is `+∞`.
  - Real arithmetic has no infinities, so neither input is modelled.
- `Noise3D.HeightNoiseMap3D.GetValue` has no contract of its own. It is modelled exactly as written, and `GetValueAtGridPoint` and `GetValueOvershoots` state what it does.
- `HeightMap.HeightNoiseMap.Height` ignores the layer argument as the generator does, so `AdvancedNoise.Process` is modelled with two equal warp layers; the channel-using `LayeredHeight` and `LayeredTileValue` of the finding below are stated beside it and not substituted.
- `Noise2D.NoiseMap2D.Node` keeps the region placement as the generator has it (`RegionNode`), so `Process` describes the maps it actually produces; the seamless placement of the finding below (`SeamlessRegionNode`) is stated beside it and not substituted.
- The other parts of the repository (the continent builder, the damage system, doors and the clock turner) are not part of this model.

## Findings

| source | as written | input that shows it | evidently intended | confidence | as-written member | corrected member |
|---|---|---|---|---|---|---|
| Scripts/Util/Noise/HeightNoiseMap3D.cs:172-184 | The interpolation weights are `FullFade(x % scalex, scalex)`, a faded offset in units of samples (`[0, scalex]`), used directly as a blend factor. | `scalex = 4`, `x = 2`, with samples 0.0 and 1.0 along x: `GetValue(2, 0, 0) == 2.0`, outside both samples. | Blend with `Fade((x % scalex) / scalex)` in `[0, 1]`, so every value stays between the surrounding samples. | not executed | `Noise3D.HeightNoiseMap3D.GetValueOvershoots` | `Noise3D.HeightNoiseMap3D.GetValueSmoothBetween` |
| Scripts/Util/KFMath.cs:10-22 | `ModRight` masks the sign bit, then takes `%`: `(a & 0x7fffffff) % b`. | `ModRight(-1, 3) == 1`, because `0x7fffffff % 3 == 1`. | The documented "remainder from the next lower number", i.e. the floor modulus: 2. | not executed | `KFMath.ModRightIsNotFloorMod` | `KFMath.FloorMod` |
| Scripts/Util/Noise/NoiseMap2D.cs:80-87 | Region `r` places node `i` at hash coordinate `r * (size / ci + 2) - 1 + i`, so consecutive regions start `size / ci + 2` nodes apart. | `size = 4`, `ci = 4`: region 0 uses hash coordinates -1, 0, 1 and its samples 0-3 lie between -1 and 0. Sample 0 of region 1, the next map position, reads coordinate 2 instead of 0. | Regions start `size / ci` nodes apart, so that a region's first cell continues its neighbour's last one and adjacent maps tile without a seam. | not executed | `Noise2D.RegionSeamShifted` | `Noise2D.SeamlessRegionsAlign` |
| Scripts/Util/HeightMapNoise.cs:79-82 | `layer = layer * 2` assigns the parameter. The nodes read the field `this.layer` (line 106), which stays 0, so the argument has no effect. | `AdvancedNoise.Process` fills layer 1 with `Process(..., 1)` and layer 2 with `Process(..., 2)` (AdvancedNoise.cs:50-51). Both layers get the same values, so every cell is displaced equally along x and z, on the diagonal. | `this.layer = layer * 2`, so layer `k` draws from channel `2k` and the two warp layers are separate noises. | not executed | `Advanced.AdvancedNoise.WarpLayersAgree` | `Advanced.AdvancedNoise.LayeredWarpsSeparate` |

=== FILE: advanced_noise.dfy ===
/**
 * `AdvancedNoise`: a height map whose samples are pulled around by two
 * more noise layers. `Process(x, z)` fills a scratch pad of three layers,
 * each the 3 x 3 block of tiles centred on tile `(x, z)` (the warp layers
 * 1 and 2 with full scaling, the base layer 0 with the default scaling),
 * and then reads every output cell from the base layer at a position
 * shifted by the two warp layers.
 */
module Advanced {
  import opened CSharpInt
  import opened SpatialHashing
  import opened Wrappers
  import opened HeightMap
  import opened NoiseMath

  /** The tile offset (`-1`, `0` or `1`) whose block holds cell `a` of a row of three blocks of width `size`. */
  function Block(a: int, size: int): int
    requires size > 0
  {
    a / size - 1
  }

  /** The position of cell `a` inside its block. */
  function Place(a: int, size: int): (p: int)
    requires size > 0
    ensures 0 <= p < size
  {
    a % size
  }

  /**
   * Where the copy loop puts sample `i2` of tile offset `t`: into block
   * `t + 1` at `i2` from the block's start, so that the tile and the
   * sample can be read back from the cell. Distinct (tile, sample) pairs
   * therefore land on distinct cells: the nine blocks do not overlap.
   */
  lemma BlockPlacement(size: int, t: int, i2: int)
    requires 0 < size && -1 <= t <= 1 && 0 <= i2 < size
    ensures 0 <= i2 + size * t + size < 3 * size
    ensures Block(i2 + size * t + size, size) == t
    ensures Place(i2 + size * t + size, size) == i2
  {
    assert i2 + size * t + size == (t + 1) * size + i2;
    DivModUnique(i2 + size * t + size, t + 1, i2, size);
  }

  /**
   * The nine tiles cover a layer: every cell `a` of a row of three blocks
   * is where sample `Place(a)` of tile offset `Block(a)` lands.
   */
  lemma BlocksCover(size: int, a: int)
    requires 0 < size && 0 <= a < 3 * size
    ensures -1 <= Block(a, size) <= 1
    ensures Place(a, size) + size * Block(a, size) + size == a
  {
    if a < size {
      DivModUnique(a, 0, a, size);
    } else if a < 2 * size {
      DivModUnique(a, 1, a - size, size);
    } else {
      DivModUnique(a, 2, a - 2 * size, size);
    }
  }

  /** Every cell of a row of three blocks lies in block `-1`, `0` or `1`. */
  lemma BlockRange(size: int)
    requires 0 < size
    ensures forall a :: 0 <= a < 3 * size ==> -1 <= Block(a, size) <= 1
  {
    forall a | 0 <= a < 3 * size
      ensures -1 <= Block(a, size) <= 1
    {
      BlocksCover(size, a);
    }
  }

  /** `BlocksCover` for every cell at once. */
  lemma AllBlocksCover(size: int)
    requires 0 < size
    ensures forall a :: 0 <= a < 3 * size ==>
              -1 <= Block(a, size) <= 1 && Place(a, size) + size * Block(a, size) + size == a
  {
    forall a | 0 <= a < 3 * size
      ensures -1 <= Block(a, size) <= 1 && Place(a, size) + size * Block(a, size) + size == a
    {
      BlocksCover(size, a);
    }
  }

  /**
   * The warped index of output cell `i` along one axis: the centre block
   * starts at `size`, and the warp value times `size / 4` moves the read
   * by its integer part, truncated toward zero.
   */
  function WarpedIndex(i: int, size: int, warp: real): (a: int)
    ensures warp == 0.0 ==> a == i + size
    ensures size / 4 == 0 ==> a == i + size
  {
    i + size + RealToInt(warp * (size / 4) as real)
  }

  /** Truncating a value in `[-1, 1]` times `q` gives an integer in `[-q, q]`. */
  lemma TruncScaled(warp: real, q: int)
    requires -1.0 <= warp <= 1.0 && q >= 0
    ensures -q <= RealToInt(warp * q as real) <= q
  {
    hide RealToInt;
    var c := q as real;
    var p := warp * c;
    if q == 0 {
      assert p == 0.0;
    } else if warp >= 0.0 {
      MulBetween(warp, c);
    } else {
      MulBetween(warp + 1.0, c);
      assert (warp + 1.0) * c == p + c;
      var n := RealToInt(p);
      assert p <= n as real;
      assert -c <= n as real;
    }
  }

  /** A warp value in `[-1, 1]` moves the read by at most `size / 4` cells. */
  lemma WarpBounded(i: int, size: int, warp: real)
    requires size >= 0 && -1.0 <= warp <= 1.0
    ensures i + size - size / 4 <= WarpedIndex(i, size, warp) <= i + size + size / 4
  {
    var q := size / 4;
    TruncScaled(warp, q);
    assert WarpedIndex(i, size, warp) == i + size + RealToInt(warp * (q as real));
  }

  class AdvancedNoise {
    const sizex: Int32
    const sizez: Int32
    const interval: Int32
    const cutoff: Int32
    const srandom: SpatialHash
    const noiseMaker: HeightNoiseMap
    var scratchpad: array3<real>
    var field: array2<real>

    /**
     * What `Process` needs to finish: the generator it drives is usable,
     * both sizes are at least 1 (with a size of 0 the scratch pad is empty
     * and the first warp read fails) and three times each size is still
     * an `int`.
     */
    predicate Valid()
    {
      noiseMaker.Valid() && noiseMaker.sizex == sizex && noiseMaker.sizez == sizez
      && 1 <= sizex && 3 * sizex < TWO_31 && 1 <= sizez && 3 * sizez < TWO_31
    }

    constructor (random: SpatialHash, sizex: Int32, sizez: Int32, interval: Int32, cutoff: Int32)
      ensures this.sizex == sizex && this.sizez == sizez
      ensures this.interval == interval && this.cutoff == cutoff && srandom == random
      ensures fresh(noiseMaker) && noiseMaker.sizex == sizex && noiseMaker.sizez == sizez
      ensures noiseMaker.interval == interval && noiseMaker.cutoff == cutoff
      ensures noiseMaker.scale == SCALE_FOR_ZERO_TO_ONE && noiseMaker.offset == 0.5
    {
      this.sizex := sizex;
      this.sizez := sizez;
      this.interval := interval;
      this.cutoff := cutoff;
      srandom := random;
      noiseMaker := new HeightNoiseMap(sizex, sizez, interval, cutoff);
      scratchpad := new real[0, 0, 0];
      field := new real[0, 0];
    }

    /** The four-argument constructor: the cutoff defaults to 2, for this object and its generator. */
    constructor WithDefaultCutoff(random: SpatialHash, sizex: Int32, sizez: Int32, interval: Int32)
      ensures this.sizex == sizex && this.sizez == sizez
      ensures this.interval == interval && cutoff == 2 && srandom == random
      ensures fresh(noiseMaker) && noiseMaker.sizex == sizex && noiseMaker.sizez == sizez
      ensures noiseMaker.interval == interval && noiseMaker.cutoff == 2
      ensures noiseMaker.scale == SCALE_FOR_ZERO_TO_ONE && noiseMaker.offset == 0.5
    {
      this.sizex := sizex;
      this.sizez := sizez;
      this.interval := interval;
      this.cutoff := 2;
      srandom := random;
      noiseMaker := new HeightNoiseMap.WithDefaultCutoff(sizex, sizez, interval);
      scratchpad := new real[0, 0, 0];
      field := new real[0, 0];
    }

    /**
     * Sample `(i2, j2)` of the tile at offset `(ti, tj)` from tile `(x, z)`,
     * as layer `k` stores it: the warp layers 1 and 2 with full scaling,
     * the base layer 0 with the default scaling.
     */
    function TileValue(x: Int32, z: Int32, k: int, ti: int, tj: int, i2: nat, j2: nat): real
      requires noiseMaker.Valid()
    {
      var h := noiseMaker.Height(srandom, Wrap32(x + ti), Wrap32(z + tj), i2, j2);
      if k == 0 then Remapped(h, SCALE_FOR_ZERO_TO_ONE, 0.5) else Remapped(h, SQRT_THREE, 0.0)
    }

    /**
     * `TileValue` with the generator's layer argument put to use: layer `k`
     * draws its nodes from channel `LayerChannel(k)`, so the two warp layers
     * are separate noises.
     */
    function LayeredTileValue(x: Int32, z: Int32, k: Int32, ti: int, tj: int, i2: nat, j2: nat): real
      requires noiseMaker.Valid()
    {
      var h := noiseMaker.LayeredHeight(srandom, Wrap32(x + ti), Wrap32(z + tj), k, i2, j2);
      if k == 0 then Remapped(h, SCALE_FOR_ZERO_TO_ONE, 0.5) else Remapped(h, SQRT_THREE, 0.0)
    }

    /**
     * With the layer argument used, the base layer is unchanged, and the
     * three layers, the two warp layers included, read three different
     * hash channels.
     */
    lemma LayeredWarpsSeparate(x: Int32, z: Int32, ti: int, tj: int, i2: nat, j2: nat)
      requires noiseMaker.Valid()
      ensures LayeredTileValue(x, z, 0, ti, tj, i2, j2) == TileValue(x, z, 0, ti, tj, i2, j2)
      ensures LayerChannel(1) != LayerChannel(2)
      ensures LayerChannel(0) != LayerChannel(1) && LayerChannel(0) != LayerChannel(2)
    {
      hide Octaves, Wrap32;
      noiseMaker.LayerZeroIsHeight(srandom, Wrap32(x + ti), Wrap32(z + tj), i2, j2);
      LayerChannelsDistinct(1, 2);
      LayerChannelsDistinct(0, 1);
      LayerChannelsDistinct(0, 2);
    }

    /** Cell `(k, a, b)` of the scratch pad that `Process(x, z)` fills. */
    function ScratchValue(x: Int32, z: Int32, k: int, a: nat, b: nat): real
      requires Valid()
    {
      TileValue(x, z, k, Block(a, sizex), Block(b, sizez), Place(a, sizex), Place(b, sizez))
    }

    predicate InScratch(k: int, a: int, b: int)
    {
      0 <= k < 3 && 0 <= a < 3 * sizex && 0 <= b < 3 * sizez
    }

    /** The base-layer row read for output cell `(i, j)`, shifted by warp layer 1. */
    function WarpX(x: Int32, z: Int32, i: nat, j: nat): int
      requires Valid() && i <= sizex && j <= sizez
    {
      WarpedIndex(i, sizex, ScratchValue(x, z, 1, i + sizex, j + sizez))
    }

    /** The base-layer column read for output cell `(i, j)`, shifted by warp layer 2. */
    function WarpZ(x: Int32, z: Int32, i: nat, j: nat): int
      requires Valid() && i <= sizex && j <= sizez
    {
      WarpedIndex(j, sizez, ScratchValue(x, z, 2, i + sizex, j + sizez))
    }

    /** Every warped read of `Process(x, z)` stays inside the scratch pad. */
    predicate WarpsInRange(x: Int32, z: Int32)
      requires Valid()
    {
      forall i: nat, j: nat :: i <= sizex && j <= sizez ==>
        0 <= WarpX(x, z, i, j) < 3 * sizex && 0 <= WarpZ(x, z, i, j) < 3 * sizez
    }

    /**
     * `Process(x, z)`. The scratch pad ends up holding every layer of the
     * 3 x 3 block of tiles around `(x, z)`, and the generator is left with
     * its default scaling. When every warped read stays in the scratch
     * pad, the result is the fresh `(sizex + 1) x (sizez + 1)` field whose
     * cell `(i, j)` is the base layer at the warped position; otherwise
     * the read that leaves the scratch pad throws, modelled as `None`.
     */
    method Process(x: Int32, z: Int32) returns (result: Option<array2<real>>)
      requires Valid()
      modifies this, noiseMaker
      ensures fresh(scratchpad)
      ensures scratchpad.Length0 == 3 && scratchpad.Length1 == 3 * sizex && scratchpad.Length2 == 3 * sizez
      ensures forall k, a, b :: InScratch(k, a, b) ==> scratchpad[k, a, b] == ScratchValue(x, z, k, a, b)
      ensures noiseMaker.scale == SCALE_FOR_ZERO_TO_ONE && noiseMaker.offset == 0.5
      ensures result.Some? <==> WarpsInRange(x, z)
      ensures result.Some? ==>
        fresh(result.value) && result.value == field
        && field.Length0 == sizex + 1 && field.Length1 == sizez + 1
        && forall i, j :: 0 <= i <= sizex && 0 <= j <= sizez ==>
             field[i, j] == ScratchValue(x, z, 0, WarpX(x, z, i, j), WarpZ(x, z, i, j))
    {
      var s := new real[3, sizex * 3, sizez * 3];
      scratchpad := s;
      FillWarpLayers(s, x, z);
      FillBaseLayer(s, x, z);
      result := WarpedRead(s, x, z);
    }

    /** Lines 47-56 of `Process`: the warp layers 1 and 2, generated with full scaling. */
    method FillWarpLayers(s: array3<real>, x: Int32, z: Int32)
      requires Valid()
      requires s.Length0 == 3 && s.Length1 == 3 * sizex && s.Length2 == 3 * sizez
      modifies s, noiseMaker
      ensures noiseMaker.scale == SQRT_THREE && noiseMaker.offset == 0.0
      ensures forall k, a, b :: InScratch(k, a, b) ==>
                s[k, a, b] == if k == 0 then old(s[k, a, b]) else ScratchValue(x, z, k, a, b)
    {
      hide Octaves, OctaveCell, Remapped, Block, Place, ScratchValue;
      BlockRange(sizex);
      BlockRange(sizez);
      noiseMaker.SetFullScaling();
      for i := -1 to 2
        modifies s, noiseMaker
        invariant noiseMaker.scale == SQRT_THREE && noiseMaker.offset == 0.0
        invariant forall k, a, b :: InScratch(k, a, b) ==>
                    s[k, a, b] == if k != 0 && Block(a, sizex) < i then ScratchValue(x, z, k, a, b) else old(s[k, a, b])
      {
        for j := -1 to 2
          modifies s, noiseMaker
          invariant noiseMaker.scale == SQRT_THREE && noiseMaker.offset == 0.0
          invariant forall k, a, b :: InScratch(k, a, b) ==>
                      s[k, a, b] == if k != 0 && (Block(a, sizex) < i || (Block(a, sizex) == i && Block(b, sizez) < j))
                                    then ScratchValue(x, z, k, a, b) else old(s[k, a, b])
        {
          for k := 1 to 3
            modifies s, noiseMaker
            invariant noiseMaker.scale == SQRT_THREE && noiseMaker.offset == 0.0
            invariant forall k', a, b :: InScratch(k', a, b) ==>
                        s[k', a, b] == if k' != 0 && (Block(a, sizex) < i || (Block(a, sizex) == i && (Block(b, sizez) < j || (Block(b, sizez) == j && k' < k))))
                                       then ScratchValue(x, z, k', a, b) else old(s[k', a, b])
          {
            var tmp := noiseMaker.Process(srandom, Wrap32(x + i), Wrap32(z + j), k);
            CopyTile(s, tmp, x, z, k, i, j);
          }
        }
      }
    }

    /** Lines 57-65 of `Process`: the base layer 0, generated with the default scaling. */
    method FillBaseLayer(s: array3<real>, x: Int32, z: Int32)
      requires Valid()
      requires s.Length0 == 3 && s.Length1 == 3 * sizex && s.Length2 == 3 * sizez
      modifies s, noiseMaker
      ensures noiseMaker.scale == SCALE_FOR_ZERO_TO_ONE && noiseMaker.offset == 0.5
      ensures forall k, a, b :: InScratch(k, a, b) ==>
                s[k, a, b] == if k == 0 then ScratchValue(x, z, k, a, b) else old(s[k, a, b])
    {
      hide Octaves, OctaveCell, Remapped, Block, Place, ScratchValue;
      BlockRange(sizex);
      BlockRange(sizez);
      noiseMaker.ResetDefaultScaling();
      for i := -1 to 2
        modifies s, noiseMaker
        invariant noiseMaker.scale == SCALE_FOR_ZERO_TO_ONE && noiseMaker.offset == 0.5
        invariant forall k, a, b :: InScratch(k, a, b) ==>
                    s[k, a, b] == if k == 0 && Block(a, sizex) < i then ScratchValue(x, z, k, a, b) else old(s[k, a, b])
      {
        for j := -1 to 2
          modifies s, noiseMaker
          invariant noiseMaker.scale == SCALE_FOR_ZERO_TO_ONE && noiseMaker.offset == 0.5
          invariant forall k, a, b :: InScratch(k, a, b) ==>
                      s[k, a, b] == if k == 0 && (Block(a, sizex) < i || (Block(a, sizex) == i && Block(b, sizez) < j))
                                    then ScratchValue(x, z, k, a, b) else old(s[k, a, b])
        {
          var tmp := noiseMaker.Process(srandom, Wrap32(x + i), Wrap32(z + j), 0);
          CopyTile(s, tmp, x, z, 0, i, j);
        }
      }
    }

    /**
     * The copy loop of lines 52-55 (and 61-64): samples `[0, sizex) x
     * [0, sizez)` of tile `(ti, tj)`, freshly generated by the noise map
     * with the scaling of layer `k`, go to block `(ti + 1, tj + 1)` of
     * layer `k`; the last row and column of the tile are dropped and no
     * other cell changes.
     */
    method CopyTile(s: array3<real>, tmp: array2<real>, x: Int32, z: Int32, k: int, ti: int, tj: int)
      requires Valid() && 0 <= k < 3 && -1 <= ti <= 1 && -1 <= tj <= 1
      requires s.Length0 == 3 && s.Length1 == 3 * sizex && s.Length2 == 3 * sizez
      requires tmp.Length0 == sizex + 1 && tmp.Length1 == sizez + 1
      requires forall i2, j2 :: 0 <= i2 <= sizex && 0 <= j2 <= sizez ==>
                 tmp[i2, j2] == TileValue(x, z, k, ti, tj, i2, j2)
      modifies s
      ensures forall k', a, b :: InScratch(k', a, b) ==>
                s[k', a, b] == if k' == k && Block(a, sizex) == ti && Block(b, sizez) == tj
                               then ScratchValue(x, z, k', a, b) else old(s[k', a, b])
    {
      hide Octaves, OctaveCell, Remapped, Block, Place, TileValue;
      AllBlocksCover(sizex);
      AllBlocksCover(sizez);
      for i2 := 0 to sizex
        invariant forall k', a, b :: InScratch(k', a, b) ==>
                    s[k', a, b] == if k' == k && Block(a, sizex) == ti && Block(b, sizez) == tj && Place(a, sizex) < i2
                                   then ScratchValue(x, z, k', a, b) else old(s[k', a, b])
      {
        for j2 := 0 to sizez
          invariant forall k', a, b :: InScratch(k', a, b) ==>
                      s[k', a, b] == if k' == k && Block(a, sizex) == ti && Block(b, sizez) == tj
                                        && (Place(a, sizex) < i2 || (Place(a, sizex) == i2 && Place(b, sizez) < j2))
                                     then ScratchValue(x, z, k', a, b) else old(s[k', a, b])
        {
          BlockPlacement(sizex, ti, i2);
          BlockPlacement(sizez, tj, j2);
          s[k, i2 + (sizex * ti) + sizex, j2 + (sizez * tj) + sizez] := tmp[i2, j2];
        }
      }
    }

    /**
     * Lines 66-73 of `Process`: the output field, each cell read from the
     * base layer at the position the warp layers give; the first read
     * outside the scratch pad throws.
     */
    method WarpedRead(s: array3<real>, x: Int32, z: Int32) returns (result: Option<array2<real>>)
      requires Valid()
      requires s.Length0 == 3 && s.Length1 == 3 * sizex && s.Length2 == 3 * sizez
      requires forall k, a, b :: InScratch(k, a, b) ==> s[k, a, b] == ScratchValue(x, z, k, a, b)
      modifies this
      ensures unchanged(noiseMaker) && scratchpad == old(scratchpad)
      ensures result.Some? <==> WarpsInRange(x, z)
      ensures result.Some? ==>
        fresh(result.value) && result.value == field
        && field.Length0 == sizex + 1 && field.Length1 == sizez + 1
        && forall i, j :: 0 <= i <= sizex && 0 <= j <= sizez ==>
             field[i, j] == ScratchValue(x, z, 0, WarpX(x, z, i, j), WarpZ(x, z, i, j))
    {
      hide Octaves, OctaveCell, Remapped, Block, Place, TileValue, ScratchValue, WarpedIndex, RealToInt;
      var f := new real[sizex + 1, sizez + 1];
      field := f;
      for i := 0 to sizex + 1
        modifies f
        invariant forall i', j' :: 0 <= i' < i && 0 <= j' <= sizez ==>
                    0 <= WarpX(x, z, i', j') < 3 * sizex && 0 <= WarpZ(x, z, i', j') < 3 * sizez
                    && f[i', j'] == ScratchValue(x, z, 0, WarpX(x, z, i', j'), WarpZ(x, z, i', j'))
      {
        for j := 0 to sizez + 1
          modifies f
          invariant forall i', j' :: 0 <= i' <= i && 0 <= j' <= sizez && (i' < i || j' < j) ==>
                      0 <= WarpX(x, z, i', j') < 3 * sizex && 0 <= WarpZ(x, z, i', j') < 3 * sizez
                      && f[i', j'] == ScratchValue(x, z, 0, WarpX(x, z, i', j'), WarpZ(x, z, i', j'))
        {
          var a := WarpedIndex(i, sizex, s[1, i + sizex, j + sizez]);
          var b := WarpedIndex(j, sizez, s[2, i + sizex, j + sizez]);
          assert a == WarpX(x, z, i, j) && b == WarpZ(x, z, i, j);
          if !(0 <= a < 3 * sizex && 0 <= b < 3 * sizez) {
            return None;
          }
          f[i, j] := s[0, a, b];
        }
      }
      return Some(f);
    }

    /** The two warp layers are the same noise: `Process` ignores its layer argument. */
    lemma WarpLayersAgree(x: Int32, z: Int32, a: nat, b: nat)
      requires Valid()
      ensures ScratchValue(x, z, 1, a, b) == ScratchValue(x, z, 2, a, b)
    {
      hide Octaves, OctaveCell, Remapped;
    }

    /**
     * The centre block of the base layer is tile `(x, z)` itself with the
     * default scaling, which the unwarped output reads from.
     */
    lemma CentreIsOwnTile(x: Int32, z: Int32, i: nat, j: nat)
      requires Valid() && i < sizex && j < sizez
      ensures ScratchValue(x, z, 0, i + sizex, j + sizez)
              == Remapped(noiseMaker.Height(srandom, x, z, i, j), SCALE_FOR_ZERO_TO_ONE, 0.5)
    {
      hide Octaves, OctaveCell, Remapped;
      BlockPlacement(sizex, 0, i);
      BlockPlacement(sizez, 0, j);
    }

    /**
     * Where both warp values of a cell are 0 (or the sizes are below 4, so
     * the shifts are 0) the output is the unwarped base: inside the tile,
     * exactly what `HeightNoiseMap.Process(x, z)` gives with the default
     * scaling.
     */
    lemma UnwarpedCell(x: Int32, z: Int32, i: nat, j: nat)
      requires Valid() && i < sizex && j < sizez
      requires ScratchValue(x, z, 1, i + sizex, j + sizez) == 0.0 || sizex < 4
      requires ScratchValue(x, z, 2, i + sizex, j + sizez) == 0.0 || sizez < 4
      ensures WarpX(x, z, i, j) == i + sizex && WarpZ(x, z, i, j) == j + sizez
      ensures ScratchValue(x, z, 0, WarpX(x, z, i, j), WarpZ(x, z, i, j))
              == Remapped(noiseMaker.Height(srandom, x, z, i, j), SCALE_FOR_ZERO_TO_ONE, 0.5)
    {
      hide Octaves, OctaveCell, Remapped;
      CentreIsOwnTile(x, z, i, j);
    }

    /**
     * Warp values in `[-1, 1]` keep every read in range: they move it by at
     * most `size / 4` from the centre block, whose cells sit `size` from
     * either edge.
     */
    lemma BoundedWarpsInRange(x: Int32, z: Int32)
      requires Valid()
      requires forall a: nat, b: nat :: a < 3 * sizex && b < 3 * sizez ==>
                 -1.0 <= ScratchValue(x, z, 1, a, b) <= 1.0 && -1.0 <= ScratchValue(x, z, 2, a, b) <= 1.0
      ensures WarpsInRange(x, z)
    {
      hide Octaves, OctaveCell, Remapped;
      forall i: nat, j: nat | i <= sizex && j <= sizez
        ensures 0 <= WarpX(x, z, i, j) < 3 * sizex && 0 <= WarpZ(x, z, i, j) < 3 * sizez
      {
        WarpBounded(i, sizex, ScratchValue(x, z, 1, i + sizex, j + sizez));
        WarpBounded(j, sizez, ScratchValue(x, z, 2, i + sizex, j + sizez));
      }
    }
  }
}

=== FILE: bits.dfy ===
/**
 * Reinterpretations of a 64-bit word as the C# integer types the hash
 * accessors return: `(int)u`, `(long)u`, and the masks `u & INT_MASK` and
 * `u & LONG_MASK`. Masking the low k bits of an unsigned word is taking its
 * value modulo 2^k, and reading it as two's complement subtracts 2^k when
 * the top bit is set; both are written on the word's unsigned value `n`.
 */
module Bits {
  import opened CSharpInt

  /** An unsigned 64-bit value. */
  type Word = n: int | 0 <= n < 0x1_0000_0000_0000_0000

  function Unsigned(u: bv64): Word
  {
    u as int
  }

  /** `n & INT_MASK`: the low 31 bits. */
  function Low31(n: Word): (r: Int32)
    ensures 0 <= r < TWO_31
    ensures (r - n) % TWO_31 == 0
  {
    n % TWO_31
  }

  /** `n & LONG_MASK`: the low 63 bits. */
  function Low63(n: Word): (r: Int64)
    ensures 0 <= r < TWO_63
    ensures (r - n) % TWO_63 == 0
  {
    n % TWO_63
  }

  /**
   * `(int)n`: the low 32 bits read as two's complement. It agrees with `n`
   * modulo 2^32, and dropping its sign bit gives `n & INT_MASK`.
   */
  function Low32Signed(n: Word): (r: Int32)
    ensures (r - n) % TWO_32 == 0
    ensures r >= 0 ==> r == Low31(n)
    ensures r < 0 ==> r + TWO_31 == Low31(n)
  {
    var low := n % TWO_32;
    assert n == (2 * (n / TWO_32)) * TWO_31 + low;
    ModAddMultiple(2 * (n / TWO_32), low, TWO_31);
    if low < TWO_31 then low else low - TWO_32
  }

  /**
   * `(long)n`: all 64 bits read as two's complement. It agrees with `n`
   * modulo 2^64, and dropping its sign bit gives `n & LONG_MASK`.
   */
  function Signed64(n: Word): (r: Int64)
    ensures (r - n) % TWO_64 == 0
    ensures r >= 0 ==> r == Low63(n)
    ensures r < 0 ==> r + TWO_63 == Low63(n)
  {
    if n < TWO_63 then n else n - TWO_64
  }

  /** The word over `ulong.MaxValue`, exact over the reals: a value in `[0, 1]`. */
  function UnitFraction(n: Word): (r: real)
    ensures 0.0 <= r <= 1.0
    ensures n == 0 ==> r == 0.0
    ensures n == 0xffff_ffff_ffff_ffff ==> r == 1.0
  {
    n as real / 0xffff_ffff_ffff_ffff as real
  }
}

=== FILE: csharp_int.dfy ===
/**
 * The C# integer semantics the terrain-noise code relies on: 32-bit `int`
 * and 64-bit `long` values, unchecked wrap-around, and the `/` and `%`
 * operators, which truncate toward zero (Dafny's own `/` and `%` are
 * Euclidean and differ from C# on negative operands).
 */
module CSharpInt {

  const TWO_31: int := 0x8000_0000
  const TWO_32: int := 0x1_0000_0000
  const TWO_63: int := 0x8000_0000_0000_0000
  const TWO_64: int := 0x1_0000_0000_0000_0000

  /** A C# `int`. */
  type Int32 = x: int | -0x8000_0000 <= x < 0x8000_0000

  /** A C# `long`. */
  type Int64 = x: int | -0x8000_0000_0000_0000 <= x < 0x8000_0000_0000_0000

  /** `2^k`, as a natural number. */
  function Pow2(k: nat): (p: nat)
    ensures p >= 1
  {
    if k == 0 then 1 else 2 * Pow2(k - 1)
  }

  /** The C# `int` an unchecked operation yields for the exact result `v`. */
  function Wrap32(v: int): (r: Int32)
    ensures (r - v) % TWO_32 == 0
    ensures -TWO_31 <= v < TWO_31 ==> r == v
  {
    var m := v % TWO_32;
    if m < TWO_31 then m else m - TWO_32
  }

  function Abs(a: int): nat { if a < 0 then -a else a }

  function Max(a: int, b: int): (r: int)
    ensures r >= a && r >= b && (r == a || r == b)
  {
    if a >= b then a else b
  }

  /** C# `a / b`: the quotient truncated toward zero. */
  function TruncDiv(a: int, b: int): (q: int)
    requires b != 0
    ensures a >= 0 && b > 0 ==> q == a / b
    ensures (a >= 0) == (b > 0) ==> q >= 0
    ensures (a >= 0) != (b > 0) ==> q <= 0
  {
    if a >= 0 then
      (if b > 0 then a / b else -(a / -b))
    else
      (if b > 0 then -((-a) / b) else (-a) / (-b))
  }

  lemma NegMul(x: int, y: int)
    ensures (-x) * y == -(x * y) == x * (-y)
  {
  }

  /** C# `a % b`: the remainder whose sign follows the dividend. */
  function TruncRem(a: int, b: int): (r: int)
    requires b != 0
    ensures a == TruncDiv(a, b) * b + r
    ensures Abs(r) < Abs(b)
    ensures r == 0 || (r > 0 <==> a > 0)
  {
    var q := TruncDiv(a, b);
    assert Abs(a) == (Abs(a) / Abs(b)) * Abs(b) + Abs(a) % Abs(b);
    assert q == Abs(a) / Abs(b) || q == -(Abs(a) / Abs(b));
    NegMul(Abs(a) / Abs(b), Abs(b));
    NegMul(Abs(a) / Abs(b), b);
    if a < 0 then -(Abs(a) % Abs(b)) else Abs(a) % Abs(b)
  }

  /** On a non-negative dividend and a positive divisor C# and Dafny agree. */
  lemma TruncAgreesOnNatural(a: int, b: int)
    requires a >= 0 && b > 0
    ensures TruncDiv(a, b) == a / b && TruncRem(a, b) == a % b
  {
  }

  /** Multiplying by a positive number keeps a strict order: `q * d < r * d` gives `q < r`. */
  lemma MulCancel(q: int, r: int, d: int)
    requires d > 0 && q * d < r * d
    ensures q < r
  {
    if q >= r {
      MulMonotone(r, q, d);
    }
  }

  /** Multiplying by a positive number keeps order. */
  lemma MulMonotone(r: int, q: int, d: int)
    requires d > 0 && r <= q
    ensures r * d <= q * d
  {
    assert q * d - r * d == (q - r) * d;
  }

  /** Euclidean division is unique: a split `a == q * m + r` with `0 <= r < m` is `a / m`, `a % m`. */
  lemma DivModUnique(a: int, q: int, r: int, m: int)
    requires m > 0 && a == q * m + r && 0 <= r < m
    ensures a / m == q && a % m == r
  {
    var q', r' := a / m, a % m;
    assert (q - q') * m == r' - r;
    MulCancel(q - q', 1, m);
    MulCancel(-1, q - q', m);
  }

  /** Adding a multiple of `m` does not change the remainder modulo `m`. */
  lemma ModAddMultiple(k: int, b: int, m: int)
    requires m > 0
    ensures (k * m + b) % m == b % m
  {
    assert k * m + b == (k + b / m) * m + b % m;
    DivModUnique(k * m + b, k + b / m, b % m, m);
  }

  /** A multiple of `m` strictly between `-m` and `m` is 0. */
  lemma SmallMultiple(x: int, m: int)
    requires m > 0 && x % m == 0 && -m < x < m
    ensures x == 0
  {
    var q := x / m;
    assert x == q * m;
    MulCancel(-1, q, m);
    MulCancel(q, 1, m);
  }

  /** Sums and differences of multiples of `m` are multiples of `m`. */
  lemma MultipleArith(x: int, y: int, m: int)
    requires m > 0 && x % m == 0 && y % m == 0
    ensures (x + y) % m == 0 && (x - y) % m == 0
  {
    assert x + y == (x / m + y / m) * m + 0;
    DivModUnique(x + y, x / m + y / m, 0, m);
    assert x - y == (x / m - y / m) * m + 0;
    DivModUnique(x - y, x / m - y / m, 0, m);
  }

  /** Two C# `int`s that agree modulo 2^32 are equal. */
  lemma Int32Unique(a: Int32, b: Int32)
    requires (a - b) % TWO_32 == 0
    ensures a == b
  {
    SmallMultiple(a - b, TWO_32);
  }

  /** Unchecked sums compose: wrapping an intermediate result changes nothing. */
  lemma Wrap32Add(a: int, b: int)
    ensures Wrap32(Wrap32(a) + b) == Wrap32(a + b)
  {
    var w := Wrap32(a);
    var r1, r2 := Wrap32(w + b), Wrap32(a + b);
    MultipleArith(r1 - (w + b), r2 - (a + b), TWO_32);
    MultipleArith((r1 - (w + b)) - (r2 - (a + b)), w - a, TWO_32);
    assert r1 - r2 == ((r1 - (w + b)) - (r2 - (a + b))) + (w - a);
    Int32Unique(r1, r2);
  }

  /** Values closer than 2^32 wrap to different `int`s. */
  lemma Wrap32Distinct(a: int, b: int)
    requires a != b && -TWO_32 < a - b < TWO_32
    ensures Wrap32(a) != Wrap32(b)
  {
    // Each wrap moves its value by a whole number of 2^32 steps; the steps
    // differ by at least 2^32 unless they are equal.
    var qa, qb := (Wrap32(a) - a) / TWO_32, (Wrap32(b) - b) / TWO_32;
    assert Wrap32(a) - a == qa * TWO_32 && Wrap32(b) - b == qb * TWO_32;
    if qa > qb {
      assert (qa - qb) * TWO_32 >= TWO_32;
    } else if qa < qb {
      assert (qb - qa) * TWO_32 >= TWO_32;
    }
  }

  /** Values of different parity (`a - b == 2 * h + 1`) wrap to different `int`s. */
  lemma Wrap32DistinctParity(a: int, b: int, h: int)
    requires a - b == 2 * h + 1
    ensures Wrap32(a) != Wrap32(b)
  {
    // Each wrap moves its value by a whole number of 2^32 steps, an even amount.
    var qa, qb := (Wrap32(a) - a) / TWO_32, (Wrap32(b) - b) / TWO_32;
    assert Wrap32(a) - a == qa * TWO_32 && Wrap32(b) - b == qb * TWO_32;
    assert Wrap32(a) - Wrap32(b) == 2 * (h + (qa - qb) * TWO_31) + 1;
  }

  /** C# division of an exact multiple of `ci` is exact, whatever its sign. */
  lemma ExactTruncDiv(m: int, ci: int)
    requires ci > 0
    ensures TruncDiv(m * ci, ci) == m
  {
    if m >= 0 {
      MulDivCancel(m, ci);
    } else {
      NegMul(m, ci);
      MulDivCancel(-m, ci);
    }
  }

  lemma MulDivCancel(k: nat, ci: int)
    requires ci > 0
    ensures (k * ci) / ci == k
  {
    var q, r := (k * ci) / ci, (k * ci) % ci;
    assert (k - q) * ci == r;
    MulCancel(k - q, 1, ci);
    MulCancel(-1, k - q, ci);
  }

  /**
   * The C# cast `(int)` of a floating value: the integer part, truncated
   * toward zero.
   */
  function RealToInt(r: real): (n: int)
    ensures 0.0 <= r ==> 0 <= n && n as real <= r < n as real + 1.0
    ensures r < 0.0 ==> n <= 0 && n as real - 1.0 < r <= n as real
  {
    if r >= 0.0 then r.Floor else -((-r).Floor)
  }
}

=== FILE: height_map.dfy ===
/**
 * `HeightNoiseMap`: a 2-D gradient-noise height field for one terrain tile.
 * A tile of `sizex * sizez` squares has `(sizex + 1) * (sizez + 1)` vertex
 * samples. Octaves of cell width `interval, interval / 2, ...` down to (not
 * including) `cutoff` are summed into the field, which is then remapped by
 * `value * scale + offset`.
 *
 * The height of a sample is specified by `Octaves`, a function of the hash,
 * the tile offset and the sample; `Process` is proved to leave exactly
 * `Octaves(...) * scale + offset` in every cell.
 */
module HeightMap {
  import opened CSharpInt
  import opened SpatialHashing
  import opened Vectors
  import opened NoiseMath

  const SQRT_THREE: real := 1.73205080757
  /** The scale that, with offset 0.5, maps the raw noise range to `[0, 1]`. */
  const SCALE_FOR_ZERO_TO_ONE: real := SQRT_THREE * 0.5

  /**
   * Node `(i, j)` of the gradient lattice of the octave of width `ci`: the
   * four-coordinate `Vec2D` at lattice coordinates `i + xOff / ci`,
   * `j + zOff / ci` (C# division and unchecked sums), with the octave's
   * `divisor` as the hash's third coordinate and `layer` as its channel.
   */
  function LatticeNode(rand: SpatialHash, xOff: Int32, zOff: Int32, ci: int, divisor: Int32, layer: Int32,
                       i: int, j: int): Vec2D
    requires ci > 0
  {
    Vec2DFromHash4(rand, Wrap32(i + TruncDiv(xOff, ci)), Wrap32(j + TruncDiv(zOff, ci)), divisor, layer)
  }

  /** The hash channel of layer `k` once the layer argument is used: `k * 2`, unchecked. */
  function LayerChannel(k: Int32): Int32
  {
    Wrap32(k * 2)
  }

  /**
   * Layers less than `2^31` apart (layers 0, 1 and 2 among them) get
   * different channels, so their lattice nodes are drawn from different
   * hash words.
   */
  lemma LayerChannelsDistinct(k: Int32, k': Int32)
    requires k != k' && -TWO_31 < k - k' < TWO_31
    ensures LayerChannel(k) != LayerChannel(k')
  {
    Wrap32Distinct(k * 2, k' * 2);
  }

  /** The contribution of the octave of width `ci` to sample `(x, y)`. */
  function OctaveCell(rand: SpatialHash, xOff: Int32, zOff: Int32, interval: int, layer: Int32,
                      ci: int, divisor: Int32, x: nat, y: nat): real
    requires ci > 0 && interval != 0
  {
    var px, py := x / ci, y / ci;
    CellValue2(
      LatticeNode(rand, xOff, zOff, ci, divisor, layer, px, py),
      LatticeNode(rand, xOff, zOff, ci, divisor, layer, px + 1, py),
      LatticeNode(rand, xOff, zOff, ci, divisor, layer, px + 1, py + 1),
      LatticeNode(rand, xOff, zOff, ci, divisor, layer, px, py + 1),
      x, y, ci, interval)
  }

  /** The final remap of a raw noise value: `value * scale + offset`. */
  function Remapped(value: real, scale: real, offset: real): real
  {
    value * scale + offset
  }

  /**
   * The sum, at sample `(x, y)`, of the octaves of width `ci, ci / 2, ...`
   * that are wider than `cutoff`, the first of them with octave number
   * `divisor`.
   */
  function Octaves(rand: SpatialHash, xOff: Int32, zOff: Int32, interval: Int32, cutoff: Int32, layer: Int32,
                   ci: int, divisor: int, x: nat, y: nat): real
    requires OctaveBounds(interval, cutoff, ci, divisor)
    decreases ci
  {
    if ci <= cutoff then 0.0
    else
      HalveOctave(interval, cutoff, ci, divisor);
      OctaveCell(rand, xOff, zOff, interval, layer, ci, divisor, x, y)
      + Octaves(rand, xOff, zOff, interval, cutoff, layer, ci / 2, divisor * 2, x, y)
  }

  /** One step of the octave sum: nothing at or below the cutoff, else this octave plus the finer ones. */
  lemma OctavesStep(rand: SpatialHash, xOff: Int32, zOff: Int32, interval: Int32, cutoff: Int32, layer: Int32,
                    ci: int, divisor: int)
    requires OctaveBounds(interval, cutoff, ci, divisor)
    ensures ci <= cutoff ==>
              forall x: nat, y: nat :: Octaves(rand, xOff, zOff, interval, cutoff, layer, ci, divisor, x, y) == 0.0
    ensures ci > cutoff ==>
              OctaveBounds(interval, cutoff, ci / 2, divisor * 2) && ci > 0 && divisor < TWO_31 &&
              forall x: nat, y: nat :: Octaves(rand, xOff, zOff, interval, cutoff, layer, ci, divisor, x, y)
                == OctaveCell(rand, xOff, zOff, interval, layer, ci, divisor, x, y)
                   + Octaves(rand, xOff, zOff, interval, cutoff, layer, ci / 2, divisor * 2, x, y)
  {
    if ci > cutoff {
      HalveOctave(interval, cutoff, ci, divisor);
    }
  }

  /** The tile origin is a lattice point of every octave: it sums to 0. */
  lemma {:induction false} OctavesAtOrigin(rand: SpatialHash, xOff: Int32, zOff: Int32, interval: Int32,
                                           cutoff: Int32, layer: Int32, ci: int, divisor: int)
    requires OctaveBounds(interval, cutoff, ci, divisor)
    ensures Octaves(rand, xOff, zOff, interval, cutoff, layer, ci, divisor, 0, 0) == 0.0
    decreases ci
  {
    // Only the shape of the octave sum matters here, not the nodes.
    hide CellValue2, LatticeNode;
    if ci > cutoff {
      HalveOctave(interval, cutoff, ci, divisor);
      var px := 0 / ci;
      CellValue2AtLattice(
        LatticeNode(rand, xOff, zOff, ci, divisor, layer, px, px),
        LatticeNode(rand, xOff, zOff, ci, divisor, layer, px + 1, px),
        LatticeNode(rand, xOff, zOff, ci, divisor, layer, px + 1, px + 1),
        LatticeNode(rand, xOff, zOff, ci, divisor, layer, px, px + 1),
        0, 0, ci, interval);
      OctavesAtOrigin(rand, xOff, zOff, interval, cutoff, layer, ci / 2, divisor * 2);
    }
  }

  /** Every octave width from `ci` down to the cutoff divides `n`. */
  predicate DividesOctaves(n: int, cutoff: Int32, ci: int)
    decreases ci
  {
    ci <= cutoff || (ci > 0 && n % ci == 0 && DividesOctaves(n, cutoff, ci / 2))
  }

  /**
   * One octave agrees on the seam of two tiles side by side along x: the
   * last column of tile `x` and the first column of tile `x + 1` see the
   * same four nodes at the same offsets, when the width divides `sizex`.
   */
  lemma OctaveCellSeam(rand: SpatialHash, tile: int, sizex: Int32, zOff: Int32, interval: int,
                       layer: Int32, ci: int, divisor: Int32, j: nat)
    requires ci > 0 && interval != 0 && sizex >= 0 && sizex % ci == 0
    requires -TWO_31 <= tile * sizex && (tile + 1) * sizex < TWO_31
    ensures OctaveCell(rand, Wrap32(tile * sizex), zOff, interval, layer, ci, divisor, sizex, j)
         == OctaveCell(rand, Wrap32((tile + 1) * sizex), zOff, interval, layer, ci, divisor, 0, j)
  {
    // The two cells agree argument by argument; their values play no part.
    hide CellValue2, Vec2DFromHash4, Unit4, UlongFor4;
    var k := sizex / ci;
    assert sizex == k * ci;
    assert tile * sizex == (tile * k) * ci;
    assert (tile + 1) * sizex == (tile * k + k) * ci;
    ExactTruncDiv(tile * k, ci);
    ExactTruncDiv(tile * k + k, ci);
    MulSignBounds(tile, sizex);
    assert Wrap32(tile * sizex) == tile * sizex;
    assert Wrap32((tile + 1) * sizex) == (tile + 1) * sizex;
    assert 0 / ci == 0;
    CellValue2Periodic(LatticeNode(rand, Wrap32(tile * sizex), zOff, ci, divisor, layer, k, j / ci),
      LatticeNode(rand, Wrap32(tile * sizex), zOff, ci, divisor, layer, k + 1, j / ci),
      LatticeNode(rand, Wrap32(tile * sizex), zOff, ci, divisor, layer, k + 1, j / ci + 1),
      LatticeNode(rand, Wrap32(tile * sizex), zOff, ci, divisor, layer, k, j / ci + 1),
      sizex, 0, j, ci, interval);
  }

  /** A product between two values of an `int` range stays in it. */
  lemma MulSignBounds(tile: int, sizex: int)
    requires sizex >= 0 && -TWO_31 <= tile * sizex && (tile + 1) * sizex < TWO_31
    ensures -TWO_31 <= tile * sizex < TWO_31 && -TWO_31 <= (tile + 1) * sizex < TWO_31
  {
    assert (tile + 1) * sizex == tile * sizex + sizex;
  }

  /**
   * Adjacent tiles along x meet without a seam: when every octave width
   * divides `sizex` and the tile offsets do not overflow, the last sample
   * column of tile `x` equals the first sample column of tile `x + 1`.
   */
  lemma {:induction false} OctavesSeam(rand: SpatialHash, tile: int, sizex: Int32, zOff: Int32, interval: Int32,
                                       cutoff: Int32, layer: Int32, ci: int, divisor: int, j: nat)
    requires OctaveBounds(interval, cutoff, ci, divisor) && sizex >= 0
    requires DividesOctaves(sizex, cutoff, ci)
    requires -TWO_31 <= tile * sizex && (tile + 1) * sizex < TWO_31
    ensures Octaves(rand, Wrap32(tile * sizex), zOff, interval, cutoff, layer, ci, divisor, sizex, j)
         == Octaves(rand, Wrap32((tile + 1) * sizex), zOff, interval, cutoff, layer, ci, divisor, 0, j)
    decreases ci
  {
    // Each octave is matched by `OctaveCellSeam`.
    hide OctaveCell;
    if ci > cutoff {
      HalveOctave(interval, cutoff, ci, divisor);
      OctaveCellSeam(rand, tile, sizex, zOff, interval, layer, ci, divisor, j);
      OctavesSeam(rand, tile, sizex, zOff, interval, cutoff, layer, ci / 2, divisor * 2, j);
    }
  }

  class HeightNoiseMap {
    const sizex: Int32
    const sizez: Int32
    const interval: Int32
    const cutoff: Int32
    /** Always 0: the constructors set it and nothing changes it. */
    const layer: Int32
    var xOff: Int32
    var zOff: Int32
    var currentInterval: Int32
    /** A `float` in the generator; it only ever holds a power of two. */
    var divisor: int
    var field: array2<real>
    var scale: real
    var offset: real

    /**
     * What `Process` needs of the parameters to finish without an
     * exception: array sizes it can allocate, lattice sizes that do not
     * overflow, and no octave of width 0.
     */
    predicate Valid()
    {
      -1 <= sizex <= 0x7fff_fffd && -1 <= sizez <= 0x7fff_fffd
      && (cutoff >= 0 || interval <= cutoff) && layer == 0
    }

    constructor (sizex: Int32, sizey: Int32, interval: Int32, cutoff: Int32)
      ensures this.sizex == sizex && this.sizez == sizey
      ensures this.interval == interval && this.cutoff == cutoff && layer == 0
      ensures scale == SCALE_FOR_ZERO_TO_ONE && offset == 0.5
    {
      this.sizex := sizex;
      this.sizez := sizey;
      this.interval := interval;
      this.cutoff := cutoff;
      this.layer := 0;
      scale := SCALE_FOR_ZERO_TO_ONE;
      offset := 0.5;
      field := new real[0, 0];
    }

    /** The three-argument constructor: the cutoff defaults to 2. */
    constructor WithDefaultCutoff(sizex: Int32, sizey: Int32, interval: Int32)
      ensures this.sizex == sizex && this.sizez == sizey
      ensures this.interval == interval && cutoff == 2 && layer == 0
      ensures scale == SCALE_FOR_ZERO_TO_ONE && offset == 0.5
    {
      this.sizex := sizex;
      this.sizez := sizey;
      this.interval := interval;
      this.cutoff := 2;
      this.layer := 0;
      scale := SCALE_FOR_ZERO_TO_ONE;
      offset := 0.5;
      field := new real[0, 0];
    }

    method ResetDefaultScaling()
      modifies this
      ensures scale == SCALE_FOR_ZERO_TO_ONE && offset == 0.5
      ensures field == old(field) && xOff == old(xOff) && zOff == old(zOff)
      ensures currentInterval == old(currentInterval) && divisor == old(divisor)
    {
      scale := SCALE_FOR_ZERO_TO_ONE;
      offset := 0.5;
    }

    /** Scaling for a signed result: the raw noise times `sqrt 3`, no offset. */
    method SetFullScaling()
      modifies this
      ensures scale == SQRT_THREE && offset == 0.0
      ensures field == old(field) && xOff == old(xOff) && zOff == old(zOff)
      ensures currentInterval == old(currentInterval) && divisor == old(divisor)
    {
      scale := SQRT_THREE;
      offset := 0.0;
    }

    method SetCustomScaling(scale: real, offset: real)
      modifies this
      ensures this.scale == scale && this.offset == offset
      ensures field == old(field) && xOff == old(xOff) && zOff == old(zOff)
      ensures currentInterval == old(currentInterval) && divisor == old(divisor)
    {
      this.scale := scale;
      this.offset := offset;
    }

    /**
     * The raw (not yet remapped) height of sample `(i, j)` of tile `(x, z)`.
     * It does not depend on the `layer` argument of `Process`.
     */
    function Height(rand: SpatialHash, x: Int32, z: Int32, i: nat, j: nat): real
      requires Valid()
    {
      Octaves(rand, Wrap32(x * sizex), Wrap32(z * sizez), interval, cutoff, layer, interval, 1, i, j)
    }

    /**
     * The raw height with the `layer` argument put to use as evidently
     * intended, stored into the generator's channel (`this.layer = layer * 2`)
     * rather than into the argument: every lattice node on hash channel
     * `LayerChannel(layerArg)`.
     */
    function LayeredHeight(rand: SpatialHash, x: Int32, z: Int32, layerArg: Int32, i: nat, j: nat): real
      requires Valid()
    {
      Octaves(rand, Wrap32(x * sizex), Wrap32(z * sizez), interval, cutoff, LayerChannel(layerArg), interval, 1, i, j)
    }

    /** With the channel put to use, layer 0 is still the height `Process` computes. */
    lemma LayerZeroIsHeight(rand: SpatialHash, x: Int32, z: Int32, i: nat, j: nat)
      requires Valid()
      ensures LayeredHeight(rand, x, z, 0, i, j) == Height(rand, x, z, i, j)
    {
      assert LayerChannel(0) == 0 == layer;
    }

    /**
     * `Process(rand, x, z, layer)`: a fresh `(sizex + 1) x (sizez + 1)`
     * field holding, in every cell, the octave sum times `scale` plus
     * `offset`. The `layer` argument is doubled into a local and never read.
     */
    method Process(rand: SpatialHash, x: Int32, z: Int32, layerArg: Int32) returns (result: array2<real>)
      requires Valid()
      modifies this
      ensures fresh(result) && result == field
      ensures result.Length0 == sizex + 1 && result.Length1 == sizez + 1
      ensures xOff == Wrap32(x * sizex) && zOff == Wrap32(z * sizez)
      ensures scale == old(scale) && offset == old(offset)
      ensures currentInterval <= cutoff
      ensures exists k: nat :: divisor == Pow2(k)
      ensures forall i, j :: 0 <= i <= sizex && 0 <= j <= sizez ==>
                result[i, j] == Remapped(Height(rand, x, z, i, j), scale, offset)
    {
      // Octaves are added as wholes, one `OctavesStep` at a time.
      hide Octaves, OctaveCell, Remapped;
      xOff := Wrap32(x * sizex);
      zOff := Wrap32(z * sizez);
      field := new real[sizex + 1, sizez + 1]((i, j) => 0.0);
      currentInterval := interval;
      divisor := 1;
      ghost var k: nat := 0;
      while currentInterval > cutoff
        invariant fresh(field) && field.Length0 == sizex + 1 && field.Length1 == sizez + 1
        invariant xOff == Wrap32(x * sizex) && zOff == Wrap32(z * sizez)
        invariant scale == old(scale) && offset == old(offset)
        invariant OctaveBounds(interval, cutoff, currentInterval, divisor)
        invariant divisor == Pow2(k)
        invariant forall i, j :: 0 <= i <= sizex && 0 <= j <= sizez ==>
                    field[i, j] + Octaves(rand, xOff, zOff, interval, cutoff, layer, currentInterval, divisor, i, j)
                    == Height(rand, x, z, i, j)
        decreases currentInterval
      {
        OctavesStep(rand, xOff, zOff, interval, cutoff, layer, currentInterval, divisor);
        HalveOctave(interval, cutoff, currentInterval, divisor);
        ProcessOne(rand);
        divisor := divisor * 2;
        currentInterval := currentInterval / 2;
        k := k + 1;
      }
      OctavesStep(rand, xOff, zOff, interval, cutoff, layer, currentInterval, divisor);
      // Only the sum as a whole matters from here on.
      hide Height;
      result := field;
      for i := 0 to sizex + 1
        modifies result
        invariant forall i', j :: 0 <= i' <= sizex && 0 <= j <= sizez ==>
                    result[i', j] == if i' < i then Remapped(Height(rand, x, z, i', j), scale, offset)
                                     else Height(rand, x, z, i', j)
      {
        for j := 0 to sizez + 1
          modifies result
          invariant forall i', j' :: 0 <= i' <= sizex && 0 <= j' <= sizez ==>
                      result[i', j'] == if i' < i || (i' == i && j' < j) then Remapped(Height(rand, x, z, i', j'), scale, offset)
                                        else Height(rand, x, z, i', j')
        {
          result[i, j] := Remapped(result[i, j], scale, offset);
        }
      }
    }

    /**
     * One octave: fill the `nodesX * nodesY` lattice of the current width,
     * then add its contribution to every sample of the field.
     */
    method ProcessOne(rand: SpatialHash)
      requires Valid() && currentInterval > cutoff
      requires OctaveBounds(interval, cutoff, currentInterval, divisor)
      // Implied by the bounds above (`HalveOctave`); stated so that the
      // contract is well formed without nonlinear reasoning.
      requires 0 < currentInterval && 1 <= divisor <= interval && divisor < TWO_31
      requires field.Length0 == sizex + 1 && field.Length1 == sizez + 1
      modifies field
      ensures forall i, j :: 0 <= i <= sizex && 0 <= j <= sizez ==>
                field[i, j] == old(field[i, j])
                  + OctaveCell(rand, xOff, zOff, interval, layer, currentInterval, divisor, i, j)
    {
      // Nodes and cells are matched by `ProcessPointIsOctaveCell`.
      hide *;
      HalveOctave(interval, cutoff, currentInterval, divisor);
      var ci := currentInterval;
      var d: Int32 := divisor;
      var nodesX := Max(sizex / ci + 2, 3);
      var nodesY := Max(sizez / ci + 2, 3);
      var nodes := new Vec2D[nodesX, nodesY]((i, j) => Vec2D(0.0, 0.0));
      for i := 0 to nodesX
        modifies nodes
        invariant forall i', j :: 0 <= i' < i && 0 <= j < nodesY ==>
                    nodes[i', j] == LatticeNode(rand, xOff, zOff, ci, d, layer, i', j)
      {
        for j := 0 to nodesY
          modifies nodes
          invariant forall i', j' :: 0 <= i' < nodesX && 0 <= j' < nodesY && (i' < i || (i' == i && j' < j)) ==>
                      nodes[i', j'] == LatticeNode(rand, xOff, zOff, ci, d, layer, i', j')
        {
          nodes[i, j] := LatticeNode(rand, xOff, zOff, ci, d, layer, i, j);
        }
      }
      for i := 0 to sizex + 1
        modifies field
        invariant forall i', j :: 0 <= i' <= sizex && 0 <= j <= sizez ==>
                    field[i', j] == if i' < i then old(field[i', j]) + OctaveCell(rand, xOff, zOff, interval, layer, ci, d, i', j)
                                    else old(field[i', j])
      {
        for j := 0 to sizez + 1
          modifies field
          invariant forall i', j' :: 0 <= i' <= sizex && 0 <= j' <= sizez ==>
                      field[i', j'] == if i' < i || (i' == i && j' < j)
                                       then old(field[i', j']) + OctaveCell(rand, xOff, zOff, interval, layer, ci, d, i', j')
                                       else old(field[i', j'])
        {
          LatticeCoversClosed(sizex, ci, i);
          LatticeCoversClosed(sizez, ci, j);
          ProcessPointIsOctaveCell(rand, nodes, i, j);
          field[i, j] := field[i, j] + ProcessPoint(nodes, i, j);
        }
      }
    }

    /**
     * `ProcessPoint(nodes, x, y)`: the current octave's value at a sample,
     * from the four nodes around its cell.
     */
    function ProcessPoint(nodes: array2<Vec2D>, x: nat, y: nat): (r: real)
      reads this, nodes
      requires currentInterval > 0 && interval != 0
      requires x / currentInterval + 1 < nodes.Length0 && y / currentInterval + 1 < nodes.Length1
    {
      var ci := currentInterval;
      var px, py := x / ci, y / ci;
      assert 0 <= px && 0 <= py by {
        DivMonotone(0, x, ci);
        DivMonotone(0, y, ci);
      }
      CellValue2(nodes[px, py], nodes[px + 1, py], nodes[px + 1, py + 1], nodes[px, py + 1], x, y, ci, interval)
    }

    /** A lattice filled by `ProcessOne` gives `ProcessPoint` the octave's cell value. */
    lemma ProcessPointIsOctaveCell(rand: SpatialHash, nodes: array2<Vec2D>, x: nat, y: nat)
      requires 0 < currentInterval && 1 <= divisor < TWO_31 && interval != 0
      requires x / currentInterval + 1 < nodes.Length0 && y / currentInterval + 1 < nodes.Length1
      requires forall i, j :: 0 <= i < nodes.Length0 && 0 <= j < nodes.Length1 ==>
                 nodes[i, j] == LatticeNode(rand, xOff, zOff, currentInterval, divisor, layer, i, j)
      ensures ProcessPoint(nodes, x, y) == OctaveCell(rand, xOff, zOff, interval, layer, currentInterval, divisor, x, y)
    {
      // The two sides agree node by node; the cell value itself plays no part.
      hide CellValue2, LatticeNode;
      var ci := currentInterval;
      var px, py := x / ci, y / ci;
      DivMonotone(0, x, ci);
      DivMonotone(0, y, ci);
      assert nodes[px, py] == LatticeNode(rand, xOff, zOff, ci, divisor, layer, px, py);
      assert nodes[px + 1, py] == LatticeNode(rand, xOff, zOff, ci, divisor, layer, px + 1, py);
      assert nodes[px + 1, py + 1] == LatticeNode(rand, xOff, zOff, ci, divisor, layer, px + 1, py + 1);
      assert nodes[px, py + 1] == LatticeNode(rand, xOff, zOff, ci, divisor, layer, px, py + 1);
    }

    /** The first sample of every tile is exactly `offset`. */
    lemma OriginIsOffset(rand: SpatialHash, x: Int32, z: Int32)
      requires Valid()
      ensures Height(rand, x, z, 0, 0) == 0.0
    {
      OctavesAtOrigin(rand, Wrap32(x * sizex), Wrap32(z * sizez), interval, cutoff, layer, interval, 1);
    }

    /**
     * With `interval <= cutoff` no octave runs: every raw height is 0, so
     * `Process` leaves `offset` in every cell.
     */
    lemma NoOctavesGiveOffset(rand: SpatialHash, x: Int32, z: Int32, i: nat, j: nat)
      requires Valid() && interval <= cutoff
      ensures Height(rand, x, z, i, j) == 0.0
      ensures Remapped(Height(rand, x, z, i, j), scale, offset) == offset
    {
      OctavesStep(rand, Wrap32(x * sizex), Wrap32(z * sizez), interval, cutoff, layer, interval, 1);
    }

    /**
     * Neighbouring tiles share their seam: with every octave width dividing
     * `sizex` and no overflow of the tile offsets, sample `(sizex, j)` of
     * tile `(x, z)` equals sample `(0, j)` of tile `(x + 1, z)`.
     */
    lemma TilesMeetAlongX(rand: SpatialHash, x: Int32, z: Int32, j: nat)
      requires Valid() && sizex >= 0 && x + 1 < TWO_31
      requires DividesOctaves(sizex, cutoff, interval)
      requires -TWO_31 <= x * sizex && (x + 1) * sizex < TWO_31
      ensures Height(rand, x, z, sizex, j) == Height(rand, x + 1, z, 0, j)
    {
      OctavesSeam(rand, x, sizex, Wrap32(z * sizez), interval, cutoff, layer, interval, 1, j);
    }
  }
}

=== FILE: height_map_3d.dfy ===
/**
 * `HeightNoiseMap3D`: a 3-D gradient-noise density field over a cube of
 * `size` cells per axis, `(size + 1)^3` vertex samples. Octaves of width
 * `interval, interval / 2, ...` down to (not including) `cutoff` are summed
 * into the field; no remap follows. `GetValue` reads the field back at
 * world coordinates through a coordinate scale, interpolating between the
 * eight samples around a point.
 *
 * The value of a sample is specified by `Octaves`; `Process` is proved to
 * leave exactly that value in every cell.
 */
module Noise3D {
  import opened CSharpInt
  import opened SpatialHashing
  import opened Vectors
  import opened NoiseMath

  /**
   * Node `(i, j, k)` of the gradient lattice of the octave of width `ci`:
   * the hash vector at lattice coordinates `i + xOff / ci`, `j + yOff / ci`,
   * `k + zOff / ci` (C# division, unchecked sums) on channel `layer`. The
   * octave itself is not part of the hash.
   */
  function LatticeNode(rand: SpatialHash, xOff: Int32, yOff: Int32, zOff: Int32, ci: int, layer: Int32,
                       i: int, j: int, k: int): Vec3D
    requires ci > 0
  {
    Vec3DFromHash(rand, Wrap32(i + TruncDiv(xOff, ci)), Wrap32(j + TruncDiv(yOff, ci)),
                  Wrap32(k + TruncDiv(zOff, ci)), layer)
  }

  /** The eight nodes around cell `(px, py, pz)`, in the order `ProcessPoint` adds them. */
  function CellNodes(rand: SpatialHash, xOff: Int32, yOff: Int32, zOff: Int32, ci: int, layer: Int32,
                     px: int, py: int, pz: int): (n: seq<Vec3D>)
    requires ci > 0
    ensures |n| == 8
  {
    [LatticeNode(rand, xOff, yOff, zOff, ci, layer, px, py, pz),
     LatticeNode(rand, xOff, yOff, zOff, ci, layer, px + 1, py, pz),
     LatticeNode(rand, xOff, yOff, zOff, ci, layer, px + 1, py + 1, pz),
     LatticeNode(rand, xOff, yOff, zOff, ci, layer, px, py + 1, pz),
     LatticeNode(rand, xOff, yOff, zOff, ci, layer, px, py, pz + 1),
     LatticeNode(rand, xOff, yOff, zOff, ci, layer, px + 1, py, pz + 1),
     LatticeNode(rand, xOff, yOff, zOff, ci, layer, px + 1, py + 1, pz + 1),
     LatticeNode(rand, xOff, yOff, zOff, ci, layer, px, py + 1, pz + 1)]
  }

  /** The contribution of the octave of width `ci` to sample `(x, y, z)`. */
  function OctaveCell(rand: SpatialHash, xOff: Int32, yOff: Int32, zOff: Int32, interval: int, layer: Int32,
                      ci: int, x: nat, y: nat, z: nat): real
    requires ci > 0 && interval != 0
  {
    CellValue3(CellNodes(rand, xOff, yOff, zOff, ci, layer, x / ci, y / ci, z / ci), x, y, z, ci, interval)
  }

  /**
   * What keeps the octave loop well defined: a width above the cutoff is
   * positive (so is the base interval above it), and widths only shrink.
   */
  predicate Schedule(interval: Int32, cutoff: Int32, ci: int)
  {
    (cutoff >= 0 || ci <= cutoff) && ci <= interval
  }

  lemma HalveWidth(interval: Int32, cutoff: Int32, ci: int)
    requires Schedule(interval, cutoff, ci) && ci > cutoff
    ensures 0 < ci <= interval && Schedule(interval, cutoff, ci / 2) && ci / 2 < ci
  {
  }

  /** The sum at sample `(x, y, z)` of the octaves of width `ci, ci / 2, ...` wider than `cutoff`. */
  function Octaves(rand: SpatialHash, xOff: Int32, yOff: Int32, zOff: Int32, interval: Int32, cutoff: Int32,
                   layer: Int32, ci: int, x: nat, y: nat, z: nat): real
    requires Schedule(interval, cutoff, ci)
    decreases ci
  {
    if ci <= cutoff then 0.0
    else
      HalveWidth(interval, cutoff, ci);
      OctaveCell(rand, xOff, yOff, zOff, interval, layer, ci, x, y, z)
      + Octaves(rand, xOff, yOff, zOff, interval, cutoff, layer, ci / 2, x, y, z)
  }

  /** One step of the octave sum: nothing at or below the cutoff, else this octave plus the finer ones. */
  lemma OctavesStep(rand: SpatialHash, xOff: Int32, yOff: Int32, zOff: Int32, interval: Int32, cutoff: Int32,
                    layer: Int32, ci: int)
    requires Schedule(interval, cutoff, ci)
    ensures ci <= cutoff ==>
              forall x: nat, y: nat, z: nat :: Octaves(rand, xOff, yOff, zOff, interval, cutoff, layer, ci, x, y, z) == 0.0
    ensures ci > cutoff ==>
              0 < ci <= interval && Schedule(interval, cutoff, ci / 2) &&
              forall x: nat, y: nat, z: nat :: Octaves(rand, xOff, yOff, zOff, interval, cutoff, layer, ci, x, y, z)
                == OctaveCell(rand, xOff, yOff, zOff, interval, layer, ci, x, y, z)
                   + Octaves(rand, xOff, yOff, zOff, interval, cutoff, layer, ci / 2, x, y, z)
  {
    // Only the recursion of the octave sum is unfolded, not its cells.
    hide OctaveCell;
  }

  /** The cube origin is a lattice point of every octave: it sums to 0. */
  lemma {:induction false} OctavesAtOrigin(rand: SpatialHash, xOff: Int32, yOff: Int32, zOff: Int32,
                                           interval: Int32, cutoff: Int32, layer: Int32, ci: int)
    requires Schedule(interval, cutoff, ci)
    ensures Octaves(rand, xOff, yOff, zOff, interval, cutoff, layer, ci, 0, 0, 0) == 0.0
    decreases ci
  {
    // Only the shape of the octave sum matters here, not the nodes.
    hide CellValue3, CellNodes;
    if ci > cutoff {
      CellValue3AtLattice(CellNodes(rand, xOff, yOff, zOff, ci, layer, 0 / ci, 0 / ci, 0 / ci), 0, 0, 0, ci, interval);
      OctavesAtOrigin(rand, xOff, yOff, zOff, interval, cutoff, layer, ci / 2);
    }
  }

  /**
   * One linear interpolation step of `GetValue`: `a * (1 - t) + b * t`,
   * which is `a` at `t = 0` and `b` at `t = 1`.
   */
  function Lerp(a: real, b: real, t: real): (r: real)
    ensures t == 0.0 ==> r == a
    ensures t == 1.0 ==> r == b
  {
    a * (1.0 - t) + b * t
  }

  /** A weight in `[0, 1]` keeps the interpolated value between its ends. */
  lemma LerpBetween(a: real, b: real, t: real, lo: real, hi: real)
    requires 0.0 <= t <= 1.0 && lo <= a <= hi && lo <= b <= hi
    ensures lo <= Lerp(a, b, t) <= hi
  {
    assert Lerp(a, b, t) == a + t * (b - a);
    if a < b {
      MulBetween(t, b - a);
      assert a <= Lerp(a, b, t) <= b;
    } else if b < a {
      MulBetween(t, a - b);
      assert b <= Lerp(a, b, t) <= a;
    }
  }

  /**
   * The interpolation of `GetValue` over the corners `c` of a cell, ordered
   * `(x, y, z)` = 000, 001, 100, 101, 110, 111, 010, 011: first along z,
   * then x, then y, with the three weights given.
   */
  function Trilinear(c: seq<real>, wx: real, wy: real, wz: real): real
    requires |c| == 8
  {
    var s1 := Lerp(c[0], c[1], wz);
    var s2 := Lerp(c[2], c[3], wz);
    var s3 := Lerp(c[4], c[5], wz);
    var s4 := Lerp(c[6], c[7], wz);
    var f1 := Lerp(s1, s2, wx);
    var f2 := Lerp(s4, s3, wx);
    Lerp(f1, f2, wy)
  }

  /** With all weights 0 the interpolation is the first corner. */
  lemma TrilinearAtCorner(c: seq<real>)
    requires |c| == 8
    ensures Trilinear(c, 0.0, 0.0, 0.0) == c[0]
  {
  }

  /** With weights in `[0, 1]` the interpolation stays within the corners' range. */
  lemma TrilinearBetween(c: seq<real>, wx: real, wy: real, wz: real, lo: real, hi: real)
    requires |c| == 8
    requires 0.0 <= wx <= 1.0 && 0.0 <= wy <= 1.0 && 0.0 <= wz <= 1.0
    requires forall i :: 0 <= i < 8 ==> lo <= c[i] <= hi
    ensures lo <= Trilinear(c, wx, wy, wz) <= hi
  {
    LerpBetween(c[0], c[1], wz, lo, hi);
    LerpBetween(c[2], c[3], wz, lo, hi);
    LerpBetween(c[4], c[5], wz, lo, hi);
    LerpBetween(c[6], c[7], wz, lo, hi);
    var s1, s2, s3, s4 := Lerp(c[0], c[1], wz), Lerp(c[2], c[3], wz), Lerp(c[4], c[5], wz), Lerp(c[6], c[7], wz);
    LerpBetween(s1, s2, wx, lo, hi);
    LerpBetween(s4, s3, wx, lo, hi);
    LerpBetween(Lerp(s1, s2, wx), Lerp(s4, s3, wx), wy, lo, hi);
  }

  /**
   * The weight `GetValue` gives the offset `x % s` of a coordinate within
   * its scale step: `FullFade(x % s, s)`, the fade rescaled to `[0, s]`
   * rather than `[0, 1]`.
   */
  function AsWrittenWeight(x: Int32, s: Int32): real
    requires s != 0
  {
    FullFade(TruncRem(x, s) as real, s as real)
  }

  /** The weight an interpolation needs: the fade of the offset as a fraction of the step. */
  function FadedWeight(x: Int32, s: Int32): (w: real)
    requires s != 0
    ensures 0 <= x && 0 < s ==> 0.0 <= w <= 1.0
  {
    var f := TruncRem(x, s) as real / s as real;
    if 0 <= x && 0 < s then
      FractionInUnit(TruncRem(x, s), s);
      FadeInUnit(f);
      Fade(f)
    else
      Fade(f)
  }

  lemma FractionInUnit(r: int, s: int)
    requires 0 <= r < s
    ensures 0.0 <= r as real / s as real <= 1.0
  {
    var q, a, b := r as real / s as real, r as real, s as real;
    assert q * b == a;
    assert (1.0 - q) * b == b - a;
  }

  /** At a multiple of the step both weights are 0. */
  lemma WeightsAtMultiple(a: nat, s: Int32)
    requires 0 < s && a * s < TWO_31
    ensures AsWrittenWeight(a * s, s) == 0.0 && FadedWeight(a * s, s) == 0.0
  {
    ExactTruncDiv(a, s);
    assert TruncRem(a * s, s) == 0;
    FadeEndpoints();
  }

  /** Half a step of 4 in: the as-written weight is 2, outside `[0, 1]`. */
  lemma AsWrittenWeightAtHalfStep()
    ensures AsWrittenWeight(2, 4) == 2.0
    ensures FadedWeight(2, 4) == 0.5
  {
    TruncAgreesOnNatural(2, 4);
    assert Fade(2.0 / 4.0) == 0.5;
  }

  class HeightNoiseMap3D {
    const size: Int32
    const interval: Int32
    const cutoff: Int32
    /** Always 0: the constructors set it and nothing changes it. */
    const layer: Int32
    var xOff: Int32
    var yOff: Int32
    var zOff: Int32
    var currentInterval: Int32
    /** A `float` in the generator that nothing reads. */
    var divisor: real
    var field: array3<real>
    var scalex: Int32
    var scaley: Int32
    var scalez: Int32

    /**
     * What `Process` needs of the parameters to finish without an
     * exception: a field size it can allocate, lattice sizes that do not
     * overflow, and no octave of width 0.
     */
    predicate Valid()
    {
      -1 <= size <= 0x7fff_fffd && (cutoff >= 0 || interval <= cutoff) && layer == 0
    }

    /** `HeightNoiseMap3D(size, interval, cutoff)`, with the coordinate scale `(4, 16, 4)`. */
    constructor (size: Int32, interval: Int32, cutoff: Int32)
      ensures this.size == size && this.interval == interval && this.cutoff == cutoff && layer == 0
      ensures scalex == 4 && scaley == 16 && scalez == 4
    {
      this.size := size;
      this.interval := interval;
      this.cutoff := cutoff;
      this.layer := 0;
      scalex, scaley, scalez := 4, 16, 4;
      field := new real[0, 0, 0];
    }

    /** `HeightNoiseMap3D(size, interval, sx, sy, sz)`: the cutoff is 2 and the scale is given. */
    constructor WithCoordScale(size: Int32, interval: Int32, sx: Int32, sy: Int32, sz: Int32)
      ensures this.size == size && this.interval == interval && cutoff == 2 && layer == 0
      ensures scalex == sx && scaley == sy && scalez == sz
    {
      this.size := size;
      this.interval := interval;
      this.cutoff := 2;
      this.layer := 0;
      scalex, scaley, scalez := sx, sy, sz;
      field := new real[0, 0, 0];
    }

    method SetCoordScale(x: Int32, y: Int32, z: Int32)
      modifies this
      ensures scalex == x && scaley == y && scalez == z
      ensures field == old(field) && xOff == old(xOff) && yOff == old(yOff) && zOff == old(zOff)
      ensures currentInterval == old(currentInterval) && divisor == old(divisor)
    {
      scalex := x;
      scaley := y;
      scalez := z;
    }

    /**
     * The value of sample `(i, j, k)` of cube `(x, y, z)`. It does not
     * depend on the `layer` argument of `Process`.
     */
    function Sample(rand: SpatialHash, x: Int32, y: Int32, z: Int32, i: nat, j: nat, k: nat): real
      requires Valid()
    {
      Octaves(rand, Wrap32(x * size), Wrap32(y * size), Wrap32(z * size), interval, cutoff, layer, interval, i, j, k)
    }

    /**
     * `Process(rand, x, y, z, layer)`: a fresh `(size + 1)^3` field holding
     * the octave sum in every cell. The `layer` argument is tripled into a
     * local and never read; the closing pass copies every cell onto itself.
     */
    method Process(rand: SpatialHash, x: Int32, y: Int32, z: Int32, layerArg: Int32)
      requires Valid()
      modifies this
      ensures fresh(field)
      ensures field.Length0 == size + 1 && field.Length1 == size + 1 && field.Length2 == size + 1
      ensures xOff == Wrap32(x * size) && yOff == Wrap32(y * size) && zOff == Wrap32(z * size)
      ensures scalex == old(scalex) && scaley == old(scaley) && scalez == old(scalez)
      ensures currentInterval <= cutoff
      ensures forall i, j, k :: 0 <= i <= size && 0 <= j <= size && 0 <= k <= size ==>
                field[i, j, k] == Sample(rand, x, y, z, i, j, k)
    {
      // Octaves are added as wholes, one `OctavesStep` at a time.
      hide Octaves, OctaveCell;
      xOff := Wrap32(x * size);
      yOff := Wrap32(y * size);
      zOff := Wrap32(z * size);
      field := new real[size + 1, size + 1, size + 1]((i, j, k) => 0.0);
      currentInterval := interval;
      divisor := 1.0;
      while currentInterval > cutoff
        invariant fresh(field) && field.Length0 == size + 1 && field.Length1 == size + 1 && field.Length2 == size + 1
        invariant xOff == Wrap32(x * size) && yOff == Wrap32(y * size) && zOff == Wrap32(z * size)
        invariant scalex == old(scalex) && scaley == old(scaley) && scalez == old(scalez)
        invariant Schedule(interval, cutoff, currentInterval)
        invariant forall i, j, k :: 0 <= i <= size && 0 <= j <= size && 0 <= k <= size ==>
                    field[i, j, k] + Octaves(rand, xOff, yOff, zOff, interval, cutoff, layer, currentInterval, i, j, k)
                    == Sample(rand, x, y, z, i, j, k)
        decreases currentInterval
      {
        OctavesStep(rand, xOff, yOff, zOff, interval, cutoff, layer, currentInterval);
        ProcessLayer(rand);
        divisor := divisor * 2.0;
        currentInterval := currentInterval / 2;
      }
      OctavesStep(rand, xOff, yOff, zOff, interval, cutoff, layer, currentInterval);
      // The closing pass writes every cell back unchanged.
      var f := field;
      label Summed:
      for i := 0 to size + 1
        modifies f
        invariant forall i', j', k' :: 0 <= i' <= size && 0 <= j' <= size && 0 <= k' <= size ==> f[i', j', k'] == old@Summed(f[i', j', k'])
      {
        for j := 0 to size + 1
          modifies f
          invariant forall i', j', k' :: 0 <= i' <= size && 0 <= j' <= size && 0 <= k' <= size ==> f[i', j', k'] == old@Summed(f[i', j', k'])
        {
          for k := 0 to size + 1
            modifies f
            invariant forall i', j', k' :: 0 <= i' <= size && 0 <= j' <= size && 0 <= k' <= size ==> f[i', j', k'] == old@Summed(f[i', j', k'])
          {
            f[i, j, k] := f[i, j, k];
          }
        }
      }
    }

    /**
     * One octave: fill the lattice of `max(size / ci + 2, 3)` nodes per axis
     * for the current width, then add its contribution to every sample.
     */
    method ProcessLayer(rand: SpatialHash)
      requires Valid() && currentInterval > cutoff
      requires Schedule(interval, cutoff, currentInterval)
      requires field.Length0 == size + 1 && field.Length1 == size + 1 && field.Length2 == size + 1
      modifies field
      ensures forall i, j, k :: 0 <= i <= size && 0 <= j <= size && 0 <= k <= size ==>
                field[i, j, k] == old(field[i, j, k])
                  + OctaveCell(rand, xOff, yOff, zOff, interval, layer, currentInterval, i, j, k)
    {
      // Nodes and cells are matched by `ProcessPointIsOctaveCell`.
      hide *;
      HalveWidth(interval, cutoff, currentInterval);
      var ci := currentInterval;
      // `size / ci` is a C# division; for `size = -1` it differs from
      // Dafny's, but both give 3 nodes once the maximum is taken.
      var n := Max(size / ci + 2, 3);
      var nodes := new Vec3D[n, n, n]((i, j, k) => Vec3D(0.0, 0.0, 0.0));
      for i := 0 to n
        modifies nodes
        invariant forall i', j', k' :: 0 <= i' < n && 0 <= j' < n && 0 <= k' < n && i' < i ==>
                    nodes[i', j', k'] == LatticeNode(rand, xOff, yOff, zOff, ci, layer, i', j', k')
      {
        for j := 0 to n
          modifies nodes
          invariant forall i', j', k' :: 0 <= i' < n && 0 <= j' < n && 0 <= k' < n && (i' < i || (i' == i && j' < j)) ==>
                      nodes[i', j', k'] == LatticeNode(rand, xOff, yOff, zOff, ci, layer, i', j', k')
        {
          for k := 0 to n
            modifies nodes
            invariant forall i', j', k' ::
                        (0 <= i' < n && 0 <= j' < n && 0 <= k' < n && (i' < i || (i' == i && (j' < j || (j' == j && k' < k))))) ==>
                        nodes[i', j', k'] == LatticeNode(rand, xOff, yOff, zOff, ci, layer, i', j', k')
          {
            nodes[i, j, k] := LatticeNode(rand, xOff, yOff, zOff, ci, layer, i, j, k);
          }
        }
      }
      for i := 0 to size + 1
        modifies field
        invariant forall i', j', k' :: 0 <= i' <= size && 0 <= j' <= size && 0 <= k' <= size ==>
                    field[i', j', k'] == if i' < i then old(field[i', j', k']) + OctaveCell(rand, xOff, yOff, zOff, interval, layer, ci, i', j', k')
                                         else old(field[i', j', k'])
      {
        for j := 0 to size + 1
          modifies field
          invariant forall i', j', k' :: 0 <= i' <= size && 0 <= j' <= size && 0 <= k' <= size ==>
                      field[i', j', k'] == if i' < i || (i' == i && j' < j)
                                           then old(field[i', j', k']) + OctaveCell(rand, xOff, yOff, zOff, interval, layer, ci, i', j', k')
                                           else old(field[i', j', k'])
        {
          for k := 0 to size + 1
            modifies field
            invariant forall i', j', k' :: 0 <= i' <= size && 0 <= j' <= size && 0 <= k' <= size ==>
                        field[i', j', k'] == if i' < i || (i' == i && (j' < j || (j' == j && k' < k)))
                                             then old(field[i', j', k']) + OctaveCell(rand, xOff, yOff, zOff, interval, layer, ci, i', j', k')
                                             else old(field[i', j', k'])
          {
            LatticeCoversClosed(size, ci, i);
            LatticeCoversClosed(size, ci, j);
            LatticeCoversClosed(size, ci, k);
            ProcessPointIsOctaveCell(rand, nodes, i, j, k);
            field[i, j, k] := field[i, j, k] + ProcessPoint(nodes, i, j, k);
          }
        }
      }
    }

    /**
     * `ProcessPoint(nodes, x, y, z)`: the current octave's value at a sample,
     * from the eight nodes around its cell.
     */
    function ProcessPoint(nodes: array3<Vec3D>, x: nat, y: nat, z: nat): real
      reads this, nodes
      requires currentInterval > 0 && interval != 0
      requires x / currentInterval + 1 < nodes.Length0 && y / currentInterval + 1 < nodes.Length1
      requires z / currentInterval + 1 < nodes.Length2
    {
      var ci := currentInterval;
      var px, py, pz := x / ci, y / ci, z / ci;
      assert 0 <= px && 0 <= py && 0 <= pz by {
        DivMonotone(0, x, ci);
        DivMonotone(0, y, ci);
        DivMonotone(0, z, ci);
      }
      CellValue3([nodes[px, py, pz], nodes[px + 1, py, pz], nodes[px + 1, py + 1, pz], nodes[px, py + 1, pz],
                  nodes[px, py, pz + 1], nodes[px + 1, py, pz + 1], nodes[px + 1, py + 1, pz + 1], nodes[px, py + 1, pz + 1]],
                 x, y, z, ci, interval)
    }

    /** A lattice filled by `ProcessLayer` gives `ProcessPoint` the octave's cell value. */
    lemma ProcessPointIsOctaveCell(rand: SpatialHash, nodes: array3<Vec3D>, x: nat, y: nat, z: nat)
      requires 0 < currentInterval && interval != 0
      requires x / currentInterval + 1 < nodes.Length0 && y / currentInterval + 1 < nodes.Length1
      requires z / currentInterval + 1 < nodes.Length2
      requires forall i, j, k :: 0 <= i < nodes.Length0 && 0 <= j < nodes.Length1 && 0 <= k < nodes.Length2 ==>
                 nodes[i, j, k] == LatticeNode(rand, xOff, yOff, zOff, currentInterval, layer, i, j, k)
      ensures ProcessPoint(nodes, x, y, z) == OctaveCell(rand, xOff, yOff, zOff, interval, layer, currentInterval, x, y, z)
    {
      // The two sides agree node by node; the cell value itself plays no part.
      hide CellValue3, LatticeNode;
      var ci := currentInterval;
      var px, py, pz := x / ci, y / ci, z / ci;
      DivMonotone(0, x, ci);
      DivMonotone(0, y, ci);
      DivMonotone(0, z, ci);
      assert [nodes[px, py, pz], nodes[px + 1, py, pz], nodes[px + 1, py + 1, pz], nodes[px, py + 1, pz],
              nodes[px, py, pz + 1], nodes[px + 1, py, pz + 1], nodes[px + 1, py + 1, pz + 1], nodes[px, py + 1, pz + 1]]
             == CellNodes(rand, xOff, yOff, zOff, ci, layer, px, py, pz);
    }

    /** The first sample of every cube is 0. */
    lemma OriginIsZero(rand: SpatialHash, x: Int32, y: Int32, z: Int32)
      requires Valid()
      ensures Sample(rand, x, y, z, 0, 0, 0) == 0.0
    {
      OctavesAtOrigin(rand, Wrap32(x * size), Wrap32(y * size), Wrap32(z * size), interval, cutoff, layer, interval);
    }

    /** With `interval <= cutoff` no octave runs and every sample is 0. */
    lemma NoOctavesGiveZero(rand: SpatialHash, x: Int32, y: Int32, z: Int32, i: nat, j: nat, k: nat)
      requires Valid() && interval <= cutoff
      ensures Sample(rand, x, y, z, i, j, k) == 0.0
    {
      OctavesStep(rand, Wrap32(x * size), Wrap32(y * size), Wrap32(z * size), interval, cutoff, layer, interval);
    }

    /** The eight samples around `(px, py, pz)`, in `Trilinear` order. */
    function CornerSamples(px: int, py: int, pz: int): (c: seq<real>)
      reads this, field
      requires 0 <= px && px + 1 < field.Length0 && 0 <= py && py + 1 < field.Length1
      requires 0 <= pz && pz + 1 < field.Length2
      ensures |c| == 8 && c[0] == field[px, py, pz]
    {
      [field[px, py, pz], field[px, py, pz + 1], field[px + 1, py, pz], field[px + 1, py, pz + 1],
       field[px + 1, py + 1, pz], field[px + 1, py + 1, pz + 1], field[px, py + 1, pz], field[px, py + 1, pz + 1]]
    }

    /** Whether `GetValue(x, y, z)` reads only cells of the field (it checks nothing itself). */
    predicate InRange(x: Int32, y: Int32, z: Int32)
      reads this, field
    {
      scalex != 0 && scaley != 0 && scalez != 0
      && 0 <= TruncDiv(x, scalex) && TruncDiv(x, scalex) + 1 < field.Length0
      && 0 <= TruncDiv(y, scaley) && TruncDiv(y, scaley) + 1 < field.Length1
      && 0 <= TruncDiv(z, scalez) && TruncDiv(z, scalez) + 1 < field.Length2
    }

    /**
     * `GetValue(x, y, z)` as the generator computes it: the cell of the
     * scaled-down coordinates, interpolated with the weights
     * `AsWrittenWeight`, which range over `[0, scale]`.
     */
    function GetValue(x: Int32, y: Int32, z: Int32): real
      reads this, field
      requires InRange(x, y, z)
    {
      Trilinear(CornerSamples(TruncDiv(x, scalex), TruncDiv(y, scaley), TruncDiv(z, scalez)),
                AsWrittenWeight(x, scalex), AsWrittenWeight(y, scaley), AsWrittenWeight(z, scalez))
    }

    /**
     * The interpolation `GetValue` evidently intends: the same cell, with
     * the fade of each offset as a fraction of its step as the weight.
     */
    function GetValueSmooth(x: Int32, y: Int32, z: Int32): real
      reads this, field
      requires InRange(x, y, z)
    {
      Trilinear(CornerSamples(TruncDiv(x, scalex), TruncDiv(y, scaley), TruncDiv(z, scalez)),
                FadedWeight(x, scalex), FadedWeight(y, scaley), FadedWeight(z, scalez))
    }

    /** At a multiple of the coordinate scale, both read back the stored sample. */
    lemma GetValueAtGridPoint(a: nat, b: nat, c: nat)
      requires 0 < scalex && 0 < scaley && 0 < scalez
      requires a * scalex < TWO_31 && b * scaley < TWO_31 && c * scalez < TWO_31
      requires a + 1 < field.Length0 && b + 1 < field.Length1 && c + 1 < field.Length2
      ensures InRange(a * scalex, b * scaley, c * scalez)
      ensures GetValue(a * scalex, b * scaley, c * scalez) == field[a, b, c]
      ensures GetValueSmooth(a * scalex, b * scaley, c * scalez) == field[a, b, c]
    {
      ExactTruncDiv(a, scalex);
      ExactTruncDiv(b, scaley);
      ExactTruncDiv(c, scalez);
      WeightsAtMultiple(a, scalex);
      WeightsAtMultiple(b, scaley);
      WeightsAtMultiple(c, scalez);
      TrilinearAtCorner(CornerSamples(a, b, c));
    }

    /**
     * The as-written weights leave the samples' range: with scale 4 on x,
     * samples 0 at `(0, 0, 0)` and 1 at `(1, 0, 0)`, the point `(2, 0, 0)`
     * half-way between them reads 2.
     */
    lemma GetValueOvershoots()
      requires scalex == 4 && scaley != 0 && scalez != 0
      requires 2 <= field.Length0 && 2 <= field.Length1 && 2 <= field.Length2
      requires field[0, 0, 0] == 0.0 && field[1, 0, 0] == 1.0
      ensures InRange(2, 0, 0)
      ensures GetValue(2, 0, 0) == 2.0
      ensures GetValueSmooth(2, 0, 0) == 0.5
    {
      TruncAgreesOnNatural(2, 4);
      AsWrittenWeightAtHalfStep();
      assert AsWrittenWeight(0, scaley) == 0.0 && AsWrittenWeight(0, scalez) == 0.0;
      assert FadedWeight(0, scaley) == 0.0 && FadedWeight(0, scalez) == 0.0;
    }

    /**
     * The smooth read stays within the range of the eight samples around
     * the point, for non-negative coordinates and positive scales.
     */
    lemma GetValueSmoothBetween(x: Int32, y: Int32, z: Int32, lo: real, hi: real)
      requires InRange(x, y, z) && 0 <= x && 0 <= y && 0 <= z && 0 < scalex && 0 < scaley && 0 < scalez
      requires forall v :: v in CornerSamples(TruncDiv(x, scalex), TruncDiv(y, scaley), TruncDiv(z, scalez)) ==> lo <= v <= hi
      ensures lo <= GetValueSmooth(x, y, z) <= hi
    {
      var c := CornerSamples(TruncDiv(x, scalex), TruncDiv(y, scaley), TruncDiv(z, scalez));
      assert forall i :: 0 <= i < 8 ==> c[i] in c;
      TrilinearBetween(c, FadedWeight(x, scalex), FadedWeight(y, scaley), FadedWeight(z, scalez), lo, hi);
    }
  }
}

=== FILE: kfmath.dfy ===
/**
 * The static helpers of `KFMath`: a sign-masking modulus, an asymptotic
 * squashing curve, and the conversion of a user-typed string into an
 * integer seed (trim, parse, and fall back to the string's hash code).
 *
 * `string.GetHashCode` is not modelled: every seed function takes it as
 * a parameter `hash`.
 */
module KFMath {
  import opened CSharpInt
  import opened Bits

  /*---------------------------------------------------------------------*
   *  ModRight                                                           *
   *---------------------------------------------------------------------*/

  /**
   * `ModRight(a, b)`: `(a & 0x7fffffff) % b`. The sign bit of `a` is cleared
   * first, so a negative `a` is shifted up by 2^31 before the remainder.
   */
  function ModRight(a: Int32, b: Int32): (r: Int32)
    requires b != 0
    ensures 0 <= r < Abs(b)
    ensures a >= 0 ==> r == TruncRem(a, b)
    ensures a < 0 ==> r == TruncRem(a + TWO_31, b)
  {
    var masked := if a >= 0 then a else a + TWO_31;
    TruncRem(masked, b)
  }

  /** The remainder on the floor: the value in `[0, b)` congruent to `a`. */
  function FloorMod(a: Int32, b: Int32): (r: Int32)
    requires b > 0
    ensures 0 <= r < b
    ensures a == (a / b) * b + r
  {
    a % b
  }

  /** For a non-negative dividend the two agree. */
  lemma ModRightOnNatural(a: Int32, b: Int32)
    requires a >= 0 && b > 0
    ensures ModRight(a, b) == FloorMod(a, b)
  {
    TruncAgreesOnNatural(a, b);
  }

  /**
   * For a negative dividend they differ whenever 2^31 is not a multiple of
   * `b`: `ModRight(-1, 3)` is 1 while -1 lies 2 above a multiple of 3.
   */
  lemma ModRightIsNotFloorMod()
    ensures ModRight(-1, 3) == 1
    ensures FloorMod(-1, 3) == 2
  {
    assert TruncDiv(0x7fff_ffff, 3) == 0x2aaa_aaaa;
  }

  /*---------------------------------------------------------------------*
   *  Asymptote                                                          *
   *---------------------------------------------------------------------*/

  /** The divisions of `Asymptote` are defined: `rate` and `output + 1` are not 0. */
  predicate AsymptoteDefined(n: real, start: real, rate: real)
  {
    n <= start || rate > 0.0 || (rate < 0.0 && (n - start) / rate != -1.0)
  }

  /**
   * `Asymptote(n, start, rate)`: below `start` the input passes through;
   * above it, `o = (n - start) / rate` is squashed to `1 - 1/(o + 1)` and
   * scaled back, so the curve approaches `start + rate`.
   */
  function Asymptote(n: real, start: real, rate: real): (r: real)
    requires AsymptoteDefined(n, start, rate)
    ensures n <= start ==> r == n
    ensures n > start && rate > 0.0 ==> start < r < start + rate && r < n
  {
    if n > start then
      var o := (n - start) / rate;
      var o2 := 1.0 - 1.0 / (o + 1.0);
      if rate > 0.0 then
        AsymptoteCurve(o, rate);
        o2 * rate + start
      else
        o2 * rate + start
    else
      n
  }

  /** For `o > 0`, `1 - 1/(o + 1)` lies in `(0, 1)` and scales below `o * rate`. */
  lemma AsymptoteCurve(o: real, rate: real)
    requires o > 0.0 && rate > 0.0
    ensures 0.0 < 1.0 - 1.0 / (o + 1.0) < 1.0
    ensures (1.0 - 1.0 / (o + 1.0)) * rate < o * rate
  {
    var s := 1.0 - 1.0 / (o + 1.0);
    assert s == o / (o + 1.0);
    assert o / (o + 1.0) < o by {
      assert o < o * (o + 1.0);
    }
  }

  /** For a positive rate the curve is strictly increasing over the whole line. */
  lemma AsymptoteMonotone(n1: real, n2: real, start: real, rate: real)
    requires rate > 0.0 && n1 < n2
    ensures Asymptote(n1, start, rate) < Asymptote(n2, start, rate)
  {
    if n1 <= start {
      assert Asymptote(n1, start, rate) == n1;
    } else {
      var o1 := (n1 - start) / rate;
      var o2 := (n2 - start) / rate;
      DivideIncreasing(n1 - start, n2 - start, rate);
      ReciprocalDecreases(o1 + 1.0, o2 + 1.0);
      MultiplyIncreasing(1.0 - 1.0 / (o1 + 1.0), 1.0 - 1.0 / (o2 + 1.0), rate);
    }
  }

  lemma DivideIncreasing(x: real, y: real, d: real)
    requires 0.0 < x < y && d > 0.0
    ensures 0.0 < x / d < y / d
  {
    assert x / d * d == x && y / d * d == y;
  }

  lemma MultiplyIncreasing(x: real, y: real, m: real)
    requires x < y && m > 0.0
    ensures x * m < y * m
  {
  }

  lemma ReciprocalDecreases(x: real, y: real)
    requires 0.0 < x < y
    ensures 1.0 / y < 1.0 / x
  {
    assert 1.0 / y * y == 1.0 == 1.0 / x * x;
  }

  /*---------------------------------------------------------------------*
   *  Trim                                                               *
   *---------------------------------------------------------------------*/

  /** `char.IsWhiteSpace`: the Unicode space separators, line and paragraph separators and controls 9-13, 133. */
  predicate IsWhiteSpace(c: char)
  {
    c == ' ' || ('\t' <= c <= '\r') || c == '\U{85}' || c == '\U{A0}' || c == '\U{1680}'
    || ('\U{2000}' <= c <= '\U{200A}') || c == '\U{2028}' || c == '\U{2029}'
    || c == '\U{202F}' || c == '\U{205F}' || c == '\U{3000}'
  }

  predicate AllWhiteSpace(s: seq<char>)
  {
    forall i :: 0 <= i < |s| ==> IsWhiteSpace(s[i])
  }

  /** The number of white-space characters `s` starts with. */
  function LeadingWhiteSpace(s: seq<char>): (k: nat)
    ensures k <= |s| && AllWhiteSpace(s[..k])
    ensures k == |s| || !IsWhiteSpace(s[k])
  {
    // Only the classification of each character matters, not which ones are white space.
    hide IsWhiteSpace;
    if |s| > 0 && IsWhiteSpace(s[0]) then
      var k := LeadingWhiteSpace(s[1..]);
      assert forall i :: 0 < i <= k ==> s[i] == s[1..][..k][i - 1];
      k + 1
    else
      0
  }

  /** The number of white-space characters `s` ends with. */
  function TrailingWhiteSpace(s: seq<char>): (k: nat)
    ensures k <= |s| && AllWhiteSpace(s[|s| - k..])
    ensures k == |s| || !IsWhiteSpace(s[|s| - k - 1])
  {
    hide IsWhiteSpace;
    if |s| > 0 && IsWhiteSpace(s[|s| - 1]) then
      var k := TrailingWhiteSpace(s[..|s| - 1]);
      assert forall i :: |s| - 1 - k <= i < |s| - 1 ==> s[i] == s[..|s| - 1][|s| - 1 - k..][i - (|s| - 1 - k)];
      k + 1
    else
      0
  }

  /** Drops leading white space: a suffix of `s` that does not start with white space. */
  function TrimStart(s: seq<char>): (r: seq<char>)
    ensures |r| <= |s| && r == s[|s| - |r|..]
    ensures AllWhiteSpace(s[..|s| - |r|])
    ensures r == [] || !IsWhiteSpace(r[0])
  {
    s[LeadingWhiteSpace(s)..]
  }

  /** Drops trailing white space: a prefix of `s` that does not end with white space. */
  function TrimEnd(s: seq<char>): (r: seq<char>)
    ensures |r| <= |s| && r == s[..|r|]
    ensures AllWhiteSpace(s[|r|..])
    ensures r == [] || !IsWhiteSpace(r[|r| - 1])
  {
    s[..|s| - TrailingWhiteSpace(s)]
  }

  /**
   * `string.Trim()`: the slice of `s` left after removing white space from
   * both ends; what is removed is white space and what is left neither
   * starts nor ends with it.
   */
  function Trim(s: seq<char>): (r: seq<char>)
    ensures |r| <= |s|
    ensures r == [] || (!IsWhiteSpace(r[0]) && !IsWhiteSpace(r[|r| - 1]))
    ensures exists i :: PaddedSlice(s, r, i)
    ensures AllWhiteSpace(s) ==> r == []
  {
    hide IsWhiteSpace, AllWhiteSpace, TrimStart, TrimEnd, PaddedSlice;
    TrimBothEnds(s);
    var r := TrimEnd(TrimStart(s));
    assert PaddedSlice(s, r, |s| - |TrimStart(s)|);
    r
  }

  /** `r` is `s[i..i + |r|]` and everything of `s` around it is white space. */
  predicate PaddedSlice(s: seq<char>, r: seq<char>, i: int)
  {
    0 <= i <= |s| - |r| && r == s[i..i + |r|]
    && AllWhiteSpace(s[..i]) && AllWhiteSpace(s[i + |r|..])
  }

  /** Trimming the start, then the end, keeps a padded slice whose ends are not white space. */
  lemma TrimBothEnds(s: seq<char>)
    ensures var r := TrimEnd(TrimStart(s));
            PaddedSlice(s, r, |s| - |TrimStart(s)|)
            && (r == [] || (!IsWhiteSpace(r[0]) && !IsWhiteSpace(r[|r| - 1])))
            && (AllWhiteSpace(s) ==> r == [])
  {
    hide IsWhiteSpace;
    var t := TrimStart(s);
    var r := TrimEnd(t);
    var i := |s| - |t|;
    if r != [] {
      assert r[0] == s[i];
    }
    hide AllWhiteSpace, TrimStart, TrimEnd;
    assert t[|r|..] == s[i + |r|..];
    assert r == s[i..i + |r|];
  }

  /** Any string whose ends are not white space is left as it is by the trims. */
  lemma TrimKeepsTrimmed(t: seq<char>)
    requires t == [] || (!IsWhiteSpace(t[0]) && !IsWhiteSpace(t[|t| - 1]))
    ensures Trim(t) == t
  {
  }

  /** Trimming twice is trimming once. */
  lemma TrimIdempotent(s: seq<char>)
    ensures Trim(Trim(s)) == Trim(s)
  {
    hide IsWhiteSpace;
    TrimKeepsTrimmed(Trim(s));
  }

  /** White-space padding on both sides of a trimmed string is removed exactly. */
  lemma {:induction false} TrimRemovesPadding(p: seq<char>, t: seq<char>, q: seq<char>)
    requires AllWhiteSpace(p) && AllWhiteSpace(q)
    requires t != [] && !IsWhiteSpace(t[0]) && !IsWhiteSpace(t[|t| - 1])
    ensures Trim(p + t + q) == t
  {
    hide IsWhiteSpace;
    TrimStartPadding(p, t + q);
    assert p + t + q == p + (t + q);
    TrimEndPadding(t, q);
  }

  lemma TrimStartPadding(p: seq<char>, u: seq<char>)
    requires AllWhiteSpace(p)
    requires u != [] && !IsWhiteSpace(u[0])
    ensures TrimStart(p + u) == u
  {
    LeadingPadding(p, u);
    assert (p + u)[|p|..] == u;
  }

  lemma {:induction false} LeadingPadding(p: seq<char>, u: seq<char>)
    requires AllWhiteSpace(p)
    requires u != [] && !IsWhiteSpace(u[0])
    ensures LeadingWhiteSpace(p + u) == |p|
  {
    hide IsWhiteSpace;
    if p != [] {
      assert (p + u)[1..] == p[1..] + u;
      assert (p + u)[0] == p[0];
      LeadingPadding(p[1..], u);
    } else {
      assert p + u == u;
    }
  }

  lemma TrimEndPadding(u: seq<char>, q: seq<char>)
    requires AllWhiteSpace(q)
    requires u != [] && !IsWhiteSpace(u[|u| - 1])
    ensures TrimEnd(u + q) == u
  {
    TrailingPadding(u, q);
    assert (u + q)[..|u|] == u;
  }

  lemma {:induction false} TrailingPadding(u: seq<char>, q: seq<char>)
    requires AllWhiteSpace(q)
    requires u != [] && !IsWhiteSpace(u[|u| - 1])
    ensures TrailingWhiteSpace(u + q) == |q|
  {
    hide IsWhiteSpace;
    if q != [] {
      assert (u + q)[..|u + q| - 1] == u + q[..|q| - 1];
      assert (u + q)[|u + q| - 1] == q[|q| - 1];
      TrailingPadding(u, q[..|q| - 1]);
    } else {
      assert u + q == u;
    }
  }

  /*---------------------------------------------------------------------*
   *  Integer parsing                                                    *
   *---------------------------------------------------------------------*/

  /** Outcome of `long.Parse`, `ulong.Parse` or `int.Parse`. */
  datatype ParseOutcome = Parsed(value: int) | FormatError | OverflowError

  predicate IsDigit(c: char)
  {
    '0' <= c <= '9'
  }

  predicate AllDigits(s: seq<char>)
  {
    forall i :: 0 <= i < |s| ==> IsDigit(s[i])
  }

  /** The value of a string of decimal digits, most significant first. */
  function DigitsValue(s: seq<char>): nat
    requires AllDigits(s)
  {
    if s == [] then 0 else DigitsValue(s[..|s| - 1]) * 10 + (s[|s| - 1] as int - '0' as int)
  }

  /** The digits after an optional leading `+` or `-`. */
  function Magnitude(s: seq<char>): seq<char>
  {
    if |s| > 0 && (s[0] == '-' || s[0] == '+') then s[1..] else s
  }

  /** A numeral the parser accepts: an optional sign followed by one or more digits. */
  predicate IsNumeral(s: seq<char>)
  {
    Magnitude(s) != [] && AllDigits(Magnitude(s))
  }

  /** The value a numeral denotes: the value of its digits, negated after a leading `-`. */
  function NumeralValue(s: seq<char>): int
    requires IsNumeral(s)
  {
    if s[0] == '-' then -(DigitsValue(Magnitude(s)) as int) else DigitsValue(Magnitude(s))
  }

  /** A leading zero digit does not change the value of a string of digits. */
  lemma {:induction false} LeadingZeroValue(d: seq<char>)
    requires AllDigits(d)
    ensures AllDigits(['0'] + d) && DigitsValue(['0'] + d) == DigitsValue(d)
    decreases |d|
  {
    var z := ['0'] + d;
    if d != [] {
      var init := d[..|d| - 1];
      assert z[..|z| - 1] == ['0'] + init;
      LeadingZeroValue(init);
    }
  }

  /**
   * Leading zeros are ignored: after any sign, `"0" + d` parses exactly as
   * `d` does, whether it is a numeral, too large or malformed.
   */
  lemma ParseLeadingZero(sign: seq<char>, d: seq<char>, lo: int, hi: int)
    requires sign == [] || sign == ['+'] || sign == ['-']
    requires d != [] && d[0] != '+' && d[0] != '-'
    ensures ParseInteger(sign + ['0'] + d, lo, hi) == ParseInteger(sign + d, lo, hi)
  {
    hide ParseInteger;
    var s, t := sign + ['0'] + d, sign + d;
    assert Magnitude(s) == ['0'] + d && Magnitude(t) == d;
    assert (s[0] == '-') == (t[0] == '-');
    assert AllDigits(['0'] + d) <==> AllDigits(d) by {
      assert forall i :: 0 <= i < |d| ==> d[i] == (['0'] + d)[i + 1];
    }
    if AllDigits(d) {
      LeadingZeroValue(d);
    }
  }

  /** A leading `+` is ignored: `"+" + d` parses exactly as `d` does. */
  lemma ParsePlusSign(d: seq<char>, lo: int, hi: int)
    requires d == [] || (d[0] != '+' && d[0] != '-')
    ensures ParseInteger(['+'] + d, lo, hi) == ParseInteger(d, lo, hi)
  {
    assert Magnitude(['+'] + d) == d;
  }

  /** `-` in front of an all-zero numeral is ignored: `"-00"` parses as `"00"`, that is as 0. */
  lemma ParseNegativeZero(d: seq<char>, lo: int, hi: int)
    requires d != [] && AllDigits(d) && DigitsValue(d) == 0
    ensures ParseInteger(['-'] + d, lo, hi) == ParseInteger(d, lo, hi)
    ensures lo <= 0 <= hi ==> ParseInteger(d, lo, hi) == Parsed(0)
  {
    assert Magnitude(['-'] + d) == d;
    assert d[0] != '-' && d[0] != '+' by { assert IsDigit(d[0]); }
  }

  /**
   * Integer parsing in the default style (an optional sign, then decimal
   * digits) into the range `[lo, hi]` of the target type: a malformed
   * string is a format error, an out-of-range value an overflow.
   */
  function ParseInteger(s: seq<char>, lo: int, hi: int): (r: ParseOutcome)
    ensures r == FormatError <==> !IsNumeral(s)
    ensures r.Parsed? ==> lo <= r.value <= hi
    ensures r == OverflowError ==> IsNumeral(s)
    ensures IsNumeral(s) ==> (r == Parsed(NumeralValue(s)) <==> lo <= NumeralValue(s) <= hi)
    ensures IsNumeral(s) ==> (r == OverflowError <==> !(lo <= NumeralValue(s) <= hi))
  {
    var m := Magnitude(s);
    if m == [] || !AllDigits(m) then
      FormatError
    else
      var v: int := if |s| > 0 && s[0] == '-' then -(DigitsValue(m) as int) else DigitsValue(m);
      if lo <= v <= hi then Parsed(v) else OverflowError
  }

  /** The decimal digits of `n`, most significant first, with no leading zero. */
  function Digits(n: nat): (s: seq<char>)
    ensures s != [] && AllDigits(s)
    ensures DigitsValue(s) == n
    decreases n
  {
    var d := ['0' + (n % 10) as char];
    if n < 10 then
      d
    else
      var s := Digits(n / 10) + d;
      assert s[..|s| - 1] == Digits(n / 10);
      s
  }

  /** The decimal rendering of an integer, with a leading `-` when negative. */
  function Decimal(v: int): (s: seq<char>)
  {
    if v < 0 then ['-'] + Digits(-v) else Digits(v)
  }

  /** Parsing the decimal rendering of an in-range value gives the value back. */
  lemma ParseDecimal(v: int, lo: int, hi: int)
    requires lo <= v <= hi
    ensures ParseInteger(Decimal(v), lo, hi) == Parsed(v)
  {
    var s := Decimal(v);
    if v < 0 {
      assert Magnitude(s) == Digits(-v);
    } else {
      assert Magnitude(s) == Digits(v);
    }
  }

  const MIN_LONG: int := -0x8000_0000_0000_0000
  const MAX_LONG: int := 0x7fff_ffff_ffff_ffff
  const MAX_ULONG: int := 0xffff_ffff_ffff_ffff
  const MIN_INT: int := -0x8000_0000
  const MAX_INT: int := 0x7fff_ffff

  /*---------------------------------------------------------------------*
   *  Bitwise OR of the two 32-bit halves                                *
   *---------------------------------------------------------------------*/

  lemma {:induction false} Pow2Add(a: nat, b: nat)
    ensures Pow2(a + b) == Pow2(a) * Pow2(b)
  {
    if a > 0 {
      Pow2Add(a - 1, b);
    }
  }

  lemma Pow2Of32()
    ensures Pow2(32) == TWO_32
  {
    assert Pow2(2) == 4;
    Pow2Add(2, 2);
    Pow2Add(4, 4);
    Pow2Add(8, 8);
    Pow2Add(16, 16);
  }

  /** `a | b` on the low `k` bits: bit by bit, the lowest first. */
  function BitOr(a: nat, b: nat, k: nat): (r: nat)
    ensures r < Pow2(k)
  {
    if k == 0 then 0
    else 2 * BitOr(a / 2, b / 2, k - 1) + (if a % 2 == 1 || b % 2 == 1 then 1 else 0)
  }

  /** OR with zero keeps a `k`-bit value. */
  lemma {:induction false} BitOrZero(a: nat, k: nat)
    requires a < Pow2(k)
    ensures BitOr(a, 0, k) == a && BitOr(0, a, k) == a
  {
    if k > 0 {
      BitOrZero(a / 2, k - 1);
    }
  }

  /** OR with all ones gives all ones. */
  lemma {:induction false} BitOrOnes(a: nat, k: nat)
    ensures BitOr(Pow2(k) - 1, a, k) == Pow2(k) - 1
  {
    if k > 0 {
      BitOrOnes(a / 2, k - 1);
      assert (Pow2(k) - 1) / 2 == Pow2(k - 1) - 1;
    }
  }

  /*---------------------------------------------------------------------*
   *  Seeds                                                              *
   *---------------------------------------------------------------------*/

  /** What a seed function yields: a seed, or the `OverflowException` it lets escape. */
  datatype SeedOutcome = Seed(value: int) | OverflowEscapes

  /**
   * The `long` hash fallback: `output = hash; output |= output << 32`.
   * `(long)hash` sign-extends, so its high half is all ones for a negative
   * hash; shifting left by 32 moves the low half up and leaves zeros below.
   */
  function LongFallback(hash: Int32): (r: Int64)
  {
    var lo := hash % TWO_32;
    var hi := if hash < 0 then TWO_32 - 1 else 0;
    Pow2Of32();
    var newLo := BitOr(lo, 0, 32);
    var newHi := BitOr(hi, lo, 32);
    Signed64(newHi * TWO_32 + newLo)
  }

  /** The `long` fallback puts the hash in both halves when it is non-negative and is the hash itself otherwise. */
  lemma LongFallbackHalves(hash: Int32)
    ensures hash >= 0 ==> LongFallback(hash) == hash * TWO_32 + hash
    ensures hash < 0 ==> LongFallback(hash) == hash
  {
    if hash < 0 {
      LongFallbackNegative(hash);
    } else {
      LongFallbackNonNegative(hash);
    }
  }

  lemma LongFallbackNegative(hash: Int32)
    requires hash < 0
    ensures LongFallback(hash) == hash
  {
    Pow2Of32();
    var lo := hash % TWO_32;
    assert lo == hash + TWO_32;
    BitOrZero(lo, 32);
    BitOrOnes(lo, 32);
    var w := (TWO_32 - 1) * TWO_32 + lo;
    assert w == TWO_64 + hash;
    assert LongFallback(hash) == Signed64(w);
  }

  lemma LongFallbackNonNegative(hash: Int32)
    requires hash >= 0
    ensures LongFallback(hash) == hash * TWO_32 + hash
  {
    Pow2Of32();
    var lo := hash % TWO_32;
    assert lo == hash;
    BitOrZero(lo, 32);
    var w := hash * TWO_32 + hash;
    assert w < TWO_63;
    assert LongFallback(hash) == Signed64(w);
  }

  /**
   * The `ulong` hash fallback: `output = 0 | (ulong)(uint)hash;
   * output |= output << 32`.
   */
  function ULongFallback(hash: Int32): (r: Word)
  {
    var lo := hash % TWO_32;
    Pow2Of32();
    var newLo := BitOr(lo, 0, 32);
    var newHi := BitOr(0, lo, 32);
    newHi * TWO_32 + newLo
  }

  /** Both 32-bit halves of the `ulong` fallback are `(uint)hash`. */
  lemma ULongFallbackHalves(hash: Int32)
    ensures ULongFallback(hash) / TWO_32 == hash % TWO_32
    ensures ULongFallback(hash) % TWO_32 == hash % TWO_32
  {
    Pow2Of32();
    BitOrZero(hash % TWO_32, 32);
  }

  /** `GetLongSeed`: the trimmed string parsed as a `long`, else its hash spread over both halves. */
  function GetLongSeed(str: seq<char>, hash: seq<char> -> Int32): (r: SeedOutcome)
    ensures r.Seed? ==> MIN_LONG <= r.value <= MAX_LONG
    ensures r == OverflowEscapes <==> ParseInteger(Trim(str), MIN_LONG, MAX_LONG) == OverflowError
    ensures IsNumeral(Trim(str)) && MIN_LONG <= NumeralValue(Trim(str)) <= MAX_LONG ==>
              r == Seed(NumeralValue(Trim(str)))
  {
    var strSeed := Trim(str);
    match ParseInteger(strSeed, MIN_LONG, MAX_LONG)
    case Parsed(v) => Seed(v)
    case FormatError => Seed(LongFallback(hash(strSeed)))
    case OverflowError => OverflowEscapes
  }

  /** `GetULongSeed`: the trimmed string parsed as a `ulong`, else `(uint)` hash in both halves. */
  function GetULongSeed(str: seq<char>, hash: seq<char> -> Int32): (r: SeedOutcome)
    ensures r.Seed? ==> 0 <= r.value <= MAX_ULONG
    ensures r == OverflowEscapes <==> ParseInteger(Trim(str), 0, MAX_ULONG) == OverflowError
    ensures IsNumeral(Trim(str)) && 0 <= NumeralValue(Trim(str)) <= MAX_ULONG ==>
              r == Seed(NumeralValue(Trim(str)))
  {
    var strSeed := Trim(str);
    match ParseInteger(strSeed, 0, MAX_ULONG)
    case Parsed(v) => Seed(v)
    case FormatError => Seed(ULongFallback(hash(strSeed)))
    case OverflowError => OverflowEscapes
  }

  /** `GetIntSeed`: the trimmed string parsed as an `int`, else the hash itself. */
  function GetIntSeed(str: seq<char>, hash: seq<char> -> Int32): (r: SeedOutcome)
    ensures r.Seed? ==> MIN_INT <= r.value <= MAX_INT
    ensures r == OverflowEscapes <==> ParseInteger(Trim(str), MIN_INT, MAX_INT) == OverflowError
    ensures IsNumeral(Trim(str)) && MIN_INT <= NumeralValue(Trim(str)) <= MAX_INT ==>
              r == Seed(NumeralValue(Trim(str)))
  {
    var strSeed := Trim(str);
    match ParseInteger(strSeed, MIN_INT, MAX_INT)
    case Parsed(v) => Seed(v)
    case FormatError => Seed(hash(strSeed))
    case OverflowError => OverflowEscapes
  }

  /** A decimal numeral with white-space padding yields its own value from every seed function. */
  lemma {:induction false} SeedOfPaddedNumeral(p: seq<char>, v: int, q: seq<char>, hash: seq<char> -> Int32)
    requires AllWhiteSpace(p) && AllWhiteSpace(q)
    ensures MIN_LONG <= v <= MAX_LONG ==> GetLongSeed(p + Decimal(v) + q, hash) == Seed(v)
    ensures 0 <= v <= MAX_ULONG ==> GetULongSeed(p + Decimal(v) + q, hash) == Seed(v)
    ensures MIN_INT <= v <= MAX_INT ==> GetIntSeed(p + Decimal(v) + q, hash) == Seed(v)
  {
    var s := Decimal(v);
    assert s[0] == '-' || IsDigit(s[0]);
    assert IsDigit(s[|s| - 1]);
    TrimRemovesPadding(p, s, q);
    if MIN_LONG <= v <= MAX_LONG {
      ParseDecimal(v, MIN_LONG, MAX_LONG);
    }
    if 0 <= v <= MAX_ULONG {
      ParseDecimal(v, 0, MAX_ULONG);
    }
    if MIN_INT <= v <= MAX_INT {
      ParseDecimal(v, MIN_INT, MAX_INT);
    }
  }

  /** `" 42 "` seeds every width with 42. */
  lemma SeedOfFortyTwo(hash: seq<char> -> Int32)
    ensures GetLongSeed(" 42 ", hash) == Seed(42)
    ensures GetULongSeed(" 42 ", hash) == Seed(42)
    ensures GetIntSeed(" 42 ", hash) == Seed(42)
  {
    assert Decimal(42) == "42";
    assert " 42 " == " " + Decimal(42) + " ";
    SeedOfPaddedNumeral(" ", 42, " ", hash);
  }

  /** A string that is not a numeral once trimmed falls back to its hash in every width. */
  lemma SeedOfNonNumeral(str: seq<char>, hash: seq<char> -> Int32)
    requires !IsNumeral(Trim(str))
    ensures GetLongSeed(str, hash) == Seed(LongFallback(hash(Trim(str))))
    ensures GetULongSeed(str, hash) == Seed(ULongFallback(hash(Trim(str))))
    ensures GetIntSeed(str, hash) == Seed(hash(Trim(str)))
  {
  }

  /**
   * An out-of-range numeral escapes as an overflow instead of reaching the
   * hash fallback; `"-1"`, for one, is no `ulong` seed.
   */
  lemma {:induction false} OverflowEscapesFallback(v: int, hash: seq<char> -> Int32)
    ensures !(MIN_LONG <= v <= MAX_LONG) ==> GetLongSeed(Decimal(v), hash) == OverflowEscapes
    ensures !(0 <= v <= MAX_ULONG) ==> GetULongSeed(Decimal(v), hash) == OverflowEscapes
    ensures !(MIN_INT <= v <= MAX_INT) ==> GetIntSeed(Decimal(v), hash) == OverflowEscapes
    ensures GetULongSeed("-1", hash) == OverflowEscapes
  {
    assert Decimal(-1) == "-1";
    // The seed functions' own contracts carry the argument from here on.
    hide GetLongSeed, GetULongSeed, GetIntSeed, ParseInteger, Trim, Decimal, NumeralValue, IsNumeral;
    if !(MIN_LONG <= v <= MAX_LONG) {
      TrimmedDecimalOverflow(v, MIN_LONG, MAX_LONG);
    }
    if !(0 <= v <= MAX_ULONG) {
      TrimmedDecimalOverflow(v, 0, MAX_ULONG);
    }
    if !(MIN_INT <= v <= MAX_INT) {
      TrimmedDecimalOverflow(v, MIN_INT, MAX_INT);
    }
    TrimmedDecimalOverflow(-1, 0, MAX_ULONG);
  }

  /** The trimmed decimal rendering of an out-of-range value overflows. */
  lemma TrimmedDecimalOverflow(v: int, lo: int, hi: int)
    requires !(lo <= v <= hi)
    ensures ParseInteger(Trim(Decimal(v)), lo, hi) == OverflowError
  {
    DecimalTrimmed(v);
    ParseDecimalOverflow(v, lo, hi);
  }

  /** A decimal rendering has no white space to trim. */
  lemma DecimalTrimmed(v: int)
    ensures Trim(Decimal(v)) == Decimal(v)
  {
    var s := Decimal(v);
    assert s[0] == '-' || IsDigit(s[0]);
    assert IsDigit(s[|s| - 1]);
    TrimKeepsTrimmed(s);
  }

  /** Parsing the decimal rendering of an out-of-range value is an overflow. */
  lemma ParseDecimalOverflow(v: int, lo: int, hi: int)
    requires !(lo <= v <= hi)
    ensures ParseInteger(Decimal(v), lo, hi) == OverflowError
  {
    var s := Decimal(v);
    if v < 0 {
      assert Magnitude(s) == Digits(-v);
    } else {
      assert Magnitude(s) == Digits(v);
    }
  }
}

=== FILE: noise_map_2d.dfy ===
/**
 * `NoiseMap2D`: fractal gradient noise over one `size x size` region of a
 * larger map. Region `(regx, regy)` draws its lattice nodes from the hash at
 * coordinates offset by the region number, and octave `k` draws them from
 * channels `startz + 2k` and `startz + 2k + 1`, so a single hash yields
 * several independent maps (one per `startz`). Each octave adds its value
 * times `scale` to the field; there is no final remap.
 *
 * The value of a sample is specified by `Octaves`, a function of the
 * generator's constant parameters; `Process` is proved to leave exactly that
 * value in every cell.
 */
module Noise2D {
  import opened CSharpInt
  import opened SpatialHashing
  import opened Vectors
  import opened NoiseMath

  /** The hash channel of octave `k`: `startz` advanced by 2 per octave (unchecked). */
  function OctaveChannel(startz: Int32, k: nat): Int32
  {
    Wrap32(startz + 2 * k)
  }

  /** Advancing the channel by 2 (as `startz += 2` does) moves to the next octave's channel. */
  lemma OctaveChannelStep(startz: Int32, k: nat)
    ensures Wrap32(OctaveChannel(startz, k) + 2) == OctaveChannel(startz, k + 1)
  {
    Wrap32Add(startz + 2 * k, 2);
  }

  /**
   * No two octaves share a channel: octave `k` reads channels `startz + 2k`
   * and `startz + 2k + 1` (the second through `Vec2D`'s own `pz + 1`), and
   * for `k < k'` neither meets either channel of octave `k'`.
   */
  lemma OctaveChannelsDisjoint(startz: Int32, k: nat, k': nat)
    requires k < k' < TWO_31
    ensures {OctaveChannel(startz, k), Wrap32(OctaveChannel(startz, k) + 1)}
          !! {OctaveChannel(startz, k'), Wrap32(OctaveChannel(startz, k') + 1)}
  {
    hide Wrap32;
    var a, b := startz + 2 * k, startz + 2 * k';
    Wrap32Add(a, 1);
    Wrap32Add(b, 1);
    EvenApartChannels(a, b, k' - k);
  }

  /** Two even-apart channel pairs `(a, a + 1)` and `(b, b + 1)` wrap to four different `int`s. */
  lemma EvenApartChannels(a: int, b: int, h: int)
    requires 0 < h < TWO_31 && b - a == 2 * h
    ensures Wrap32(a) != Wrap32(b) && Wrap32(a + 1) != Wrap32(b + 1)
    ensures Wrap32(a + 1) != Wrap32(b) && Wrap32(a) != Wrap32(b + 1)
  {
    // Only the facts of the lemmas below are needed, not the wrapping itself.
    hide Wrap32;
    Wrap32Distinct(a, b);
    Wrap32Distinct(a + 1, b + 1);
    Wrap32DistinctParity(a + 1, b, -h);
    Wrap32DistinctParity(b + 1, a, h);
  }

  /** An octave's value times the generator's `scale`. */
  function Scaled(value: real, scale: real): real
  {
    value * scale
  }

  /** Nodes per axis of the lattice of width `ci` over `size` samples. */
  function LatticeSize(size: int, ci: int): int
    requires size >= 0 && ci > 0
  {
    size / ci + 2
  }

  /**
   * Hash coordinate, along one axis and before wrapping, of node `k` of the
   * lattice of width `ci` in region `r`: `r * nodes - 1 + k`.
   */
  function RegionNode(size: int, ci: int, r: int, k: int): int
    requires size >= 0 && ci > 0
  {
    r * LatticeSize(size, ci) - 1 + k
  }

  /**
   * Region lattices are laid end to end on the hash grid: node 0 of region
   * `r + 1` sits one step past the last node of region `r`, so neighbouring
   * regions share no node.
   */
  lemma RegionLatticesAdjacent(size: int, ci: int, r: int)
    requires size >= 0 && ci > 0
    ensures var n := LatticeSize(size, ci);
            Wrap32(Wrap32(RegionNode(size, ci, r, n - 1)) + 1) == Wrap32(RegionNode(size, ci, r + 1, 0))
  {
    hide Wrap32;
    var n := LatticeSize(size, ci);
    Wrap32Add(RegionNode(size, ci, r, n - 1), 1);
    assert RegionNode(size, ci, r, n - 1) + 1 == RegionNode(size, ci, r + 1, 0);
  }

  /**
   * Regions do not tile seamlessly. Sample `p` of region `r + 1` is the same
   * map position as sample `size + p` of region `r`, continued. Yet its
   * cell's node lies two hash coordinates further along than the node region
   * `r`'s lattice would give that position, because each region's lattice
   * is `size / ci + 2` nodes long and not `size / ci`. After wrapping, the
   * two hash coordinates still differ, so the gradients on the two sides of
   * a seam come from different hash inputs.
   */
  lemma RegionSeamShifted(size: int, ci: int, r: int, p: int)
    requires size >= 0 && ci > 0 && size % ci == 0 && p >= 0
    ensures RegionNode(size, ci, r + 1, p / ci) == RegionNode(size, ci, r, (size + p) / ci) + 2
    ensures Wrap32(RegionNode(size, ci, r + 1, p / ci)) != Wrap32(RegionNode(size, ci, r, (size + p) / ci))
  {
    hide Wrap32;
    ContinuedCell(size, ci, p);
    var n := LatticeSize(size, ci);
    assert (r + 1) * n == r * n + n;
    Wrap32Distinct(RegionNode(size, ci, r + 1, p / ci), RegionNode(size, ci, r, (size + p) / ci));
  }

  /** With `ci` dividing `size`, sample `size + p` lies in cell `size / ci + p / ci`. */
  lemma ContinuedCell(size: int, ci: int, p: int)
    requires size >= 0 && ci > 0 && size % ci == 0 && p >= 0
    ensures (size + p) / ci == size / ci + p / ci
  {
    var q := size / ci;
    assert size == q * ci;
    assert size + p == (q + p / ci) * ci + p % ci;
    DivModUnique(size + p, q + p / ci, p % ci, ci);
  }

  /**
   * Seamless region lattices: region `r` starts its nodes at `r * (size / ci)`
   * (less the one-node border), so consecutive regions overlap by exactly
   * the nodes they share.
   */
  function SeamlessRegionNode(size: int, ci: int, r: int, k: int): int
    requires size >= 0 && ci > 0
  {
    r * (size / ci) - 1 + k
  }

  /**
   * With seamless lattices, sample `p` of region `r + 1` reads the node
   * that region `r`'s lattice, continued, gives sample `size + p`; at
   * `p == 0` that is the node on region `r`'s far edge.
   */
  lemma SeamlessRegionsAlign(size: int, ci: int, r: int, p: int)
    requires size >= 0 && ci > 0 && size % ci == 0 && p >= 0
    ensures SeamlessRegionNode(size, ci, r + 1, p / ci) == SeamlessRegionNode(size, ci, r, (size + p) / ci)
  {
    ContinuedCell(size, ci, p);
    assert (r + 1) * (size / ci) == r * (size / ci) + size / ci;
  }

  class NoiseMap2D {
    const rand: SpatialHash
    const size: Int32
    const interval: Int32
    const cutoff: Int32
    const scale: real
    const regx: Int32
    const regy: Int32
    var currentInterval: Int32
    /** A `double` in the generator; it only ever holds a power of two and is never read. */
    var divisor: int
    var field: array2<real>

    /**
     * What `Process` needs of the parameters to finish without an
     * exception: a field size it can allocate, a lattice size that does not
     * overflow, and no octave of width 0.
     */
    predicate Valid()
    {
      0 <= size <= 0x7fff_fffd && (cutoff >= 0 || interval <= cutoff)
    }

    constructor (random: SpatialHash, size: Int32, interval: Int32, cutoff: Int32, scale: real, regx: Int32, regy: Int32)
      ensures rand == random && this.size == size && this.interval == interval && this.cutoff == cutoff
      ensures this.scale == scale && this.regx == regx && this.regy == regy
    {
      rand := random;
      this.size := size;
      this.interval := interval;
      this.cutoff := cutoff;
      this.scale := scale;
      this.regx := regx;
      this.regy := regy;
      field := new real[0, 0];
    }

    /** The six-argument constructor: the cutoff defaults to 2. */
    constructor WithDefaultCutoff(random: SpatialHash, size: Int32, interval: Int32, scale: real, regx: Int32, regy: Int32)
      ensures rand == random && this.size == size && this.interval == interval && cutoff == 2
      ensures this.scale == scale && this.regx == regx && this.regy == regy
    {
      rand := random;
      this.size := size;
      this.interval := interval;
      this.cutoff := 2;
      this.scale := scale;
      this.regx := regx;
      this.regy := regy;
      field := new real[0, 0];
    }

    /**
     * Node `(i, j)` of the lattice of width `ci` on channel `z`: the
     * three-coordinate `Vec2D` at `(regx * nodesX - 1 + i, regy * nodesY - 1 + j)`
     * (unchecked sums), with `nodesX == nodesY == size / ci + 2`.
     */
    function Node(ci: int, z: Int32, i: int, j: int): Vec2D
      requires size >= 0 && ci > 0
    {
      Vec2DFromHash(rand, Wrap32(RegionNode(size, ci, regx, i)), Wrap32(RegionNode(size, ci, regy, j)), z)
    }

    /** The unscaled contribution of the octave of width `ci` on channel `z` to sample `(x, y)`. */
    function OctaveCell(ci: int, z: Int32, x: nat, y: nat): real
      requires size >= 0 && ci > 0 && interval != 0
    {
      var px, py := x / ci, y / ci;
      CellValue2(Node(ci, z, px, py), Node(ci, z, px + 1, py), Node(ci, z, px + 1, py + 1), Node(ci, z, px, py + 1),
                 x, y, ci, interval)
    }

    /**
     * The sum, at sample `(x, y)`, of `scale` times each octave of width
     * `ci, ci / 2, ...` wider than `cutoff`, the first of them octave `k`.
     */
    function Octaves(startz: Int32, ci: int, k: nat, x: nat, y: nat): real
      requires size >= 0 && OctaveBounds(interval, cutoff, ci, Pow2(k))
      decreases ci
    {
      if ci <= cutoff then 0.0
      else
        NextOctave(interval, cutoff, ci, k);
        Scaled(OctaveCell(ci, OctaveChannel(startz, k), x, y), scale) + Octaves(startz, ci / 2, k + 1, x, y)
    }

    /** The value `Process(startz)` computes for sample `(x, y)`. */
    function Value(startz: Int32, x: nat, y: nat): real
      requires Valid()
    {
      Octaves(startz, interval, 0, x, y)
    }

    /** One step of the octave sum: nothing at or below the cutoff, else this octave plus the finer ones. */
    lemma OctavesStep(startz: Int32, ci: int, k: nat)
      requires size >= 0 && OctaveBounds(interval, cutoff, ci, Pow2(k))
      ensures ci <= cutoff ==> forall x: nat, y: nat :: Octaves(startz, ci, k, x, y) == 0.0
      ensures ci > cutoff ==>
                OctaveBounds(interval, cutoff, ci / 2, Pow2(k + 1)) && ci > 0 && interval != 0 &&
                forall x: nat, y: nat :: Octaves(startz, ci, k, x, y)
                  == Scaled(OctaveCell(ci, OctaveChannel(startz, k), x, y), scale) + Octaves(startz, ci / 2, k + 1, x, y)
    {
      if ci > cutoff {
        NextOctave(interval, cutoff, ci, k);
      }
    }

    /** With `interval <= cutoff` no octave runs and every value is 0. */
    lemma NoOctavesGiveZero(startz: Int32, x: nat, y: nat)
      requires Valid() && interval <= cutoff
      ensures Value(startz, x, y) == 0.0
    {
    }

    /** The region origin is a lattice point of every octave: its value is 0. */
    lemma {:induction false} OctavesAtOrigin(startz: Int32, ci: int, k: nat)
      requires size >= 0 && OctaveBounds(interval, cutoff, ci, Pow2(k))
      ensures Octaves(startz, ci, k, 0, 0) == 0.0
      decreases ci
    {
      // Only the shape of the octave sum matters here, not the nodes.
      hide CellValue2, Node;
      if ci > cutoff {
        NextOctave(interval, cutoff, ci, k);
        var z := OctaveChannel(startz, k);
        var px := 0 / ci;
        CellValue2AtLattice(Node(ci, z, px, px), Node(ci, z, px + 1, px), Node(ci, z, px + 1, px + 1),
                            Node(ci, z, px, px + 1), 0, 0, ci, interval);
        OctavesAtOrigin(startz, ci / 2, k + 1);
      }
    }

    /**
     * `Process(startz)`: a fresh `size x size` field holding, in every
     * cell, the sum of `scale` times each octave; octave `k` uses channels
     * `startz + 2k` and `startz + 2k + 1`.
     */
    method Process(startz: Int32) returns (result: array2<real>)
      requires Valid()
      modifies this
      ensures fresh(result) && result == field
      ensures result.Length0 == size && result.Length1 == size
      ensures currentInterval <= cutoff
      ensures forall i, j :: 0 <= i < size && 0 <= j < size ==> result[i, j] == Value(startz, i, j)
    {
      // Octaves are added as wholes, one `OctavesStep` at a time.
      hide Octaves, OctaveCell, Scaled;
      field := new real[size, size]((i, j) => 0.0);
      currentInterval := interval;
      divisor := 1;
      var z := startz;
      ghost var k: nat := 0;
      while currentInterval > cutoff
        invariant fresh(field) && field.Length0 == size && field.Length1 == size
        invariant OctaveBounds(interval, cutoff, currentInterval, divisor)
        invariant divisor == Pow2(k) && z == OctaveChannel(startz, k)
        invariant forall i, j :: 0 <= i < size && 0 <= j < size ==>
                    field[i, j] + Octaves(startz, currentInterval, k, i, j) == Value(startz, i, j)
        decreases currentInterval
      {
        OctavesStep(startz, currentInterval, k);
        ProcessOne(z);
        divisor := divisor * 2;
        currentInterval := currentInterval / 2;
        OctaveChannelStep(startz, k);
        z := Wrap32(z as int + 2);
        k := k + 1;
      }
      OctavesStep(startz, currentInterval, k);
      result := field;
    }

    /**
     * One octave on channel `z`: fill the `nodesX * nodesY` lattice of the
     * current width, then add `scale` times its contribution to every cell.
     */
    method ProcessOne(z: Int32)
      requires Valid() && currentInterval > cutoff
      requires OctaveBounds(interval, cutoff, currentInterval, divisor)
      requires field.Length0 == size && field.Length1 == size
      modifies field
      ensures forall i, j :: 0 <= i < size && 0 <= j < size ==>
                field[i, j] == old(field[i, j]) + Scaled(OctaveCell(currentInterval, z, i, j), scale)
    {
      // Nodes and cells are matched by `ProcessPointIsOctaveCell`.
      hide *;
      HalveOctave(interval, cutoff, currentInterval, divisor);
      var ci := currentInterval;
      var nodesX := size / ci + 2;
      var nodesY := size / ci + 2;
      var nodes := new Vec2D[nodesX, nodesY]((i, j) => Vec2D(0.0, 0.0));
      for i := 0 to nodesX
        modifies nodes
        invariant forall i', j :: 0 <= i' < i && 0 <= j < nodesY ==> nodes[i', j] == Node(ci, z, i', j)
      {
        for j := 0 to nodesY
          modifies nodes
          invariant forall i', j' :: 0 <= i' < nodesX && 0 <= j' < nodesY && (i' < i || (i' == i && j' < j)) ==>
                      nodes[i', j'] == Node(ci, z, i', j')
        {
          nodes[i, j] := Node(ci, z, i, j);
        }
      }
      for i := 0 to size
        modifies field
        invariant forall i', j :: 0 <= i' < size && 0 <= j < size ==>
                    field[i', j] == if i' < i then old(field[i', j]) + Scaled(OctaveCell(ci, z, i', j), scale)
                                    else old(field[i', j])
      {
        for j := 0 to size
          modifies field
          invariant forall i', j' :: 0 <= i' < size && 0 <= j' < size ==>
                      field[i', j'] == if i' < i || (i' == i && j' < j)
                                       then old(field[i', j']) + Scaled(OctaveCell(ci, z, i', j'), scale)
                                       else old(field[i', j'])
        {
          LatticeCoversOpen(size, ci, i);
          LatticeCoversOpen(size, ci, j);
          ProcessPointIsOctaveCell(nodes, z, i, j);
          field[i, j] := field[i, j] + Scaled(ProcessPoint(nodes, i, j), scale);
        }
      }
    }

    /**
     * `ProcessPoint(nodes, x, y)`: the current octave's unscaled value at a
     * sample, from the four nodes around its cell.
     */
    function ProcessPoint(nodes: array2<Vec2D>, x: nat, y: nat): real
      reads this, nodes
      requires currentInterval > 0 && interval != 0
      requires x / currentInterval + 1 < nodes.Length0 && y / currentInterval + 1 < nodes.Length1
    {
      var ci := currentInterval;
      var px, py := x / ci, y / ci;
      assert 0 <= px && 0 <= py by {
        DivMonotone(0, x, ci);
        DivMonotone(0, y, ci);
      }
      CellValue2(nodes[px, py], nodes[px + 1, py], nodes[px + 1, py + 1], nodes[px, py + 1], x, y, ci, interval)
    }

    /** A lattice filled by `ProcessOne` gives `ProcessPoint` the octave's cell value. */
    lemma ProcessPointIsOctaveCell(nodes: array2<Vec2D>, z: Int32, x: nat, y: nat)
      requires size >= 0 && 0 < currentInterval && interval != 0
      requires x / currentInterval + 1 < nodes.Length0 && y / currentInterval + 1 < nodes.Length1
      requires forall i, j :: 0 <= i < nodes.Length0 && 0 <= j < nodes.Length1 ==>
                 nodes[i, j] == Node(currentInterval, z, i, j)
      ensures ProcessPoint(nodes, x, y) == OctaveCell(currentInterval, z, x, y)
    {
      // The two sides agree node by node; the cell value itself plays no part.
      hide CellValue2, Node;
      var ci := currentInterval;
      var px, py := x / ci, y / ci;
      DivMonotone(0, x, ci);
      DivMonotone(0, y, ci);
      assert nodes[px, py] == Node(ci, z, px, py);
      assert nodes[px + 1, py] == Node(ci, z, px + 1, py);
      assert nodes[px + 1, py + 1] == Node(ci, z, px + 1, py + 1);
      assert nodes[px, py + 1] == Node(ci, z, px, py + 1);
    }
  }
}

=== FILE: noise_math.dfy ===
/**
 * The per-point arithmetic the three gradient-noise generators share: Ken
 * Perlin's quintic fade, its rescaling to a cell of width `ci`, the
 * squared-radial falloff of one gradient's contribution, and the corner
 * sums of a 2-D cell (4 corners) and a 3-D cell (8 corners).
 *
 * Every generator declares its own private copy of these helpers with the
 * same body; they are defined once here. Values are reals: the model makes
 * no claim about float or double rounding.
 */
module NoiseMath {
  import opened CSharpInt
  import opened Vectors

  /** `Fade(t) = t^3 (t (6t - 15) + 10)`, i.e. `6t^5 - 15t^4 + 10t^3`. */
  function Fade(t: real): real
  {
    t * t * t * (t * (t * 6.0 - 15.0) + 10.0)
  }

  /** The fade fixes both ends of the unit interval. */
  lemma FadeEndpoints()
    ensures Fade(0.0) == 0.0 && Fade(1.0) == 1.0
  {
  }

  /** The fade is point-symmetric about `(1/2, 1/2)`. */
  lemma FadeSymmetric(t: real)
    ensures Fade(t) + Fade(1.0 - t) == 1.0
  {
  }

  /** The fade maps `[0, 1]` into `[0, 1]`. */
  lemma FadeInUnit(t: real)
    requires 0.0 <= t <= 1.0
    ensures 0.0 <= Fade(t) <= 1.0
  {
    var q := t * (t * 6.0 - 15.0) + 10.0;
    assert q > 0.0 by {
      assert q == 6.0 * (t - 1.25) * (t - 1.25) + 0.625;
    }
    CubeNonNegative(t);
    MulNonNegative(t * t * t, q);
    var u := 1.0 - t;
    assert 1.0 - Fade(t) == u * u * u * (6.0 * t * t + 3.0 * t + 1.0);
    CubeNonNegative(u);
    MulNonNegative(u * u * u, 6.0 * t * t + 3.0 * t + 1.0);
  }

  lemma CubeNonNegative(t: real)
    requires t >= 0.0
    ensures t * t * t >= 0.0
  {
    MulNonNegative(t, t);
    MulNonNegative(t * t, t);
  }

  lemma MulNonNegative(a: real, b: real)
    requires a >= 0.0 && b >= 0.0
    ensures a * b >= 0.0
  {
  }

  /**
   * `FullFade(val)`: the fade rescaled to a cell of width `ci`,
   * `Fade(val / ci) * ci`. It maps `[0, ci]` onto itself.
   */
  function FullFade(v: real, ci: real): (r: real)
    requires ci != 0.0
    ensures 0.0 <= v <= ci ==> 0.0 <= r <= ci
    ensures v == 0.0 ==> r == 0.0
  {
    if 0.0 <= v <= ci then
      FadeInUnit(v / ci);
      MulBetween(Fade(v / ci), ci);
      Fade(v / ci) * ci
    else
      Fade(v / ci) * ci
  }

  lemma MulBetween(f: real, c: real)
    requires 0.0 <= f <= 1.0 && c > 0.0
    ensures 0.0 <= f * c <= c
  {
  }

  /** The squared length of a 2-D vector. */
  function Norm2(v: Vec2D): (r: real)
    ensures r >= 0.0
  {
    SquareNonNegative(v.x);
    SquareNonNegative(v.y);
    v.x * v.x + v.y * v.y
  }

  /** The squared length of a 3-D vector. */
  function Norm3(v: Vec3D): (r: real)
    ensures r >= 0.0
  {
    SquareNonNegative(v.x);
    SquareNonNegative(v.y);
    SquareNonNegative(v.z);
    v.x * v.x + v.y * v.y + v.z * v.z
  }

  lemma SquareNonNegative(a: real)
    ensures a * a >= 0.0
  {
    if a < 0.0 {
      MulNonNegative(-a, -a);
    } else {
      MulNonNegative(a, a);
    }
  }

  /**
   * `CalcLoc(from, at, ci)` in two dimensions: with `d = at / ci` the
   * position in cell units, the gradient's contribution is `from . at`
   * weighted by `1 - |d|^2` inside the unit disc and 0 outside it.
   */
  function CalcLoc2(from: Vec2D, at: Vec2D, ci: real): (r: real)
    requires ci > 0.0
    ensures Norm2(Vec2D(at.x / ci, at.y / ci)) >= 1.0 ==> r == 0.0
    ensures Norm2(Vec2D(at.x / ci, at.y / ci)) < 1.0 ==>
              r == Dot2(from, at) * (1.0 - Norm2(Vec2D(at.x / ci, at.y / ci)))
  {
    var dx := at.x / ci;
    var dy := at.y / ci;
    var l := 1.0 - ((dx * dx) + (dy * dy));
    if l > 0.0 then Dot2(from, at) * l else 0.0
  }

  /** The falloff never amplifies: a contribution is at most the dot product in size. */
  lemma CalcLoc2Bounded(from: Vec2D, at: Vec2D, ci: real)
    requires ci > 0.0
    ensures Abs2(CalcLoc2(from, at, ci)) <= Abs2(Dot2(from, at))
  {
    var n := Norm2(Vec2D(at.x / ci, at.y / ci));
    if n < 1.0 {
      ScaleShrinks(Dot2(from, at), 1.0 - n);
    }
  }

  function Abs2(a: real): real { if a < 0.0 then -a else a }

  lemma ScaleShrinks(a: real, w: real)
    requires 0.0 < w <= 1.0
    ensures Abs2(a * w) <= Abs2(a)
  {
    if a >= 0.0 {
      assert a * w <= a * 1.0;
    } else {
      assert a * w >= a * 1.0;
    }
  }

  /** `CalcLoc(from, at, ci)` in three dimensions: the unit ball instead of the disc. */
  function CalcLoc3(from: Vec3D, at: Vec3D, ci: real): (r: real)
    requires ci > 0.0
    ensures Norm3(Vec3D(at.x / ci, at.y / ci, at.z / ci)) >= 1.0 ==> r == 0.0
    ensures Norm3(Vec3D(at.x / ci, at.y / ci, at.z / ci)) < 1.0 ==>
              r == Dot3(from, at) * (1.0 - Norm3(Vec3D(at.x / ci, at.y / ci, at.z / ci)))
  {
    var dx := at.x / ci;
    var dy := at.y / ci;
    var dz := at.z / ci;
    var l := 1.0 - ((dx * dx) + (dy * dy) + (dz * dz));
    if l > 0.0 then Dot3(from, at) * l else 0.0
  }

  /** The 3-D falloff never amplifies either. */
  lemma CalcLoc3Bounded(from: Vec3D, at: Vec3D, ci: real)
    requires ci > 0.0
    ensures Abs2(CalcLoc3(from, at, ci)) <= Abs2(Dot3(from, at))
  {
    var n := Norm3(Vec3D(at.x / ci, at.y / ci, at.z / ci));
    if n < 1.0 {
      ScaleShrinks(Dot3(from, at), 1.0 - n);
    }
  }

  /**
   * The four-corner sum of a 2-D `ProcessPoint`: the corner `(px, py)` sees
   * the point at `(dx, dy)`, the others at the complementary offsets.
   */
  function CornerSum2(n00: Vec2D, n10: Vec2D, n11: Vec2D, n01: Vec2D, dx: real, dy: real, ci: real): real
    requires ci > 0.0
  {
    CalcLoc2(n00, Vec2D(dx, dy), ci)
    + CalcLoc2(n10, Vec2D(ci - dx, dy), ci)
    + CalcLoc2(n11, Vec2D(ci - dx, ci - dy), ci)
    + CalcLoc2(n01, Vec2D(dx, ci - dy), ci)
  }

  /**
   * On a lattice point the corner sum vanishes whatever the gradients: the
   * own corner is at distance 0 and the other three at distance >= 1.
   */
  lemma CornerSum2AtLattice(n00: Vec2D, n10: Vec2D, n11: Vec2D, n01: Vec2D, ci: real)
    requires ci > 0.0
    ensures CornerSum2(n00, n10, n11, n01, 0.0, 0.0, ci) == 0.0
  {
    assert ci / ci == 1.0;
    assert CalcLoc2(n00, Vec2D(0.0, 0.0), ci) == 0.0;
    assert CalcLoc2(n10, Vec2D(ci, 0.0), ci) == 0.0;
    assert CalcLoc2(n11, Vec2D(ci, ci), ci) == 0.0;
    assert CalcLoc2(n01, Vec2D(0.0, ci), ci) == 0.0;
  }

  /** The eight-corner sum of a 3-D `ProcessPoint`, in the order the generator adds them. */
  function CornerSum3(n: seq<Vec3D>, dx: real, dy: real, dz: real, ci: real): real
    requires |n| == 8 && ci > 0.0
  {
    CalcLoc3(n[0], Vec3D(dx, dy, dz), ci)
    + CalcLoc3(n[1], Vec3D(ci - dx, dy, dz), ci)
    + CalcLoc3(n[2], Vec3D(ci - dx, ci - dy, dz), ci)
    + CalcLoc3(n[3], Vec3D(dx, ci - dy, dz), ci)
    + CalcLoc3(n[4], Vec3D(dx, dy, ci - dz), ci)
    + CalcLoc3(n[5], Vec3D(ci - dx, dy, ci - dz), ci)
    + CalcLoc3(n[6], Vec3D(ci - dx, ci - dy, ci - dz), ci)
    + CalcLoc3(n[7], Vec3D(dx, ci - dy, ci - dz), ci)
  }

  /** On a lattice point the eight-corner sum vanishes as well. */
  lemma CornerSum3AtLattice(n: seq<Vec3D>, ci: real)
    requires |n| == 8 && ci > 0.0
    ensures CornerSum3(n, 0.0, 0.0, 0.0, ci) == 0.0
  {
    assert ci / ci == 1.0;
    assert CalcLoc3(n[0], Vec3D(0.0, 0.0, 0.0), ci) == 0.0;
    assert CalcLoc3(n[1], Vec3D(ci, 0.0, 0.0), ci) == 0.0;
    assert CalcLoc3(n[2], Vec3D(ci, ci, 0.0), ci) == 0.0;
    assert CalcLoc3(n[3], Vec3D(0.0, ci, 0.0), ci) == 0.0;
    assert CalcLoc3(n[4], Vec3D(0.0, 0.0, ci), ci) == 0.0;
    assert CalcLoc3(n[5], Vec3D(ci, 0.0, ci), ci) == 0.0;
    assert CalcLoc3(n[6], Vec3D(ci, ci, ci), ci) == 0.0;
    assert CalcLoc3(n[7], Vec3D(0.0, ci, ci), ci) == 0.0;
  }

  /**
   * The value a 2-D `ProcessPoint` gives sample `(x, y)` of the octave of
   * width `ci` from the four nodes around its cell: the faded offsets within
   * the cell, the four-corner sum, divided by the base interval and by 2.
   */
  function CellValue2(n00: Vec2D, n10: Vec2D, n11: Vec2D, n01: Vec2D, x: nat, y: nat, ci: int, interval: int): real
    requires ci > 0 && interval != 0
  {
    var dx := FullFade((x % ci) as real, ci as real);
    var dy := FullFade((y % ci) as real, ci as real);
    CornerSum2(n00, n10, n11, n01, dx, dy, ci as real) / interval as real / 2.0
  }

  /** A sample on a lattice point of its octave gets nothing from that octave. */
  lemma CellValue2AtLattice(n00: Vec2D, n10: Vec2D, n11: Vec2D, n01: Vec2D, x: nat, y: nat, ci: int, interval: int)
    requires ci > 0 && interval != 0
    requires x % ci == 0 && y % ci == 0
    ensures CellValue2(n00, n10, n11, n01, x, y, ci, interval) == 0.0
  {
    CornerSum2AtLattice(n00, n10, n11, n01, ci as real);
  }

  /** A cell value depends on the sample only through its offset in the cell. */
  lemma CellValue2Periodic(n00: Vec2D, n10: Vec2D, n11: Vec2D, n01: Vec2D, x: nat, x': nat, y: nat, ci: int, interval: int)
    requires ci > 0 && interval != 0 && x % ci == x' % ci
    ensures CellValue2(n00, n10, n11, n01, x, y, ci, interval) == CellValue2(n00, n10, n11, n01, x', y, ci, interval)
  {
  }

  /**
   * The value a 3-D `ProcessPoint` gives sample `(x, y, z)` of the octave of
   * width `ci` from the eight nodes around its cell, in `CornerSum3` order.
   */
  function CellValue3(n: seq<Vec3D>, x: nat, y: nat, z: nat, ci: int, interval: int): real
    requires |n| == 8 && ci > 0 && interval != 0
  {
    var dx := FullFade((x % ci) as real, ci as real);
    var dy := FullFade((y % ci) as real, ci as real);
    var dz := FullFade((z % ci) as real, ci as real);
    CornerSum3(n, dx, dy, dz, ci as real) / interval as real / 2.0
  }

  /** A sample on a lattice point of its octave gets nothing from that octave. */
  lemma CellValue3AtLattice(n: seq<Vec3D>, x: nat, y: nat, z: nat, ci: int, interval: int)
    requires |n| == 8 && ci > 0 && interval != 0
    requires x % ci == 0 && y % ci == 0 && z % ci == 0
    ensures CellValue3(n, x, y, z, ci, interval) == 0.0
  {
    CornerSum3AtLattice(n, ci as real);
  }

  /**
   * The lattice of `max(size / ci + 2, 3)` nodes per axis covers every
   * sample `0 <= x <= size`: the far corner `x / ci + 1` is in range.
   */
  lemma LatticeCoversClosed(size: int, ci: int, x: int)
    requires ci > 0 && 0 <= x <= size
    ensures 0 <= x / ci && x / ci + 1 < Max(size / ci + 2, 3)
  {
    DivMonotone(x, size, ci);
  }

  /** A lattice of `size / ci + 2` nodes per axis covers every sample `0 <= x < size`. */
  lemma LatticeCoversOpen(size: int, ci: int, x: int)
    requires ci > 0 && 0 <= x < size
    ensures 0 <= x / ci && x / ci + 1 < size / ci + 2
  {
    DivMonotone(x, size, ci);
  }

  lemma DivMonotone(a: int, b: int, d: int)
    requires 0 <= a <= b && d > 0
    ensures a / d <= b / d
  {
    var q, p := a / d, b / d;
    assert q * d <= a <= b < (p + 1) * d;
    MulCancel(q, p + 1, d);
  }

  /**
   * What keeps an octave loop well defined: an octave is only run at a
   * positive width, and the octave number `divisor` times the width stays
   * within the base interval (so `divisor` fits an `int`).
   */
  predicate OctaveBounds(interval: Int32, cutoff: Int32, ci: int, divisor: int)
  {
    (cutoff >= 0 || ci <= cutoff) && 1 <= divisor && divisor * ci <= interval
  }

  /** Halving the width and doubling the octave number keeps `OctaveBounds`. */
  lemma HalveOctave(interval: Int32, cutoff: Int32, ci: int, divisor: int)
    requires OctaveBounds(interval, cutoff, ci, divisor) && ci > cutoff
    ensures ci > 0 && 1 <= divisor <= interval && divisor < TWO_31
    ensures OctaveBounds(interval, cutoff, ci / 2, divisor * 2)
  {
    MulMonotone(1, ci, divisor);
    assert divisor * 1 <= ci * divisor;
    assert (divisor * 2) * (ci / 2) == divisor * (2 * (ci / 2));
    MulMonotone(2 * (ci / 2), ci, divisor);
  }

  /** `HalveOctave` with the octave number written as `2^k`. */
  lemma NextOctave(interval: Int32, cutoff: Int32, ci: int, k: nat)
    requires OctaveBounds(interval, cutoff, ci, Pow2(k)) && ci > cutoff
    ensures ci > 0 && interval > 0
    ensures OctaveBounds(interval, cutoff, ci / 2, Pow2(k + 1))
  {
    HalveOctave(interval, cutoff, ci, Pow2(k));
    assert Pow2(k + 1) == Pow2(k) * 2;
  }

  /**
   * Octave `k` of a running octave loop has octave number `2^k` at most the
   * base interval, so fewer than `interval < 2^31` octaves run.
   */
  lemma OctaveCountBound(interval: Int32, cutoff: Int32, ci: int, k: nat)
    requires OctaveBounds(interval, cutoff, ci, Pow2(k)) && ci > cutoff
    ensures k < Pow2(k) <= interval < TWO_31
  {
    HalveOctave(interval, cutoff, ci, Pow2(k));
    Pow2Exceeds(k);
  }

  lemma {:induction false} Pow2Exceeds(k: nat)
    ensures k < Pow2(k)
  {
    if k > 0 {
      Pow2Exceeds(k - 1);
    }
  }
}

=== FILE: spatial_hash.dfy ===
/**
 * The coordinate hash oracle: a pair of 64-bit seeds and a pure function
 * from (seed pair, integer coordinates, channel) to a 64-bit value.
 *
 * All arithmetic is C# unchecked `ulong` arithmetic, i.e. `bv64` here:
 * products and sums wrap modulo 2^64, `(ulong)` of a negative `int`
 * sign-extends, and a 64-bit shift uses only the low six bits of its count.
 */
module SpatialHashing {
  import opened CSharpInt
  import opened Bits

  const INT_MASK: bv64 := 0x7fff_ffff
  const LONG_MASK: bv64 := 0x7fff_ffff_ffff_ffff

  /** The two seed words; both are read-only once the hash exists. */
  datatype SpatialHash = SpatialHash(seed1: bv64, seed2: bv64)

  /** The multiply-add-xorshift mixer that derives the secondary seed. */
  function GenSecondSeed(val: bv64): bv64
  {
    var v1 := val * 5443;
    var v2 := v1 + 1548586312338621;
    var v3 := v2 ^ (v2 >> 19);
    var v4 := v3 ^ (v3 << 31);
    var v5 := v4 ^ (v4 >> 23);
    v5 ^ (v5 << 7)
  }

  /** The one-seed constructor: the secondary seed is mixed from the primary. */
  function FromSeed(theSeed: bv64): (h: SpatialHash)
    ensures h.seed1 == theSeed && h.seed2 == GenSecondSeed(theSeed)
  {
    SpatialHash(theSeed, GenSecondSeed(theSeed))
  }

  /** `operator ==`: both seed words match. */
  function Eq(one: SpatialHash, other: SpatialHash): (r: bool)
    ensures r <==> one == other
  {
    one.seed1 == other.seed1 && one.seed2 == other.seed2
  }

  /** `operator !=`. */
  function NotEq(one: SpatialHash, other: SpatialHash): (r: bool)
    ensures r <==> one != other
    ensures r == !Eq(one, other)
  {
    !Eq(one, other)
  }

  /** `Equals(other)`: the same comparison as `==`. */
  function Equals(self: SpatialHash, other: SpatialHash): (r: bool)
    ensures r == Eq(self, other)
  {
    self.seed1 == other.seed1 && self.seed2 == other.seed2
  }

  /** `GetHashCode()`: `(int)seed1`, the low 32 bits of the primary seed. */
  function GetHashCode(h: SpatialHash): (r: Int32)
    ensures (r - h.seed1 as int) % TWO_32 == 0
  {
    Low32Signed(Unsigned(h.seed1))
  }

  /** Equal hashes have equal hash codes. */
  lemma EqualsAgreesWithHashCode(a: SpatialHash, b: SpatialHash)
    requires Equals(a, b)
    ensures GetHashCode(a) == GetHashCode(b)
  {
  }

  /** Two hashes built from the same single seed compare equal. */
  lemma SameSeedCompareEqual(seed: bv64)
    ensures Eq(FromSeed(seed), FromSeed(seed)) && !NotEq(FromSeed(seed), FromSeed(seed))
  {
  }

  /** `(ulong)x` for a C# `int`: the 64-bit pattern of `x`, sign-extended. */
  function ToUlong(x: Int32): bv64
  {
    if x >= 0 then x as bv64 else (x + TWO_64) as bv64
  }

  /** `x & INT_MASK` for a C# `int`: the sign bit cleared. */
  function MaskSign(x: Int32): (r: int)
    ensures 0 <= r < TWO_31
    ensures (r - x) % TWO_31 == 0
  {
    if x >= 0 then x else x + TWO_31
  }

  /**
   * `rotateLeft(val, dist)`, i.e. `(val << dist) | (val >> (64 - dist))`
   * where each shift count is reduced to its low six bits, as C# does for
   * 64-bit shifts (`d % 64` below is exactly that for negative `d` too).
   */
  function RotateLeft(val: bv64, dist: int): (r: bv64)
    ensures dist % 64 == 0 ==> r == val
  {
    (val << (dist % 64)) | (val >> ((64 - dist) % 64))
  }

  /** `rotateRight(val, dist)`, with the same six-bit shift counts. */
  function RotateRight(val: bv64, dist: int): (r: bv64)
    ensures dist % 64 == 0 ==> r == val
  {
    (val >> (dist % 64)) | (val << ((64 - dist) % 64))
  }

  /** A rotate-and-xor step: `v ^= rotate(v, dist)`. At a distance that is a multiple of 64 it clears `v`. */
  function XorRotL(v: bv64, dist: int): (r: bv64)
    ensures dist % 64 == 0 ==> r == 0
  {
    v ^ RotateLeft(v, dist)
  }

  function XorRotR(v: bv64, dist: int): (r: bv64)
    ensures dist % 64 == 0 ==> r == 0
  {
    v ^ RotateRight(v, dist)
  }

  /**
   * Distance of a `put` rotation: `((c & INT_MASK) % m) + base`. Masking the
   * sign first keeps it in a fixed positive range.
   */
  function PutDistance(c: Int32, m: int, base: int): (d: int)
    requires m > 0
    ensures base <= d < base + m
  {
    TruncRem(MaskSign(c), m) + base
  }

  /**
   * Distance of an `alt` rotation: `(c % m) + base` with the remainder
   * following the sign of `c`, so it reaches below `base` and can be 0.
   */
  function AltDistance(c: Int32, m: int, base: int): (d: int)
    requires m > 0
    ensures base - m < d < base + m
    ensures c >= 0 ==> d >= base
  {
    TruncRem(c, m) + base
  }

  /** The first accumulator of the 3-coordinate hash, before diffusion. */
  function PutSum3(seed1: bv64, x: Int32, z: Int32, t: Int32): bv64
  {
    seed1 + 15485077 * ToUlong(t) + 12338621 * ToUlong(x) + 14416417 * ToUlong(z)
  }

  /** The second accumulator of the 3-coordinate hash, before diffusion. */
  function AltSum3(seed2: bv64, x: Int32, z: Int32, t: Int32): bv64
  {
    seed2 + 179424743 * ToUlong(t) + 179426003 * ToUlong(x) + 179425819 * ToUlong(z)
  }

  /** The four `alt ^= rotate(alt, ...)` steps of the 3-coordinate hash. */
  function AltDiffuse3(alt: bv64, x: Int32, z: Int32, t: Int32): bv64
  {
    var a1 := XorRotL(alt, AltDistance(x, 29, 13));
    var a2 := XorRotR(a1, AltDistance(z, 31, 7));
    var a3 := XorRotL(a2, AltDistance(t, 23, 19));
    XorRotR(a3, AltDistance(z, 31, 7))
  }

  /** The three `put ^= rotate(put, ...)` steps of the 3-coordinate hash. */
  function PutDiffuse3(put: bv64, x: Int32, z: Int32, t: Int32): bv64
  {
    var p1 := XorRotL(put, PutDistance(x, 13, 5));
    var p2 := XorRotR(p1, PutDistance(z, 11, 28));
    XorRotL(p2, PutDistance(t, 17, 45))
  }

  /** A zero first `alt` distance clears the accumulator for good: later rotations of 0 stay 0. */
  lemma AltCollapse3(alt: bv64, x: Int32, z: Int32, t: Int32)
    requires TruncRem(x, 29) == -13
    ensures AltDiffuse3(alt, x, z, t) == 0
  {
    var a1 := XorRotL(alt, AltDistance(x, 29, 13));
    assert a1 == 0;
    var a2 := XorRotR(a1, AltDistance(z, 31, 7));
    assert a2 == 0;
    var a3 := XorRotL(a2, AltDistance(t, 23, 19));
    assert a3 == 0;
  }

  /**
   * `UlongFor(x, z, t)`: the hash of a 2-D coordinate on channel `t`.
   * When `x % 29 == -13` the first `alt` rotation distance is 0, the xor
   * clears the second accumulator, and the result no longer depends on `seed2`.
   */
  function UlongFor3(h: SpatialHash, x: Int32, z: Int32, t: Int32): (r: bv64)
    ensures TruncRem(x, 29) == -13 ==> r == PutDiffuse3(PutSum3(h.seed1, x, z, t), x, z, t)
  {
    var put := PutDiffuse3(PutSum3(h.seed1, x, z, t), x, z, t);
    var alt := AltDiffuse3(AltSum3(h.seed2, x, z, t), x, z, t);
    if TruncRem(x, 29) == -13 then AltCollapse3(AltSum3(h.seed2, x, z, t), x, z, t); put ^ alt
    else put ^ alt
  }

  /** The first accumulator of the 4-coordinate hash, before diffusion. */
  function PutSum4(seed1: bv64, x: Int32, y: Int32, z: Int32, t: Int32): bv64
  {
    seed1 + 15485077 * ToUlong(t) + 12338621 * ToUlong(x) + 15495631 * ToUlong(y) + 14416417 * ToUlong(z)
  }

  /** The second accumulator of the 4-coordinate hash, before diffusion. */
  function AltSum4(seed2: bv64, x: Int32, y: Int32, z: Int32, t: Int32): bv64
  {
    seed2 + 179424743 * ToUlong(t) + 179426003 * ToUlong(x) + 29556049 * ToUlong(y) + 179425819 * ToUlong(z)
  }

  /** The four `alt` steps of the 4-coordinate hash: the last one uses `y % 7 + 7`. */
  function AltDiffuse4(alt: bv64, x: Int32, y: Int32, z: Int32, t: Int32): bv64
  {
    var a1 := XorRotL(alt, AltDistance(x, 29, 13));
    var a2 := XorRotR(a1, AltDistance(z, 31, 7));
    var a3 := XorRotL(a2, AltDistance(t, 23, 19));
    XorRotR(a3, AltDistance(y, 7, 7))
  }

  /** The three `put` steps of the 4-coordinate hash: the last one uses `(y & INT_MASK) % 23 + 37`. */
  function PutDiffuse4(put: bv64, x: Int32, y: Int32, z: Int32): bv64
  {
    var p1 := XorRotL(put, PutDistance(x, 13, 5));
    var p2 := XorRotR(p1, PutDistance(z, 11, 28));
    XorRotL(p2, PutDistance(y, 23, 37))
  }

  lemma AltCollapse4(alt: bv64, x: Int32, y: Int32, z: Int32, t: Int32)
    requires TruncRem(x, 29) == -13
    ensures AltDiffuse4(alt, x, y, z, t) == 0
  {
    var a1 := XorRotL(alt, AltDistance(x, 29, 13));
    assert a1 == 0;
    var a2 := XorRotR(a1, AltDistance(z, 31, 7));
    assert a2 == 0;
    var a3 := XorRotL(a2, AltDistance(t, 23, 19));
    assert a3 == 0;
  }

  /**
   * `UlongFor(x, y, z, t)`: the hash of a 3-D coordinate on channel `t`,
   * with the same loss of `seed2` when `x % 29 == -13`.
   */
  function UlongFor4(h: SpatialHash, x: Int32, y: Int32, z: Int32, t: Int32): (r: bv64)
    ensures TruncRem(x, 29) == -13 ==> r == PutDiffuse4(PutSum4(h.seed1, x, y, z, t), x, y, z)
  {
    var put := PutDiffuse4(PutSum4(h.seed1, x, y, z, t), x, y, z);
    var alt := AltDiffuse4(AltSum4(h.seed2, x, y, z, t), x, y, z, t);
    if TruncRem(x, 29) == -13 then AltCollapse4(AltSum4(h.seed2, x, y, z, t), x, y, z, t); put ^ alt
    else put ^ alt
  }

  /**
   * Every `put` rotation distance lies in a fixed positive range below 64,
   * so no `put` step ever degenerates into clearing the accumulator.
   */
  lemma PutDistancesInRange(x: Int32, y: Int32, z: Int32, t: Int32)
    ensures 5 <= PutDistance(x, 13, 5) <= 17
    ensures 28 <= PutDistance(z, 11, 28) <= 38
    ensures 45 <= PutDistance(t, 17, 45) <= 61
    ensures 37 <= PutDistance(y, 23, 37) <= 59
    ensures PutDistance(x, 13, 5) % 64 != 0 && PutDistance(z, 11, 28) % 64 != 0
    ensures PutDistance(t, 17, 45) % 64 != 0 && PutDistance(y, 23, 37) % 64 != 0
  {
  }

  /**
   * The `alt` distances follow the sign of the coordinate; at the negative
   * coordinate -13 the first one is exactly 0 (a full turn), and in general
   * it spans (-16, 42).
   */
  lemma AltDistanceReachesZero()
    ensures AltDistance(-13, 29, 13) == 0
    ensures TruncRem(-13, 29) == -13
  {
    assert TruncDiv(-13, 29) == 0;
  }

  /** `BoolFor(x, z, t)`: the lowest bit of the 3-coordinate hash. */
  function BoolFor(h: SpatialHash, x: Int32, z: Int32, t: Int32): bool
  {
    UlongFor3(h, x, z, t) & 1 == 1
  }

  /** `IntFor(x, z, t)`: the low 32 bits of the hash as a C# `int`. */
  function IntFor3(h: SpatialHash, x: Int32, z: Int32, t: Int32): Int32
  {
    Low32Signed(Unsigned(UlongFor3(h, x, z, t)))
  }

  /** `IntFor(x, y, z, t)`. */
  function IntFor4(h: SpatialHash, x: Int32, y: Int32, z: Int32, t: Int32): Int32
  {
    Low32Signed(Unsigned(UlongFor4(h, x, y, z, t)))
  }

  /** `PintFor(x, z, t)`: the low 31 bits of the hash, a non-negative `int`. */
  function PintFor3(h: SpatialHash, x: Int32, z: Int32, t: Int32): Int32
  {
    Low31(Unsigned(UlongFor3(h, x, z, t)))
  }

  /** `PintFor(x, y, z, t)`. */
  function PintFor4(h: SpatialHash, x: Int32, y: Int32, z: Int32, t: Int32): Int32
  {
    Low31(Unsigned(UlongFor4(h, x, y, z, t)))
  }

  /** `PintFor` is `IntFor` with the sign bit cleared: they agree or differ by exactly 2^31. */
  lemma PintForIsMaskedIntFor(h: SpatialHash, x: Int32, z: Int32, t: Int32)
    ensures IntFor3(h, x, z, t) >= 0 ==> PintFor3(h, x, z, t) == IntFor3(h, x, z, t)
    ensures IntFor3(h, x, z, t) < 0 ==> PintFor3(h, x, z, t) == IntFor3(h, x, z, t) + TWO_31
  {
  }

  /** `LongFor(x, y, t)`: all 64 bits of the 3-coordinate hash as a C# `long`. */
  function LongFor3(h: SpatialHash, x: Int32, z: Int32, t: Int32): Int64
  {
    Signed64(Unsigned(UlongFor3(h, x, z, t)))
  }

  /** `LongFor(x, y, z, t)`. */
  function LongFor4(h: SpatialHash, x: Int32, y: Int32, z: Int32, t: Int32): Int64
  {
    Signed64(Unsigned(UlongFor4(h, x, y, z, t)))
  }

  /** `PlngFor(x, y, t)`: the low 63 bits of the hash, a non-negative `long`. */
  function PlngFor(h: SpatialHash, x: Int32, z: Int32, t: Int32): Int64
  {
    Low63(Unsigned(UlongFor3(h, x, z, t)))
  }

  /** `PlongFor(x, y, z, t)`. */
  function PlongFor(h: SpatialHash, x: Int32, y: Int32, z: Int32, t: Int32): Int64
  {
    Low63(Unsigned(UlongFor4(h, x, y, z, t)))
  }

  /** `PlngFor` is `LongFor` with the sign bit cleared. */
  lemma PlngForIsMaskedLongFor(h: SpatialHash, x: Int32, z: Int32, t: Int32)
    ensures LongFor3(h, x, z, t) >= 0 ==> PlngFor(h, x, z, t) == LongFor3(h, x, z, t)
    ensures LongFor3(h, x, z, t) < 0 ==> PlngFor(h, x, z, t) == LongFor3(h, x, z, t) + TWO_63
  {
  }

  /** `DoubleFor(x, z, t)`: the hash over `ulong.MaxValue`, exact over the reals. */
  function DoubleFor3(h: SpatialHash, x: Int32, z: Int32, t: Int32): real
  {
    UnitFraction(Unsigned(UlongFor3(h, x, z, t)))
  }

  /** `DoubleFor(x, y, z, t)`. */
  function DoubleFor4(h: SpatialHash, x: Int32, y: Int32, z: Int32, t: Int32): real
  {
    UnitFraction(Unsigned(UlongFor4(h, x, y, z, t)))
  }
}

=== FILE: vectors.dfy ===
/**
 * The gradient vectors of the noise generators: plain pairs and triples of
 * doubles (reals here) whose hash-driven constructors draw each component
 * from one channel of the coordinate hash, mapped from `[0, 1]` to `[-1, 1]`.
 */
module Vectors {
  import opened CSharpInt
  import opened Bits
  import opened SpatialHashing

  /** `Vec2D`; the plain constructor `Vec2D(x, y)` is the datatype constructor. */
  datatype Vec2D = Vec2D(x: real, y: real)

  /** `Vec3D`, with its instance `Dot`. */
  datatype Vec3D = Vec3D(x: real, y: real, z: real)
  {
    /** The instance `a.Dot(b)`. */
    function Dot(b: Vec3D): real
    {
      (x * b.x) + (y * b.y) + (z * b.z)
    }
  }

  /** A component drawn from the hash: `d * 2 - 1`, from `[0, 1]` onto `[-1, 1]`. */
  function Component(d: real): (c: real)
    requires 0.0 <= d <= 1.0
    ensures -1.0 <= c <= 1.0
    ensures d == 0.0 ==> c == -1.0
    ensures d == 1.0 ==> c == 1.0
  {
    d * 2.0 - 1.0
  }

  predicate InUnitSquare(v: Vec2D)
  {
    -1.0 <= v.x <= 1.0 && -1.0 <= v.y <= 1.0
  }

  predicate InUnitCube(v: Vec3D)
  {
    -1.0 <= v.x <= 1.0 && -1.0 <= v.y <= 1.0 && -1.0 <= v.z <= 1.0
  }

  /** The `[0, 1]` value of the 3-coordinate hash on channel `t`. */
  function Unit3(h: SpatialHash, x: Int32, z: Int32, t: Int32): (d: real)
    ensures 0.0 <= d <= 1.0
  {
    UnitFraction(Unsigned(UlongFor3(h, x, z, t)))
  }

  /** The `[0, 1]` value of the 4-coordinate hash on channel `t`. */
  function Unit4(h: SpatialHash, x: Int32, y: Int32, z: Int32, t: Int32): (d: real)
    ensures 0.0 <= d <= 1.0
  {
    UnitFraction(Unsigned(UlongFor4(h, x, y, z, t)))
  }

  /** `DoubleFor` is the unit value of the hash. */
  lemma UnitIsDoubleFor(h: SpatialHash, x: Int32, y: Int32, z: Int32, t: Int32)
    ensures Unit3(h, x, z, t) == DoubleFor3(h, x, z, t)
    ensures Unit4(h, x, y, z, t) == DoubleFor4(h, x, y, z, t)
  {
  }

  /**
   * `Vec2D(random, px, py, pz)`: `x` from channel `pz` and `y` from channel
   * `pz + 1` (an unchecked `int` sum) of the 3-coordinate hash at `(px, py)`.
   */
  function Vec2DFromHash(random: SpatialHash, px: Int32, py: Int32, pz: Int32): (v: Vec2D)
    ensures InUnitSquare(v)
    ensures v.x == Component(Unit3(random, px, py, pz))
    ensures v.y == Component(Unit3(random, px, py, Wrap32(pz + 1)))
  {
    Vec2D(Component(Unit3(random, px, py, pz)), Component(Unit3(random, px, py, Wrap32(pz + 1))))
  }

  /**
   * `Vec2D(random, px, py, pz, t)`: the 4-coordinate hash at `(px, py, pz)`
   * and `(px, py, pz + 1)`, both on the fixed channel `t`.
   */
  function Vec2DFromHash4(random: SpatialHash, px: Int32, py: Int32, pz: Int32, t: Int32): (v: Vec2D)
    ensures InUnitSquare(v)
    ensures v.x == Component(Unit4(random, px, py, pz, t))
    ensures v.y == Component(Unit4(random, px, py, Wrap32(pz + 1), t))
  {
    Vec2D(Component(Unit4(random, px, py, pz, t)), Component(Unit4(random, px, py, Wrap32(pz + 1), t)))
  }

  /**
   * Consecutive channels overlap: the `y` drawn for channel `pz` is the `x`
   * drawn for channel `pz + 1`. A caller needs a channel stride of 2 to get
   * independent vectors.
   */
  lemma Vec2DChannelsOverlap(random: SpatialHash, px: Int32, py: Int32, pz: Int32)
    ensures Vec2DFromHash(random, px, py, pz).y == Vec2DFromHash(random, px, py, Wrap32(pz + 1)).x
  {
  }

  /** `Vec3D(random, px, py, pz, t)`: components from channels `t`, `t + 1`, `t + 2` at one point. */
  function Vec3DFromHash(random: SpatialHash, px: Int32, py: Int32, pz: Int32, t: Int32): (v: Vec3D)
    ensures InUnitCube(v)
    ensures v.x == Component(Unit4(random, px, py, pz, t))
    ensures v.y == Component(Unit4(random, px, py, pz, Wrap32(t + 1)))
    ensures v.z == Component(Unit4(random, px, py, pz, Wrap32(t + 2)))
  {
    Vec3D(
      Component(Unit4(random, px, py, pz, t)),
      Component(Unit4(random, px, py, pz, Wrap32(t + 1))),
      Component(Unit4(random, px, py, pz, Wrap32(t + 2))))
  }

  /** Channels `t` and `t + 1` share two components of their vectors. */
  lemma Vec3DChannelsOverlap(random: SpatialHash, px: Int32, py: Int32, pz: Int32, t: Int32)
    requires t < 0x7fff_fffe
    ensures Vec3DFromHash(random, px, py, pz, t).y == Vec3DFromHash(random, px, py, pz, t + 1).x
    ensures Vec3DFromHash(random, px, py, pz, t).z == Vec3DFromHash(random, px, py, pz, t + 1).y
  {
  }

  /** The product of two values in `[-1, 1]` is in `[-1, 1]`. */
  lemma UnitProduct(a: real, b: real)
    requires -1.0 <= a <= 1.0 && -1.0 <= b <= 1.0
    ensures -1.0 <= a * b <= 1.0
  {
    if a >= 0.0 {
      if b >= 0.0 {
        assert a * b <= 1.0 * b;
      } else {
        assert a * b >= a * -1.0;
      }
    } else {
      if b >= 0.0 {
        assert a * b >= -1.0 * b;
      } else {
        assert a * b <= -1.0 * b;
      }
    }
  }

  /** `Vec2D.Dot(a, b)`: the sum of the componentwise products. */
  function Dot2(a: Vec2D, b: Vec2D): (r: real)
    ensures InUnitSquare(a) && InUnitSquare(b) ==> -2.0 <= r <= 2.0
  {
    if InUnitSquare(a) && InUnitSquare(b) then
      UnitProduct(a.x, b.x);
      UnitProduct(a.y, b.y);
      (a.x * b.x) + (a.y * b.y)
    else
      (a.x * b.x) + (a.y * b.y)
  }

  lemma Dot2Commutes(a: Vec2D, b: Vec2D)
    ensures Dot2(a, b) == Dot2(b, a)
  {
  }

  /** `Dot2` is bilinear: scaling one argument scales the product. */
  lemma Dot2Scales(a: Vec2D, b: Vec2D, k: real)
    ensures Dot2(Vec2D(k * a.x, k * a.y), b) == k * Dot2(a, b)
  {
  }

  /** The static `Vec3D.Dot(a, b)`. */
  function Dot3(a: Vec3D, b: Vec3D): (r: real)
    ensures InUnitCube(a) && InUnitCube(b) ==> -3.0 <= r <= 3.0
  {
    if InUnitCube(a) && InUnitCube(b) then
      UnitProduct(a.x, b.x);
      UnitProduct(a.y, b.y);
      UnitProduct(a.z, b.z);
      var px, py, pz := a.x * b.x, a.y * b.y, a.z * b.z;
      assert -1.0 <= px <= 1.0 && -1.0 <= py <= 1.0 && -1.0 <= pz <= 1.0;
      assert -2.0 <= px + py <= 2.0;
      px + py + pz
    else
      (a.x * b.x) + (a.y * b.y) + (a.z * b.z)
  }

  /** The static and the instance dot products agree. */
  lemma StaticDotIsInstanceDot(a: Vec3D, b: Vec3D)
    ensures Dot3(a, b) == a.Dot(b)
  {
  }

  lemma Dot3Commutes(a: Vec3D, b: Vec3D)
    ensures Dot3(a, b) == Dot3(b, a) == b.Dot(a)
  {
  }
}

=== FILE: wrappers.dfy ===
/** Option, for results that may be absent. */
module Wrappers {

  datatype Option<+T> = None | Some(value: T)
}
